=== FILE: README.md ===
# YellowBelly core logic in Dafny

A model of the self-contained logic inside the YellowBelly Unity VR demo,
with proofs of its properties. It covers seven pieces:

- **CSVTable**: the comma-separated table reader. It splits the text into
  lines, trims `\r`, splits on `,` and glues quoted fields back together.
  It also builds the header dictionary and the row array, and provides
  the row and table accessors with their exceptions.
- **RGInput**: the input component. It covers per-button press/release
  edge detection, the availability gate, and the development-build debug
  keys (F11 forced status, F9 touch-as-click). It also covers
  `GetStatus`, `UpdateControllerStates` and enable/disable of interaction.
- **Find**: the error-message formatter (`FormatError`, `FormatTag`) and
  the lookups that throw with it, including the "exactly one" rule of
  `ComponentInChildren`.
- **BuildSystem**: the Android build script. Modelled are the version
  string and the 32-bit version code, the scripting defines, the title and
  package name, the environment validation, the scenes list, the order
  in which `BuildForGear` writes its settings, and the two lines it logs.
- **GvrPointerManager**: change-only setters for the pointer and event
  camera, the camera-changed event, first-pointer-wins, and the scene-wide
  instance with its guarded destroy.
- **SingleInstanceBehavior**: the assertion-checked register/unregister of
  a type's single instance. The assertions exist only when `UNITY_ASSERTIONS`
  is defined, which is the `assertions` parameter (as in `Find.FormatError`).
- **PerFrameCounter**: the sorted counter dictionary. `Add` accumulates
  with 32-bit wrap-around, and `Update` formats the report and clears the
  dictionary.

Everything is a pure function over immutable datatypes. Engine state, such
as the static fields, `PlayerSettings` and the environment, is passed in
and returned explicitly. C# exceptions are `Result` failures, `null` is
`None`, and C# `int` arithmetic wraps through `Int32.Wrap`. Unity's
`Assert` reports and carries on, so a failed assertion is an extra output.

While input is gated (interaction disabled, no controller, or recentering)
the code samples nothing and feeds every button `false`
(RGInput.cs:102-130). A button held when the gate closes therefore reports
a release, and none is down (`RGInput.GatedFrameReleases`).

Shared modules:

- `Wrappers`: `Option` and `Result`.
- `Int32`: the int range and two's-complement wrap-around.
- `Text`: the .NET string operations the code relies on, with their
  round-trip lemmas. These are `Split(char)`, `Trim(char)`, ordinal
  `Replace`, `int.ToString` and `int.TryParse`.

## Model

| member | source | states |
|---|---|---|
| Text.Split | Assets/RGCommon/CSV/CSVTable.cs:119-121 | `String.Split(char)`: at least one piece, no piece holds the separator, and joining the pieces with it gives the input back |
| Text.JoinSplit | Assets/RGCommon/CSV/CSVTable.cs:119 | the inverse round trip: separator-free pieces joined by the separator split back into exactly those pieces |
| Text.SplitAppend | Assets/RGCommon/CSV/CSVTable.cs:119 | splitting `a + sep + b` gives the pieces of `a` followed by the pieces of `b` |
| Text.SplitSnoc | Assets/RGCommon/CSV/CSVTable.cs:135 | appending a non-separator character extends only the last piece |
| Text.SplitNoSeparator | Assets/RGCommon/CSV/CSVTable.cs:135 | a string without the separator splits into itself alone |
| Text.SplitWithSeparator | Assets/RGCommon/CSV/CSVTable.cs:135 | a string holding the separator splits into at least two pieces |
| Text.SplitAbsent | Assets/RGCommon/CSV/CSVTable.cs:135 | a character absent from the string is absent from every piece |
| Text.Trim | Assets/RGCommon/CSV/CSVTable.cs:121 | `String.Trim(char)`: the result is a contiguous slice of the input, everything removed before and after it is copies of the character, and it neither starts nor ends with it |
| Text.TrimStart | Assets/RGCommon/CSV/CSVTable.cs:121 | only leading copies of the character are removed, and the result does not start with it |
| Text.TrimEnd | Assets/RGCommon/CSV/CSVTable.cs:121 | only trailing copies of the character are removed, and the result does not end with it |
| Text.TrimAbsent | Assets/RGCommon/CSV/CSVTable.cs:121 | trimming a character that does not occur changes nothing |
| Text.ReplaceAllNoOccurrence | Assets/RGCommon/Find.cs:213-227 | ordinal `Replace` leaves a string without the pattern unchanged |
| Text.ReplaceAllSelf | Assets/RGCommon/Find.cs:213-227 | replacing a pattern by itself changes nothing |
| Text.ReplaceAllSkipPrefix | Assets/RGCommon/Find.cs:213-227 | text that cannot start the pattern passes through `Replace` untouched |
| Text.BracketedPlaceholder | Assets/RGCommon/Find.cs:213-227 | a `[[x]]` placeholder keeps one pair of brackets around the substituted value |
| Text.ReplaceAllFree | Assets/RGCommon/Find.cs:213-227 | text without the pattern's first character is left unchanged by `Replace` |
| Text.ReplaceAllConcat | Assets/RGCommon/Find.cs:213-227 | replacing a placeholder distributes over a concatenation whose first part holds no `[` or ends in `]` |
| Text.PlainGroupKept | Assets/RGCommon/Find.cs:213-227 | a bracket group of bracket-free text that does not spell the placeholder is left alone |
| Text.PlaceholderGroupKept | Assets/RGCommon/Find.cs:213-227 | a different placeholder in doubled brackets is left alone |
| Text.PlaceholderGroupFilled | Assets/RGCommon/Find.cs:213-227 | the placeholder in doubled brackets becomes the replacement in one pair of brackets |
| Text.NatToString | Assets/RGCommon/Build/Editor/BuildSystem.cs:24 | decimal digits whose value is the number |
| Text.IntToString | Assets/RGCommon/Build/Editor/BuildSystem.cs:24 | `int.ToString()`: a leading `-` exactly for negatives, then the digits of the absolute value |
| Text.ParseInt32 | Assets/RGCommon/Build/Editor/BuildSystem.cs:92 | `int.TryParse` succeeds only with a value in the int32 range |
| Text.ParseInt32Sound | Assets/RGCommon/Build/Editor/BuildSystem.cs:92 | a parsed value comes from an optionally signed run of digits between white space, the digits spelling its magnitude and a `-` exactly on negative values (`-0` reads as 0) |
| Text.ParseInt32Complete | Assets/RGCommon/Build/Editor/BuildSystem.cs:92 | every optionally signed run of digits between white space whose value is an int32 is read as that value, leading zeros and `+` included |
| Text.ParseInt32Rejects | Assets/RGCommon/Build/Editor/BuildSystem.cs:92 | a string holding any character that is not a digit, a sign or white space is not a number |
| Text.NonCanonicalNumerals | Assets/RGCommon/Build/Editor/BuildSystem.cs:92 | `"+7"` and `" 007 "` read as 7 and `"-0"` as 0, while `"- 7"` and `"+"` are rejected |
| Text.ParseFormattedInt | Assets/RGCommon/Build/Editor/BuildSystem.cs:24-92 | `TryParse` reads back every int32 that `ToString` writes |
| Text.IntToStringAvoids | Assets/RGCommon/Debug/PerFrameCounter.cs:33 | a formatted integer holds only digits and `-` |
| Text.ToLower | Assets/RGCommon/CSV/CSVTable.cs:78 | lower-casing acts character by character and keeps the length |
| Int32.Wrap | Assets/RGCommon/Build/Editor/BuildSystem.cs:32 | unchecked int32 arithmetic: the result is in range, congruent to the exact value modulo 2^32, and equal to it when that is in range |
| CsvTable.IndexHeaders | Assets/RGCommon/CSV/CSVTable.cs:123-126 | the dictionary holds exactly the headers; each maps to a column holding that name, and no earlier column than any of its occurrences (a duplicate maps to its last column) |
| CsvTable.StitchFrom | Assets/RGCommon/CSV/CSVTable.cs:144-174 | quote stitching never yields more fields than it is given |
| CsvTable.RowOfLine | Assets/RGCommon/CSV/CSVTable.cs:130-179 | an empty line leaves the default row; any other line gives a row carrying its index, the dictionary and the parsed fields |
| CsvTable.ParseRows | Assets/RGCommon/CSV/CSVTable.cs:128-180 | one slot per line after the first; the slot is default exactly when its line is empty, else it is the row of line i + 1 at index i |
| CsvTable.Parse | Assets/RGCommon/CSV/CSVTable.cs:119-133 | the table keeps its path; the headers are the first line trimmed and split on `,`; the dictionary indexes them; there is one row per later line, default exactly when the line is empty, else the parsed fields of line i + 1 at index i |
| CsvTable.Load | Assets/RGCommon/CSV/CSVTable.cs:103-117 | a `.csv` suffix or a missing asset is a FileLoadException; otherwise the table is the parse of the asset's text |
| CsvTable.ValidateHeader | Assets/RGCommon/CSV/CSVTable.cs:26-30 | no error exactly when the header is known; on a filled row the error is KeyNotFound |
| CsvTable.ValidateIndex | Assets/RGCommon/CSV/CSVTable.cs:31-35 | no error exactly when 0 <= i <= Length - 1; the error is the IndexOutOfRange message on a filled row and, because `i < 0` short-circuits, on the default row (index 0) at a negative index; the default row otherwise fails with NullReference |
| CsvTable.HasValue | Assets/RGCommon/CSV/CSVTable.cs:38-41 | succeeds exactly on a valid index, with true iff the column is non-empty; fails with IndexOutOfRange on a filled row or a negative index, and with NullReference on the default row otherwise |
| CsvTable.NotEmpty | Assets/RGCommon/CSV/CSVTable.cs:42-45 | succeeds exactly when the header exists and its column exists, with true iff that column is non-empty |
| CsvTable.GetColumn | Assets/RGCommon/CSV/CSVTable.cs:47-50 | the column on a valid index; otherwise the out-of-range message with the row's index (0 for the default row) on a filled row or a negative index, and NullReference on the default row at an index >= 0 |
| CsvTable.GetColumnByHeader | Assets/RGCommon/CSV/CSVTable.cs:52-55 | the header's column when the header and its column exist, otherwise an error |
| CsvTable.GetColumnInt | Assets/RGCommon/CSV/CSVTable.cs:61-63 | succeeds exactly when the column exists and parses as an int32, with that value; an out-of-range column reports IndexOutOfRange (also on the default row at a negative index) and an unreadable cell a parse failure of that cell |
| CsvTable.GetColumnIntByHeader | Assets/RGCommon/CSV/CSVTable.cs:57-59 | succeeds exactly when the header's column exists and parses as an int32, with the parsed value of that column |
| CsvTable.GetColumnBool | Assets/RGCommon/CSV/CSVTable.cs:77-80 | succeeds on a valid index, with true iff the cell equals "true" or "yes" ignoring case; otherwise fails with `GetColumn`'s error |
| CsvTable.GetColumnBoolByHeader | Assets/RGCommon/CSV/CSVTable.cs:73-75 | skips header validation: a missing header is the dictionary's own KeyNotFoundException; otherwise it is the by-index answer |
| CsvTable.Count | Assets/RGCommon/CSV/CSVTable.cs:83 | the number of columns; a default row throws |
| CsvTable.GetHeader | Assets/RGCommon/CSV/CSVTable.cs:185-191 | succeeds iff 0 <= i <= Length - 1, with that header; otherwise IndexOutOfRange |
| CsvTable.GetHeaderIndex | Assets/RGCommon/CSV/CSVTable.cs:193-195 | the header's column when it is known, otherwise KeyNotFound |
| CsvTable.GetRow | Assets/RGCommon/CSV/CSVTable.cs:205-211 | succeeds iff 0 <= i <= Length - 1, with that slot (default rows included); otherwise IndexOutOfRange |
| CsvTable.NumRowsIsLastIndex | Assets/RGCommon/CSV/CSVTable.cs:201 | the header is already outside the row array, so `NumRows` is the last index `GetRow` accepts, not the row count |
| CsvTable.Index | Assets/RGCommon/CSV/CSVTable.cs:85 | a filled row's stored index, and 0 for the default row |
| CsvTable.ParsedRowIndex | Assets/RGCommon/CSV/CSVTable.cs:128-179 | the row at `GetRow(i)` reports index i, or 0 when line i + 1 was empty |
| CsvRoundTrip.StitchPlain | Assets/RGCommon/CSV/CSVTable.cs:144-174 | fields none of which opens a quote pass through stitching unchanged |
| CsvRoundTrip.ParseFieldsIsStitch | Assets/RGCommon/CSV/CSVTable.cs:135-144 | the `Contains("\"")` test only saves work: a line without `"` yields exactly its plain comma-split fields |
| CsvRoundTrip.OpenRunDropped | Assets/RGCommon/CSV/CSVTable.cs:149-172 | a quoted run still open at the end of the line is lost with everything after its opening field |
| CsvRoundTrip.QuotedFieldWithoutCommaSwallowsLine | Assets/RGCommon/CSV/CSVTable.cs:153-160 | the opening field is never checked for a closing quote, so `"x"` without a comma swallows the rest of the line |
| CsvRoundTrip.OpenRunCloses | Assets/RGCommon/CSV/CSVTable.cs:161-171 | the pieces of one quoted cell, fed to an open run, are rejoined with `,` and the run closes at the piece ending in `"` |
| CsvRoundTrip.StitchEncodedCell | Assets/RGCommon/CSV/CSVTable.cs:144-174 | the comma-split pieces of one quoted cell stitch back into the cell |
| CsvRoundTrip.StitchEncodedLine | Assets/RGCommon/CSV/CSVTable.cs:135-175 | an encoded line of plain cells stitches back into exactly those cells |
| CsvRoundTrip.EncodedLineShape | Assets/RGCommon/CSV/CSVTable.cs:119-131 | an encoded row is a non-empty line without `\r` or `\n` |
| CsvRoundTrip.ParseEncodedLine | Assets/RGCommon/CSV/CSVTable.cs:135-175 | round trip of one line: parsing an encoded row gives back the row |
| CsvRoundTrip.EncodedTableLines | Assets/RGCommon/CSV/CSVTable.cs:119 | the lines of an encoded table are the header line followed by one line per row |
| CsvRoundTrip.LoadEncodedTable | Assets/RGCommon/CSV/CSVTable.cs:103-182 | round trip of a table: loading the encoded text gives back the headers, their dictionary, and row i at index i holding the cells of row i |
| CsvRoundTrip.NumRowsWithoutTrailingNewline | Assets/RGCommon/CSV/CSVTable.cs:128-201 | without a trailing newline `NumRows` is one less than the number of data rows |
| CsvRoundTrip.NumRowsWithTrailingNewline | Assets/RGCommon/CSV/CSVTable.cs:128-201 | with a trailing newline `NumRows` equals the number of data rows, and the extra last slot is a default row |
| RGInput.Ordinal | Assets/Script/RGInput.cs:6-10 | `(int)button`: Click, Touch and App are slots 0, 1 and 2 of the state array, each button its own slot, and `Count` = 3 |
| RGInput.Clear | Assets/Script/RGInput.cs:29-31 | all three flags become false |
| RGInput.UpdateState | Assets/Script/RGInput.cs:38-43 | isDown is the sample; pressed iff it was up and is down; released iff it was down and is up; never both |
| RGInput.RunEdges | Assets/Script/RGInput.cs:38-43 | over any run of samples, the flags describe only the last two samples (the first frame starts from up): recomputed, not latched |
| RGInput.ClickScenario | Assets/Script/RGInput.cs:38-43 | samples false, true, true, false: pressed only in frame 2, released only in frame 4 |
| RGInput.Initial | Assets/Script/RGInput.cs:46-64 | a new component has three cleared buttons, interaction enabled, no forced status and touch-as-click off |
| RGInput.GetStatus | Assets/Script/RGInput.cs:191-198 | a development build's forced status wins; otherwise the controller's state |
| RGInput.ToggleForcedStatus | Assets/Script/RGInput.cs:70-77 | F11 clears a forced Connected and forces Connected otherwise |
| RGInput.ToggleForcedStatusTwice | Assets/Script/RGInput.cs:70-77 | from no forced status or a forced Connected, pressing F11 twice restores the status |
| RGInput.DebugKeys | Assets/Script/RGInput.cs:68-82 | in development builds F11 toggles the forced status and F9 flips touch-as-click and logs "Simulating touch with click on" or "off" after the new setting; nothing else changes |
| RGInput.UpdateButtons | Assets/Script/RGInput.cs:111-130 | exactly one `UpdateState` per button, with the Click, Touch and App samples respectively |
| RGInput.Update | Assets/Script/RGInput.cs:67-133 | the array keeps three entries, each advanced by one `UpdateState`; interaction enabling is untouched; Escape released asks to quit; the debug keys' line is the one logged; with input available the orientation and touch position are those `UpdateControllerStates` reads |
| RGInput.UpdateTogglesDebugState | Assets/Script/RGInput.cs:68-82 | a frame flips the forced status only on F11 and touch-as-click only on F9, and a release build flips neither |
| RGInput.UpdateControllerStates | Assets/Script/RGInput.cs:203-217 | a connected controller supplies touch position and orientation; otherwise the touch position stays, and the orientation becomes the keyboard's in development builds |
| RGInput.GatedFrameReleases | Assets/Script/RGInput.cs:91-130 | disabled, not connected or recentering: every button is fed false, so none is down or pressed, and a held one reports a release |
| RGInput.OpenFrameFollowsSamples | Assets/Script/RGInput.cs:102-130 | enabled with input available: each button follows its raw sample formula |
| RGInput.PoseFrozenWithoutInput | Assets/Script/RGInput.cs:91-95 | orientation and touch position change only when input is available |
| RGInput.ForcedStatusUsesKeyboard | Assets/Script/RGInput.cs:91-216 | a forced Connected with the controller disconnected still takes input: the keyboard orientation applies and buttons are sampled |
| RGInput.GetButtonState | Assets/Script/RGInput.cs:138-165 | the button's own slot of the state array |
| RGInput.DisableInteraction | Assets/Script/RGInput.cs:175-177 | only `buttonsEnabled` changes, to false |
| RGInput.EnableInteraction | Assets/Script/RGInput.cs:179-181 | only `buttonsEnabled` changes, to true |
| RGInput.DisableReleasesHeldButtons | Assets/Script/RGInput.cs:102-177 | after disabling, the next frame reports a release for every held button and no button is down |
| Find.FormatTag | Assets/RGCommon/Find.cs:233-241 | `GameObject: '<name>'`, `MonoBehaviour: '<full type name>'`, or the short type name |
| Find.FormatTagDistinguishes | Assets/RGCommon/Find.cs:233-241 | game-object and behaviour tags never describe alike, and equal descriptions name the same object or type |
| Find.SubstituteSkipsPrefix | Assets/RGCommon/Find.cs:213-227 | text without `[` passes through the placeholder substitution unchanged |
| Find.FormatError | Assets/RGCommon/Find.cs:204-231 | always starts with "FIND ERROR! "; it is exactly that without assertions; with assertions it ends with a newline |
| Find.FormatErrorVerbatim | Assets/RGCommon/Find.cs:205-228 | without placeholders: prefix, template, the " -->\n    BUT: " separator, reason and newline, whatever the arguments |
| Find.FormatErrorNullArguments | Assets/RGCommon/Find.cs:213-227 | with every argument null the placeholders stay in the text |
| Find.SubstituteFills | Assets/RGCommon/Find.cs:213-227 | the five `Replace` steps turn a text of literals and placeholders into the same text with each placeholder whose argument is non-null (both for `[fullpath]`) replaced by its value, the others kept |
| Find.FormatErrorFills | Assets/RGCommon/Find.cs:204-231 | with assertions, the message is prefix, template, separator, reason and newline, each placeholder filled as above |
| Find.FormatErrorOnePlaceholder | Assets/RGCommon/Find.cs:204-231 | a template with one doubled-bracket placeholder: its slot holds the argument's text when the argument is non-null, and the placeholder otherwise |
| Find.FormatErrorTag | Assets/RGCommon/Find.cs:213-215 | `[[tag]]` becomes the caller's description in one pair of brackets |
| Find.FormatErrorGameObject | Assets/RGCommon/Find.cs:216-218 | `[[gameobject]]` becomes the game object's name in one pair of brackets |
| Find.FormatErrorQuotesPath | Assets/RGCommon/Find.cs:219-221 | `[[path]]` becomes the path in double quotes inside one pair of brackets |
| Find.FormatErrorFullPath | Assets/RGCommon/Find.cs:222-224 | `[[fullpath]]` becomes name, `/` and path in one pair of brackets when both are non-null |
| Find.FormatErrorFullPathNeedsGameObject | Assets/RGCommon/Find.cs:222-224 | with a null game object `[[fullpath]]` stays as written although the path is given |
| Find.FormatErrorComponent | Assets/RGCommon/Find.cs:225-227 | `[[component]]` becomes the type's short name in one pair of brackets |
| Find.FormatErrorThreeOne | Assets/RGCommon/Find.cs:204-231 | a template of three placeholders and a reason of one come out with all four filled |
| Find.QuotedInert | Assets/RGCommon/Find.cs:219-221 | a quoted bracket-free path cannot be taken for a placeholder by a later step |
| Find.ChildByName | Assets/RGCommon/Find.cs:155-162 | the found child, or a FIND ERROR when `Transform.Find` gives null |
| Find.ChildByNameMessage | Assets/RGCommon/Find.cs:155-159 | the missing-child message with the caller, game object, quoted path and full path written in |
| Find.ComponentOnGameObject | Assets/RGCommon/Find.cs:164-171 | the found component, or a FIND ERROR |
| Find.ComponentOnGameObjectMessage | Assets/RGCommon/Find.cs:164-168 | the missing-component message with the caller, game object (twice) and component name written in |
| Find.ComponentOnChild | Assets/RGCommon/Find.cs:173-186 | succeeds only when the child exists and carries the component |
| Find.ComponentOrCreate | Assets/RGCommon/Find.cs:94-100 | the existing component, or a newly added one exactly when none exists |
| Find.ComponentInChildren | Assets/RGCommon/Find.cs:188-198 | succeeds iff exactly one child component matches, with that one; zero or several is a FIND ERROR |
| Find.ComponentInChildrenMessage | Assets/RGCommon/Find.cs:188-196 | no match and several matches give their own full messages, each naming the component type |
| BuildSystem.GetEnv | Assets/RGCommon/Build/Editor/BuildSystem.cs:68-74 | succeeds iff the variable is set and non-empty, with its value; otherwise "Environment variable X not set" |
| BuildSystem.ReleaseFlagIgnoresValue | Assets/RGCommon/Build/Editor/BuildSystem.cs:64-66 | only the presence of `RELEASE_BUILD` selects a release build: set to "" it still does although `GetEnv` calls it unset, and removed it does not |
| BuildSystem.GetIntEnv | Assets/RGCommon/Build/Editor/BuildSystem.cs:89-98 | succeeds iff the variable is set and `TryParse` accepts it; otherwise the not-set or not-numeric message |
| BuildSystem.GetIntEnvReadsFormatted | Assets/RGCommon/Build/Editor/BuildSystem.cs:89-98 | a variable holding a formatted int32 reads back as that number |
| BuildSystem.VersionString | Assets/RGCommon/Build/Editor/BuildSystem.cs:24 | "major.minor.build": split on `.` it is exactly the three formatted numbers |
| BuildSystem.VersionStringRoundTrip | Assets/RGCommon/Build/Editor/BuildSystem.cs:24 | splitting the version string on `.` and parsing gives the three numbers back |
| BuildSystem.VersionCode | Assets/RGCommon/Build/Editor/BuildSystem.cs:32 | the int32 result of `major * 10000000 + minor * 100000 + build`, equal to the exact value when that fits |
| BuildSystem.VersionCodeStepwise | Assets/RGCommon/Build/Editor/BuildSystem.cs:32 | wrapping after each multiplication and addition, as C# does, gives the same code |
| BuildSystem.VersionCodeOrder | Assets/RGCommon/Build/Editor/BuildSystem.cs:30-32 | with minor < 100, build < 100000 and a non-overflowing code, a higher code means exactly a later version, and equal codes mean equal versions |
| BuildSystem.VersionCodeCollision | Assets/RGCommon/Build/Editor/BuildSystem.cs:30-32 | without the bounds the order fails: 1.100.0 and 2.0.0 share a code |
| BuildSystem.VersionCodeOverflow | Assets/RGCommon/Build/Editor/BuildSystem.cs:32 | major 215 overflows to a negative code below that of major 214 |
| BuildSystem.SetDefines | Assets/RGCommon/Build/Editor/BuildSystem.cs:76-87 | a development build writes the defines back unchanged; a release build extends them to end with RELEASE_BUILD |
| BuildSystem.SetDefinesAppendsSymbol | Assets/RGCommon/Build/Editor/BuildSystem.cs:78-84 | the symbol list gains exactly RELEASE_BUILD, with a `;` only when the defines were non-empty |
| BuildSystem.SetDefinesNotIdempotent | Assets/RGCommon/Build/Editor/BuildSystem.cs:78-84 | running the step twice lists RELEASE_BUILD twice |
| BuildSystem.GetApplicationTitle | Assets/RGCommon/Build/Editor/BuildSystem.cs:42-53 | release: PRODUCT_NAME; development: BUILD_NUMBER, a space and PRODUCT_NAME, reading BUILD_NUMBER first |
| BuildSystem.DevelopmentTitleShowsBuild | Assets/RGCommon/Build/Editor/BuildSystem.cs:47-51 | the first word of a development title reads back as the build number |
| BuildSystem.GetPackageName | Assets/RGCommon/Build/Editor/BuildSystem.cs:55-62 | the release or development prefix followed by PACKAGE_SUFFIX; fails iff the suffix is unset |
| BuildSystem.PackageNamesDiffer | Assets/RGCommon/Build/Editor/BuildSystem.cs:55-66 | release and development packages of one product always differ |
| BuildSystem.GetScenes | Assets/RGCommon/Build/Editor/BuildSystem.cs:100-103 | space-free scene names that join back into SCENES |
| BuildSystem.ScenesRoundTrip | Assets/RGCommon/Build/Editor/BuildSystem.cs:100-103 | a space-joined list of scene names reads back as that list |
| BuildSystem.SetVersion | Assets/RGCommon/Build/Editor/BuildSystem.cs:19-33 | succeeds iff the three numbers are readable, then writes the version string, the short version (unless Unity 5) and the code, and leaves every other setting as it was |
| BuildSystem.ConfigureKeys | Assets/RGCommon/Build/Editor/BuildSystem.cs:35-40 | the four signing settings are copied from the environment (null when unset) and nothing else changes |
| BuildSystem.Configure | Assets/RGCommon/Build/Editor/BuildSystem.cs:6-11 | the settings steps run in order: succeeds iff version, title and package name succeed; a failed version leaves the settings untouched, a failed title keeps exactly the version fields written, a failed package name keeps those and the title; on success every field written is stated: the three version fields, title, package name, expansion flag, defines and the four signing fields |
| BuildSystem.BuildForGear | Assets/RGCommon/Build/Editor/BuildSystem.cs:5-17 | the build request (scenes, APK_FILE) is made iff configuration, APK_FILE and SCENES succeed, and earlier settings stay written either way; "Building release/development build for Android..." is logged once APK_FILE is read, and "Built: <file>" exactly when the build is requested |
| BuildSystem.BuildForGearSucceeds | Assets/RGCommon/Build/Editor/BuildSystem.cs:5-17 | a build is requested exactly when every needed variable is set and the version numbers are int32 numerals |
| BuildSystem.MissingApkFileKeepsSettings | Assets/RGCommon/Build/Editor/BuildSystem.cs:10-13 | a missing APK_FILE fails after the defines have already been written |
| GvrPointerManager.Create | Assets/GoogleVR/Scripts/Controller/GvrPointerManager.cs:96-97 | a new manager has no pointer, no camera and no listeners |
| GvrPointerManager.SetPointer | Assets/GoogleVR/Scripts/Controller/GvrPointerManager.cs:50-57 | assigning the current pointer changes nothing; a new one is stored and mirrored into the gaze module |
| GvrPointerManager.SetPointerIdempotent | Assets/GoogleVR/Scripts/Controller/GvrPointerManager.cs:50-57 | assigning the same pointer twice is the same as once |
| GvrPointerManager.Raise | Assets/GoogleVR/Scripts/Controller/GvrPointerManager.cs:74-76 | the event reaches every subscription in order, each with the new camera |
| GvrPointerManager.SetPointerEventCamera | Assets/GoogleVR/Scripts/Controller/GvrPointerManager.cs:67-77 | assigning the current camera is silent; a new one is stored and announced to every subscriber |
| GvrPointerManager.CameraChangeAnnouncedOnce | Assets/GoogleVR/Scripts/Controller/GvrPointerManager.cs:67-77 | each subscription hears one change exactly once, and repeating the assignment announces nothing |
| GvrPointerManager.RaiseCounts | Assets/GoogleVR/Scripts/Controller/GvrPointerManager.cs:74-76 | a handler receives as many deliveries as it has subscriptions |
| GvrPointerManager.Subscribe | Assets/GoogleVR/Scripts/Controller/GvrPointerManager.cs:34 | `+=` appends the handler, duplicates allowed |
| GvrPointerManager.Unsubscribe | Assets/GoogleVR/Scripts/Controller/GvrPointerManager.cs:34 | `-=` removes the handler's last subscription and keeps the others in order, or changes nothing when it has none |
| GvrPointerManager.RemoveLast | Assets/GoogleVR/Scripts/Controller/GvrPointerManager.cs:34 | delegate removal: the list minus its last copy of the handler, the rest in order; unchanged when absent |
| GvrPointerManager.SubscribeUnsubscribe | Assets/GoogleVR/Scripts/Controller/GvrPointerManager.cs:34 | subscribing then unsubscribing restores the list |
| GvrPointerManager.OnPointerCreated | Assets/GoogleVR/Scripts/Controller/GvrPointerManager.cs:89-94 | a created pointer and camera are adopted only while no pointer is set |
| GvrPointerManager.FirstPointerWins | Assets/GoogleVR/Scripts/Controller/GvrPointerManager.cs:89-94 | after the first creation, a later one changes nothing and announces nothing |
| GvrPointerManager.Awake | Assets/GoogleVR/Scripts/Controller/GvrPointerManager.cs:99-108 | the first manager registers; a later one is disabled, logs the error and leaves the registration |
| GvrPointerManager.OnDestroy | Assets/GoogleVR/Scripts/Controller/GvrPointerManager.cs:110-114 | the registration is cleared only by its owner |
| GvrPointerManager.DuplicateManagerScenario | Assets/GoogleVR/Scripts/Controller/GvrPointerManager.cs:99-114 | with two managers the first stays registered, and destroying the disabled second does not unregister it |
| SingleInstance.Awake | Assets/RGCommon/Infrastructure/SingleInstanceBehavior.cs:27-30 | the component becomes the instance; a previous one is reported as a duplicate exactly when assertions are compiled in, and is replaced either way |
| SingleInstance.OnDestroy | Assets/RGCommon/Infrastructure/SingleInstanceBehavior.cs:32-34 | clears the instance whoever is destroyed |
| SingleInstance.Instance | Assets/RGCommon/Infrastructure/SingleInstanceBehavior.cs:36-41 | the registered instance or null; a null one is an assertion failure exactly when assertions are compiled in |
| SingleInstance.LastEventDecides | Assets/RGCommon/Infrastructure/SingleInstanceBehavior.cs:27-34 | after any non-empty history of awakes and destroys, the instance is the last awakened component if an awake came last, and null if a destroy did |
| SingleInstance.InstanceAfterAwake | Assets/RGCommon/Infrastructure/SingleInstanceBehavior.cs:27-41 | whatever came before, if an `Awake` came last, `Instance` is that component and reports nothing |
| SingleInstance.UnguardedDestroy | Assets/RGCommon/Infrastructure/SingleInstanceBehavior.cs:32-38 | with two awake components, destroying the older leaves no instance although the newer one lives, and reading `Instance` reports the missing instance |
| PerFrameCounter.LessIrreflexive | Assets/RGCommon/Debug/PerFrameCounter.cs:22 | the key order is strict |
| PerFrameCounter.LessAsymmetric | Assets/RGCommon/Debug/PerFrameCounter.cs:22 | the key order is asymmetric |
| PerFrameCounter.LessTotal | Assets/RGCommon/Debug/PerFrameCounter.cs:22 | any two distinct keys are ordered |
| PerFrameCounter.LessTransitive | Assets/RGCommon/Debug/PerFrameCounter.cs:22 | the key order is transitive |
| PerFrameCounter.LessFirstDifference | Assets/RGCommon/Debug/PerFrameCounter.cs:22 | a key sorts before another exactly when it is a proper prefix of it or holds the smaller character where they first differ (ordinal order) |
| PerFrameCounter.ToMap | Assets/RGCommon/Debug/PerFrameCounter.cs:22 | the sorted list and the dictionary it stands for have the same keys |
| PerFrameCounter.ToMapAt | Assets/RGCommon/Debug/PerFrameCounter.cs:22 | each entry of a sorted list is the dictionary's value for its key |
| PerFrameCounter.Insert | Assets/RGCommon/Debug/PerFrameCounter.cs:43-48 | insertion keeps the list strictly sorted and adds exactly the name to its keys |
| PerFrameCounter.InsertToMap | Assets/RGCommon/Debug/PerFrameCounter.cs:43-48 | as a dictionary, insertion updates only the name: `amount` when absent, else the wrapped sum |
| PerFrameCounter.Add | Assets/RGCommon/Debug/PerFrameCounter.cs:40-49 | outside the editor nothing changes; in the editor the keys gain the name and stay sorted |
| PerFrameCounter.AddSemantics | Assets/RGCommon/Debug/PerFrameCounter.cs:43-48 | an absent key is set to the amount, a present one gets it added with int wrap-around, and all other keys keep their values |
| PerFrameCounter.AddRepeatedly | Assets/RGCommon/Debug/PerFrameCounter.cs:41 | n calls with the default amount count to n |
| PerFrameCounter.AddTimes | Assets/RGCommon/Debug/PerFrameCounter.cs:41 | repeated default adds keep the list sorted |
| PerFrameCounter.Update | Assets/RGCommon/Debug/PerFrameCounter.cs:24-37 | an empty dictionary logs nothing and stays; otherwise a line starting "Counters:" is logged and the dictionary is cleared |
| PerFrameCounter.ReportRoundTrip | Assets/RGCommon/Debug/PerFrameCounter.cs:28-35 | the report is "Counters:" then " key:value" per entry in key order, and it parses back into the same entries |
| PerFrameCounter.SplitItems | Assets/RGCommon/Debug/PerFrameCounter.cs:28-34 | the space-split report is the heading followed by one `key:value` per entry |
| PerFrameCounter.ParseItemText | Assets/RGCommon/Debug/PerFrameCounter.cs:31-33 | one `key:value` item reads back as its entry |
| PerFrameCounter.ParseItemTexts | Assets/RGCommon/Debug/PerFrameCounter.cs:29-34 | the item list reads back as the entries |
| PerFrameCounter.SpacedKeyNotReadable | Assets/RGCommon/Debug/PerFrameCounter.cs:30-33 | keys are not escaped: a key holding a space yields a report that cannot be read back |

## Left out

- Engine and SDK calls are inputs or outputs, not modelled code:
  - `Resources.Load` is an `Option<string>`;
  - `GvrController`, the keyboard and `Time` are the `Frame` record;
  - `Transform.Find`, `GetComponent` and `GetComponentsInChildren` are their answers;
  - environment variables are a map;
  - `PlayerSettings` is the `Settings` record, and `BuildPipeline.BuildPlayer` is the `BuildRequest` returned; its target (`BuildTarget.Android`) and options (`BuildOptions.None`) are constants in the code and are not carried;
  - `Debug.Log` and `Debug.LogError` are returned strings;
  - `Application.Quit` is the `quit` flag.
- The keyboard orientation integration (RGInput.cs:210-215) uses floats and the frame time. It is taken as a ready `Quaternion` in the frame, and quaternions and vectors are opaque records of reals.
- `Row.GetColumnFloat` (CSVTable.cs:65-71): `float.Parse` is floating point and culture-dependent.
- The `ToString` overrides of `Row` and `CSVTable`, the `isLoaded` flag and `HasHeader`/`NumColumns` have no properties worth proving beyond their one-line bodies.
- Text.ReplaceAll and Find.Substitute carry no contract of their own. The ordinal `Replace` is stated by the `Text.ReplaceAll…` and group lemmas; the five-step substitution is stated by `Find.SubstituteFills`, `Find.SubstituteSkipsPrefix` and `Find.FormatErrorNullArguments`.
- RGInput.RawClick, RGInput.RawTouch and RGInput.RawApp are the sample formulas of RGInput.cs:102-130, written as definitions. `RGInput.OpenFrameFollowsSamples` and `RGInput.GatedFrameReleases` state how they reach the button states.
- PerFrameCounter.Less carries no contract of its own; `PerFrameCounter.LessFirstDifference` and the four order lemmas state it.
- Strings compare ordinally. In .NET, `StartsWith`/`EndsWith(string)`, `ToLower` and the default `SortedDictionary<string, int>` comparer are culture-sensitive. `ToLower` is modelled for ASCII letters only.
- Text.ParseInt32: leading and trailing white space and a sign are accepted as `int.TryParse` does with default styles. Trailing NUL characters, which .NET also accepts, and culture-specific signs are not.
- Text.IntToString: the invariant-culture form; a culture with a different negative sign is not modelled.
- Unity's overloaded `==` on destroyed objects is not modelled; objects are plain identifiers.
- The instance name and type text in SingleInstanceBehavior's assertion messages (SingleInstanceBehavior.cs:28, 38) are reduced to the identifiers involved.
- Find.FormatTag: the `GetType().Name`/`FullName` strings of arbitrary objects are inputs, as the runtime's reflection is not modelled.
- `PointerInteractor`, the float geometry of `TwoD`, and the other MonoBehaviours of the repository are not part of this model.
- Find.SubstituteFills: it requires `Substitutable`, which asks that no argument text a later `Replace` step could rewrite holds a bracket or spells a placeholder. The code substitutes such texts again, and the lemma does not describe that result.
- Find.FormatErrorFills: it requires that no argument text which a later `Replace` step could rewrite holds a bracket or spells a placeholder. The code substitutes such texts again (with a path given, a game object named `[path]` is itself replaced by the quoted path); the model's `Substitute` does so too, but the lemma does not describe the result.
- Find.FormatErrorOnePlaceholder: the same condition, on the one argument it writes in.
- Find.FormatErrorThreeOne: the same condition, on the four texts it writes in.
- Find.ChildByNameMessage: the caller's description and the game object's name must be inert (hold no bracket and not spell a placeholder), and the path must hold no bracket.
- Find.ComponentOnGameObjectMessage: the caller's description and the game object's name must be inert.
- Find.ComponentInChildrenMessage: the caller's description and the game object's name must be inert.
- Find.ComponentOnChild: its two messages (four placeholders in the template, up to two in the reason) are covered only by `Find.FormatErrorFills`, not written out.

=== FILE: build_system.dfy ===
/** BuildSystem: the build-metadata computation of the Android build script
    (Assets/RGCommon/Build/Editor/BuildSystem.cs).

    The process environment is a parameter: a map from variable name to
    value, where a missing key is a variable that is not set (`null` in
    C#). The editor's `PlayerSettings` are a record the script updates
    field by field; a thrown `ApplicationException` is a `Failure` carrying
    its message, and the fields written before the throw stay written. */
module BuildSystem {
  import opened Wrappers
  import opened Text
  import Int32

  type Env = map<string, string>

  // ---------------------------------------------------------------------
  // Environment validation
  // ---------------------------------------------------------------------

  function NotSetMessage(variable: string): string {
    "Environment variable " + variable + " not set"
  }

  function NotNumericMessage(variable: string, v: string): string {
    "Environment variable " + variable + " is not numeric: \"" + v + "\""
  }

  /** `GetEnv`: the value of a variable that is set and non-empty. */
  function GetEnv(env: Env, variable: string): (r: Result<string, string>)
    ensures r.Success? <==> variable in env && env[variable] != ""
    ensures r.Success? ==> r.value == env[variable] && |r.value| > 0
    ensures r.Failure? ==> r.error == NotSetMessage(variable)
  {
    if variable !in env || env[variable] == "" then Failure(NotSetMessage(variable))
    else Success(env[variable])
  }

  /** `GetIntEnv`: `GetEnv`, then `int.TryParse` of the value. */
  function GetIntEnv(env: Env, variable: string): (r: Result<int, string>)
    ensures r.Success? <==> GetEnv(env, variable).Success? && ParseInt32(env[variable]).Some?
    ensures r.Success? ==> Some(r.value) == ParseInt32(env[variable]) && Int32.InRange(r.value)
    ensures GetEnv(env, variable).Failure? ==> r.error == NotSetMessage(variable)
    ensures GetEnv(env, variable).Success? && r.Failure? ==>
              r.error == NotNumericMessage(variable, env[variable])
  {
    var v :- GetEnv(env, variable);
    match ParseInt32(v)
    case Some(n) => Success(n)
    case None => Failure(NotNumericMessage(variable, v))
  }

  /** Every int32 written into a variable is read back by `GetIntEnv`. */
  lemma GetIntEnvReadsFormatted(env: Env, variable: string, n: int)
    requires Int32.InRange(n)
    ensures GetIntEnv(env[variable := IntToString(n)], variable) == Success(n)
  {
    ParseFormattedInt(n);
  }

  /** `IsRelease`: the variable `RELEASE_BUILD` is set, even to "". */
  predicate IsRelease(env: Env) {
    "RELEASE_BUILD" in env
  }

  /** Only the presence of `RELEASE_BUILD` counts: set to the empty string
      it still selects a release build although `GetEnv` would call it
      unset, and removing it selects a development build. */
  lemma ReleaseFlagIgnoresValue(env: Env)
    ensures GetEnv(env, "RELEASE_BUILD").Success? ==> IsRelease(env)
    ensures var e := env["RELEASE_BUILD" := ""]; IsRelease(e) && GetEnv(e, "RELEASE_BUILD").Failure?
    ensures !IsRelease(env - {"RELEASE_BUILD"})
  {
  }

  // ---------------------------------------------------------------------
  // Version
  // ---------------------------------------------------------------------

  datatype Version = Version(major: int, minor: int, build: int)

  /** The dotted version string written to `bundleVersion`: split on `.`
      it falls apart into exactly the three formatted numbers, since no
      formatted integer holds a dot. */
  function VersionString(v: Version): (s: string)
    ensures Split(s, '.') == [IntToString(v.major), IntToString(v.minor), IntToString(v.build)]
  {
    var a, b, c := IntToString(v.major), IntToString(v.minor), IntToString(v.build);
    IntToStringAvoids(v.major, '.');
    IntToStringAvoids(v.minor, '.');
    IntToStringAvoids(v.build, '.');
    DottedSplits(a, b, c);
    a + "." + b + "." + c
  }

  /** Three dot-free texts joined by dots split back into the three. */
  lemma DottedSplits(a: string, b: string, c: string)
    requires '.' !in a && '.' !in b && '.' !in c
    ensures Split(a + "." + b + "." + c, '.') == [a, b, c]
  {
    SplitAppend(b, c, '.');
    SplitAppend(a, b + "." + c, '.');
    SplitNoSeparator(a, '.');
    SplitNoSeparator(b, '.');
    SplitNoSeparator(c, '.');
    Regroup5(a, ".", b, ".", c);
  }

  /** The Android version code: the exact value of the formula, wrapped
      to 32 bits as unchecked C# arithmetic does. */
  function VersionCode(v: Version): (code: int)
    ensures Int32.InRange(code)
    ensures Int32.InRange(RawVersionCode(v)) ==> code == RawVersionCode(v)
    ensures (code - RawVersionCode(v)) % Int32.Modulus == 0
  {
    Int32.Wrap(RawVersionCode(v))
  }

  /** The version code in exact arithmetic. */
  function RawVersionCode(v: Version): int {
    v.major * 10000000 + v.minor * 100000 + v.build
  }

  /** C# wraps after each multiplication and addition; doing so step by
      step gives the same code as wrapping the exact value once. */
  lemma VersionCodeStepwise(v: Version)
    ensures Int32.Wrap(Int32.Wrap(Int32.Wrap(v.major * 10000000) + Int32.Wrap(v.minor * 100000)) + v.build)
            == VersionCode(v)
  {
    var p, q, c := v.major * 10000000, v.minor * 100000, v.build;
    WrapAddLeft(Int32.Wrap(p) + Int32.Wrap(q), c);
    WrapAddLeft(p, Int32.Wrap(q) + c);
    WrapAddLeft(q, p + c);
    assert p + q + c == RawVersionCode(v);
  }

  /** Wrapping an operand before an addition does not change the wrapped
      sum. */
  lemma WrapAddLeft(x: int, y: int)
    ensures Int32.Wrap(Int32.Wrap(x) + y) == Int32.Wrap(x + y)
  {
    WrapCongruent(Int32.Wrap(x) + y, x + y);
  }

  /** Wrapping depends only on the residue modulo 2^32. */
  lemma WrapCongruent(x: int, y: int)
    requires (x - y) % Int32.Modulus == 0
    ensures Int32.Wrap(x) == Int32.Wrap(y)
  {
    var k := (x - y) / Int32.Modulus;
    assert x == y + k * Int32.Modulus;
    ModuloShift(y - Int32.Min, k);
  }

  lemma ModuloShift(a: int, k: int)
    ensures (a + k * Int32.Modulus) % Int32.Modulus == a % Int32.Modulus
  {
  }

  /** The version code is a faithful ordering key only inside the layout
      the formula reserves: two decimal digits of minor, five of build, and
      no overflow. */
  predicate Encodable(v: Version) {
    && 0 <= v.major && 0 <= v.minor < 100 && 0 <= v.build < 100000
    && Int32.InRange(RawVersionCode(v))
  }

  /** Lexicographic order on (major, minor, build). */
  predicate Later(a: Version, b: Version) {
    || a.major > b.major
    || (a.major == b.major && a.minor > b.minor)
    || (a.major == b.major && a.minor == b.minor && a.build > b.build)
  }

  /** Within the layout, a higher version code means exactly a later
      version, and equal codes mean equal versions: what Android needs to
      tell an update from a downgrade. */
  lemma VersionCodeOrder(a: Version, b: Version)
    requires Encodable(a) && Encodable(b)
    ensures VersionCode(a) > VersionCode(b) <==> Later(a, b)
    ensures VersionCode(a) == VersionCode(b) <==> a == b
  {
  }

  /** Outside the layout the code stops being an ordering key: a minor of
      100 collides with the next major version. */
  lemma VersionCodeCollision()
    ensures VersionCode(Version(1, 100, 0)) == VersionCode(Version(2, 0, 0))
    ensures Later(Version(2, 0, 0), Version(1, 100, 0))
  {
  }

  /** And past the 32-bit range a later version gets a smaller code. */
  lemma VersionCodeOverflow()
    ensures VersionCode(Version(215, 0, 0)) < VersionCode(Version(214, 0, 0))
    ensures VersionCode(Version(215, 0, 0)) < 0
  {
  }

  /** Reading a version string back: three dot-separated int32 numerals. */
  function ParseVersion(s: string): (r: Option<Version>)
    ensures r.Some? ==> |Split(s, '.')| == 3
  {
    var parts := Split(s, '.');
    if |parts| != 3 then None
    else
      var major :- ParseInt32(parts[0]);
      var minor :- ParseInt32(parts[1]);
      var build :- ParseInt32(parts[2]);
      Some(Version(major, minor, build))
  }

  /** The version string keeps all three numbers apart and readable. */
  lemma {:induction false} VersionStringRoundTrip(v: Version)
    requires Int32.InRange(v.major) && Int32.InRange(v.minor) && Int32.InRange(v.build)
    ensures ParseVersion(VersionString(v)) == Some(v)
  {
    ParseFormattedInt(v.major);
    ParseFormattedInt(v.minor);
    ParseFormattedInt(v.build);
  }

  // ---------------------------------------------------------------------
  // Defines, title, package name, scenes
  // ---------------------------------------------------------------------

  const ReleaseDefine: string := "RELEASE_BUILD"

  lemma ReleaseDefinePlain()
    ensures ';' !in ReleaseDefine && |ReleaseDefine| > 0
  {
    assert forall i | 0 <= i < |ReleaseDefine| :: ReleaseDefine[i] != ';';
  }

  /** `SetDefines`: a release build appends `RELEASE_BUILD` to the
      `;`-separated define list; a development build leaves it as it is. */
  function SetDefines(defines: string, release: bool): (r: string)
    ensures !release ==> r == defines
    ensures release ==> EndsWith(r, ReleaseDefine) && StartsWith(r, defines)
  {
    if !release then defines
    else if defines != "" then defines + ";" + ReleaseDefine
    else ReleaseDefine
  }

  /** As a list of symbols, a release build's defines are the old ones
      plus `RELEASE_BUILD` at the end; an empty list becomes just it. */
  lemma SetDefinesAppendsSymbol(defines: string)
    ensures defines == "" ==> Split(SetDefines(defines, true), ';') == [ReleaseDefine]
    ensures defines != "" ==> Split(SetDefines(defines, true), ';') == Split(defines, ';') + [ReleaseDefine]
  {
    ReleaseDefinePlain();
    SplitNoSeparator(ReleaseDefine, ';');
    if defines != "" {
      SplitAppend(defines, ReleaseDefine, ';');
    }
  }

  /** The symbol is appended even when it is already there, so running
      the step twice lists it twice. */
  lemma SetDefinesNotIdempotent(defines: string)
    ensures SetDefines(SetDefines(defines, true), true) != SetDefines(defines, true)
    ensures var twice := Split(SetDefines(SetDefines(defines, true), true), ';');
            twice == (if defines == "" then [] else Split(defines, ';')) + [ReleaseDefine, ReleaseDefine]
  {
    var once := SetDefines(defines, true);
    assert |SetDefines(once, true)| > |once|;
    SetDefinesAppendsSymbol(defines);
    ReleaseDefinePlain();
    SetDefinesAppendsSymbol(once);
  }

  /** `GetApplicationTitle`: the product name, prefixed in development
      builds by the build number so that it is always visible. The build
      number is read first. */
  function GetApplicationTitle(env: Env): (r: Result<string, string>)
    ensures IsRelease(env) ==> r == GetEnv(env, "PRODUCT_NAME")
    ensures !IsRelease(env) && GetEnv(env, "BUILD_NUMBER").Failure? ==> r == GetEnv(env, "BUILD_NUMBER").PropagateFailure()
    ensures !IsRelease(env) && GetEnv(env, "BUILD_NUMBER").Success? ==>
              && (r.Success? <==> GetEnv(env, "PRODUCT_NAME").Success?)
              && (r.Success? ==> r.value == env["BUILD_NUMBER"] + " " + env["PRODUCT_NAME"])
  {
    if IsRelease(env) then GetEnv(env, "PRODUCT_NAME")
    else
      var build :- GetEnv(env, "BUILD_NUMBER");
      var name :- GetEnv(env, "PRODUCT_NAME");
      Success(build + " " + name)
  }

  /** A development title starts with the build number followed by a
      space, and the product name is the rest. */
  lemma DevelopmentTitleShowsBuild(env: Env, build: int)
    requires !IsRelease(env) && Int32.InRange(build)
    requires GetEnv(env, "PRODUCT_NAME").Success?
    ensures var t := GetApplicationTitle(env["BUILD_NUMBER" := IntToString(build)]);
            && t.Success?
            && ParseInt32(Split(t.value, ' ')[0]) == Some(build)
  {
    var e := env["BUILD_NUMBER" := IntToString(build)];
    var b := IntToString(build);
    var name := env["PRODUCT_NAME"];
    assert GetApplicationTitle(e).value == b + [' '] + name;
    SplitAppend(b, name, ' ');
    IntToStringAvoids(build, ' ');
    SplitNoSeparator(b, ' ');
    ParseFormattedInt(build);
  }

  const ReleasePackagePrefix: string := "com.resolutiongames."
  const DevelopmentPackagePrefix: string := "com.resolutiongames.dev."

  /** `GetPackageName`. */
  function GetPackageName(env: Env): (r: Result<string, string>)
    ensures r.Success? <==> GetEnv(env, "PACKAGE_SUFFIX").Success?
    ensures r.Failure? ==> r.error == NotSetMessage("PACKAGE_SUFFIX")
    ensures r.Success? && IsRelease(env) ==> r.value == ReleasePackagePrefix + env["PACKAGE_SUFFIX"]
    ensures r.Success? && !IsRelease(env) ==> r.value == DevelopmentPackagePrefix + env["PACKAGE_SUFFIX"]
  {
    var suffix :- GetEnv(env, "PACKAGE_SUFFIX");
    if IsRelease(env) then Success(ReleasePackagePrefix + suffix)
    else Success(DevelopmentPackagePrefix + suffix)
  }

  /** A release build and a development build of the same product never
      share a package name, so both can be installed side by side. */
  lemma PackageNamesDiffer(env: Env)
    requires GetEnv(env, "PACKAGE_SUFFIX").Success?
    ensures var release := env["RELEASE_BUILD" := ""];
            var development := env - {"RELEASE_BUILD"};
            GetPackageName(release).value != GetPackageName(development).value
  {
    var release := env["RELEASE_BUILD" := ""];
    var development := env - {"RELEASE_BUILD"};
    assert |GetPackageName(release).value| < |GetPackageName(development).value|;
  }

  /** `GetScenes`: the `SCENES` value split on single spaces. */
  function GetScenes(env: Env): (r: Result<seq<string>, string>)
    ensures r.Success? <==> GetEnv(env, "SCENES").Success?
    ensures r.Success? ==> Join(r.value, ' ') == env["SCENES"]
    ensures r.Success? ==> forall i | 0 <= i < |r.value| :: ' ' !in r.value[i]
  {
    var all :- GetEnv(env, "SCENES");
    Success(Split(all, ' '))
  }

  /** Any non-empty list of space-free scene paths, written space-separated,
      comes back as the same list. */
  lemma ScenesRoundTrip(env: Env, scenes: seq<string>)
    requires |scenes| >= 1 && Join(scenes, ' ') != ""
    requires forall i | 0 <= i < |scenes| :: ' ' !in scenes[i]
    ensures GetScenes(env["SCENES" := Join(scenes, ' ')]) == Success(scenes)
  {
    JoinSplit(scenes, ' ');
  }

  // ---------------------------------------------------------------------
  // The whole build step
  // ---------------------------------------------------------------------

  /** The `PlayerSettings` fields the script writes. */
  datatype Settings = Settings(
    bundleVersion: string,
    shortBundleVersion: string,
    bundleVersionCode: int,
    productName: string,
    bundleIdentifier: string,
    useApkExpansionFiles: bool,
    defines: string,
    keystoreName: Option<string>,
    keystorePass: Option<string>,
    keyaliasName: Option<string>,
    keyaliasPass: Option<string>)

  /** The `BuildPipeline.BuildPlayer` call the script ends with; the
      target is always Android and the options always `None`. */
  datatype BuildRequest = BuildRequest(scenes: seq<string>, filename: string)

  /** The settings as left behind, the build requested or the message of
      the exception that stopped the script, and the lines logged. */
  datatype Outcome = Outcome(settings: Settings, result: Result<BuildRequest, string>, log: seq<string>)

  /** The line logged once the output file is known. */
  function BuildingLine(release: bool): string {
    "Building " + (if release then "release" else "development build") + " for Android..."
  }

  /** The line logged after `BuildPlayer` returns. */
  function BuiltLine(filename: string): string {
    "Built: " + filename
  }

  function Lookup(env: Env, variable: string): Option<string> {
    if variable in env then Some(env[variable]) else None
  }

  /** `SetVersion`: reads the three numbers (stopping at the first bad
      one) and writes the version string and code. `unity5` is the
      `UNITY_5` symbol, under which the short version is not written. */
  function SetVersion(env: Env, s: Settings, unity5: bool): (r: Result<Settings, string>)
    ensures r.Success? <==> VersionReadable(env)
    ensures r.Success? ==>
              var v := Version(GetIntEnv(env, "MAJOR_VERSION").value, GetIntEnv(env, "MINOR_VERSION").value,
                               GetIntEnv(env, "BUILD_NUMBER").value);
              && r.value.bundleVersion == VersionString(v)
              && r.value.bundleVersionCode == VersionCode(v)
              && r.value.shortBundleVersion == (if unity5 then s.shortBundleVersion else VersionString(v))
    ensures r.Success? ==>
              r.value.(bundleVersion := s.bundleVersion, shortBundleVersion := s.shortBundleVersion,
                       bundleVersionCode := s.bundleVersionCode) == s
  {
    var major :- GetIntEnv(env, "MAJOR_VERSION");
    var minor :- GetIntEnv(env, "MINOR_VERSION");
    var build :- GetIntEnv(env, "BUILD_NUMBER");
    var v := Version(major, minor, build);
    var version := VersionString(v);
    var s1 := s.(bundleVersion := version);
    var s2 := if unity5 then s1 else s1.(shortBundleVersion := version);
    Success(s2.(bundleVersionCode := VersionCode(v)))
  }

  /** The three version variables are set and hold int32 numerals. */
  predicate VersionReadable(env: Env) {
    && GetIntEnv(env, "MAJOR_VERSION").Success?
    && GetIntEnv(env, "MINOR_VERSION").Success?
    && GetIntEnv(env, "BUILD_NUMBER").Success?
  }

  /** `ConfigureKeys`: the signing variables, copied as they are (unset
      ones become null). */
  function ConfigureKeys(env: Env, s: Settings): (r: Settings)
    ensures r.keystoreName == Lookup(env, "ANDROID_KEYSTORE_NAME")
    ensures r.keystorePass == Lookup(env, "ANDROID_KEYSTORE_PASS")
    ensures r.keyaliasName == Lookup(env, "ANDROID_KEYALIAS_NAME")
    ensures r.keyaliasPass == Lookup(env, "ANDROID_KEYALIAS_PASS")
    ensures r.(keystoreName := s.keystoreName, keystorePass := s.keystorePass,
               keyaliasName := s.keyaliasName, keyaliasPass := s.keyaliasPass) == s
  {
    s.(keystoreName := Lookup(env, "ANDROID_KEYSTORE_NAME"),
       keystorePass := Lookup(env, "ANDROID_KEYSTORE_PASS"),
       keyaliasName := Lookup(env, "ANDROID_KEYALIAS_NAME"),
       keyaliasPass := Lookup(env, "ANDROID_KEYALIAS_PASS"))
  }

  /** The settings step a `Configure` stage yields: what has been written
      so far, and the message of the exception that stopped it, if any. */
  datatype Configured = Configured(settings: Settings, error: Option<string>)

  /** The part of `BuildForGear` before `APK_FILE` is read: version,
      title, package name, expansion files, defines and signing keys, each
      written as soon as it is known. */
  function Configure(env: Env, s: Settings, unity5: bool): (r: Configured)
    ensures r.error.None? <==>
              VersionReadable(env) && GetApplicationTitle(env).Success? && GetPackageName(env).Success?
    ensures !VersionReadable(env) ==> r.settings == s
    ensures r.error.None? ==>
              && r.settings.productName == GetApplicationTitle(env).value
              && r.settings.bundleIdentifier == GetPackageName(env).value
              && r.settings.useApkExpansionFiles == GetEnv(env, "SPLIT_BINARY").Success?
              && r.settings.defines == SetDefines(s.defines, IsRelease(env))
              && r.settings.keystoreName == Lookup(env, "ANDROID_KEYSTORE_NAME")
              && r.settings.keystorePass == Lookup(env, "ANDROID_KEYSTORE_PASS")
              && r.settings.keyaliasName == Lookup(env, "ANDROID_KEYALIAS_NAME")
              && r.settings.keyaliasPass == Lookup(env, "ANDROID_KEYALIAS_PASS")
    ensures VersionReadable(env) ==>
              var v := SetVersion(env, s, unity5).value;
              && r.settings.bundleVersion == v.bundleVersion
              && r.settings.shortBundleVersion == v.shortBundleVersion
              && r.settings.bundleVersionCode == v.bundleVersionCode
    ensures VersionReadable(env) && GetApplicationTitle(env).Failure? ==>
              r.settings == SetVersion(env, s, unity5).value
    ensures VersionReadable(env) && GetApplicationTitle(env).Success? && GetPackageName(env).Failure? ==>
              r.settings == SetVersion(env, s, unity5).value.(productName := GetApplicationTitle(env).value)
  {
    match SetVersion(env, s, unity5)
    case Failure(e) => Configured(s, Some(e))
    case Success(s1) =>
      match GetApplicationTitle(env)
      case Failure(e) => Configured(s1, Some(e))
      case Success(title) =>
        var s2 := s1.(productName := title);
        match GetPackageName(env)
        case Failure(e) => Configured(s2, Some(e))
        case Success(package) =>
          var s3 := s2.(bundleIdentifier := package);
          var s4 := s3.(useApkExpansionFiles := GetEnv(env, "SPLIT_BINARY").Success?);
          var s5 := s4.(defines := SetDefines(s4.defines, IsRelease(env)));
          Configured(ConfigureKeys(env, s5), None)
  }

  /** `BuildForGear`: the steps in the script's order; a failing step
      keeps every setting written before it. The first line is logged
      between reading `APK_FILE` and reading `SCENES`, so a missing
      `SCENES` stops the script after it. */
  function BuildForGear(env: Env, s: Settings, unity5: bool): (r: Outcome)
    ensures r.settings == Configure(env, s, unity5).settings
    ensures r.result.Success? <==>
              Configure(env, s, unity5).error.None? && GetEnv(env, "APK_FILE").Success? && GetEnv(env, "SCENES").Success?
    ensures r.result.Success? ==>
              r.result.value == BuildRequest(Split(env["SCENES"], ' '), env["APK_FILE"])
    ensures |r.log| <= 2
    ensures |r.log| >= 1 <==> Configure(env, s, unity5).error.None? && GetEnv(env, "APK_FILE").Success?
    ensures |r.log| >= 1 ==> r.log[0] == BuildingLine(IsRelease(env))
    ensures |r.log| == 2 <==> r.result.Success?
    ensures r.result.Success? ==> r.log[1] == BuiltLine(r.result.value.filename)
  {
    var c := Configure(env, s, unity5);
    if c.error.Some? then Outcome(c.settings, Failure(c.error.value), [])
    else
      match GetEnv(env, "APK_FILE")
      case Failure(e) => Outcome(c.settings, Failure(e), [])
      case Success(filename) =>
        var building := BuildingLine(IsRelease(env));
        match GetScenes(env)
        case Failure(e) => Outcome(c.settings, Failure(e), [building])
        case Success(scenes) => Outcome(c.settings, Success(BuildRequest(scenes, filename)), [building, BuiltLine(filename)])
  }

  /** The variables a build needs, in terms of the environment alone. */
  predicate BuildEnvComplete(env: Env) {
    && VersionReadable(env)
    && GetEnv(env, "PRODUCT_NAME").Success? && GetEnv(env, "PACKAGE_SUFFIX").Success?
    && GetEnv(env, "APK_FILE").Success? && GetEnv(env, "SCENES").Success?
  }

  /** The build is requested exactly when every needed variable is set
      and the three version variables are int32 numerals. */
  lemma BuildForGearSucceeds(env: Env, s: Settings, unity5: bool)
    ensures BuildForGear(env, s, unity5).result.Success? <==> BuildEnvComplete(env)
  {
    if VersionReadable(env) {
      assert GetEnv(env, "BUILD_NUMBER").Success?;
    }
  }

  /** The script is not transactional: a missing `APK_FILE` stops the
      build after every setting has been written. */
  lemma MissingApkFileKeepsSettings(env: Env, s: Settings, unity5: bool)
    requires Configure(env, s, unity5).error.None?
    requires "APK_FILE" !in env
    ensures BuildForGear(env, s, unity5).result == Failure(NotSetMessage("APK_FILE"))
    ensures BuildForGear(env, s, unity5).settings.defines == SetDefines(s.defines, IsRelease(env))
  {
  }
}

=== FILE: csv_round_trip.dfy ===
/** Properties of the CSV reader: a writer that quotes exactly the cells
    holding a comma produces text the reader turns back into the same
    headers and cells, and the quirks of the quote-stitching loop. */
module CsvRoundTrip {
  import opened Wrappers
  import opened Text
  import opened CsvTable

  // ---------------------------------------------------------------------
  // A writer for the format the reader expects
  // ---------------------------------------------------------------------

  /** A cell holding a comma is wrapped in double quotes. */
  function EncodeCell(c: string): string {
    if ',' in c then "\"" + c + "\"" else c
  }

  function EncodeCells(cells: seq<string>): (r: seq<string>)
    ensures |r| == |cells|
    ensures forall i | 0 <= i < |cells| :: r[i] == EncodeCell(cells[i])
  {
    if |cells| == 0 then [] else [EncodeCell(cells[0])] + EncodeCells(cells[1..])
  }

  function EncodeLine(cells: seq<string>): string {
    Join(EncodeCells(cells), ',')
  }

  function EncodeLines(rows: seq<seq<string>>): (r: seq<string>)
    ensures |r| == |rows|
    ensures forall i | 0 <= i < |rows| :: r[i] == EncodeLine(rows[i])
  {
    if |rows| == 0 then [] else [EncodeLine(rows[0])] + EncodeLines(rows[1..])
  }

  /** The header line, unquoted, then one line per row, joined by `\n`. */
  function EncodeTable(headers: seq<string>, rows: seq<seq<string>>): string {
    Join([Join(headers, ',')] + EncodeLines(rows), '\n')
  }

  /** A cell the writer can carry: no quote and no line-break characters. */
  predicate PlainCell(c: string) {
    '"' !in c && '\r' !in c && '\n' !in c
  }

  /** Headers are written unquoted, so they may not hold a comma either. */
  predicate PlainHeader(h: string) {
    ',' !in h && '\r' !in h && '\n' !in h
  }

  /** A row the writer can carry: at least one cell, not the single empty
      cell (whose line would be empty and therefore skipped), plain cells. */
  predicate EncodableRow(cells: seq<string>) {
    |cells| >= 1 && cells != [""] && forall i | 0 <= i < |cells| :: PlainCell(cells[i])
  }

  // ---------------------------------------------------------------------
  // The stitching loop
  // ---------------------------------------------------------------------

  /** Without an opening quote, stitching keeps the fields as they are. */
  lemma {:induction false} StitchPlain(fields: seq<string>)
    requires forall i | 0 <= i < |fields| :: !StartsWith(fields[i], "\"")
    ensures StitchFrom(fields, false, "") == fields
    decreases |fields|
  {
    if |fields| > 0 {
      StitchPlain(fields[1..]);
      assert fields == [fields[0]] + fields[1..];
    }
  }

  /** The test for a `"` anywhere in the line only saves work: parsing a
      line always equals stitching its comma-split fields. */
  lemma ParseFieldsIsStitch(line: string)
    ensures ParseFields(line) == Stitch(Split(Trim(line, '\r'), ','))
  {
    if '"' !in line {
      var t := Trim(line, '\r');
      TrimKeepsAbsent(line, '\r', '"');
      SplitAbsent(t, ',', '"');
      NoQuotedField(Split(t, ','));
      StitchPlain(Split(t, ','));
    }
  }

  /** Trimming removes characters, it never brings one in. */
  lemma TrimKeepsAbsent(s: string, c: char, x: char)
    requires x !in s
    ensures x !in Trim(s, c)
  {
    var t := Trim(s, c);
    var start := |s| - |TrimStart(s, c)|;
    assert forall k | 0 <= k < |t| :: t[k] == s[start + k];
  }

  lemma NoQuotedField(fields: seq<string>)
    requires forall j | 0 <= j < |fields| :: '"' !in fields[j]
    ensures forall j | 0 <= j < |fields| :: !StartsWith(fields[j], "\"")
  {
    forall j | 0 <= j < |fields|
      ensures !StartsWith(fields[j], "\"")
    {
      if |fields[j]| >= 1 {
        assert fields[j][0] in fields[j];
      }
    }
  }

  /** A run that is never closed is dropped together with everything
      after its opening field. */
  lemma {:induction false} OpenRunDropped(fields: seq<string>, quoted: string)
    requires forall i | 0 <= i < |fields| :: !EndsWith(fields[i], "\"")
    ensures StitchFrom(fields, true, quoted) == []
    decreases |fields|
  {
    if |fields| > 0 {
      OpenRunDropped(fields[1..], quoted + fields[0] + ",");
    }
  }

  /** The opening field is never checked for a closing quote: a quoted cell
      without a comma, `"x"`, opens a run that swallows the rest of the
      line when no later field ends with a quote. */
  lemma QuotedFieldWithoutCommaSwallowsLine(x: string, rest: seq<string>)
    requires forall i | 0 <= i < |rest| :: !EndsWith(rest[i], "\"")
    ensures StitchFrom(["\"" + x + "\""] + rest, false, "") == []
  {
    var f := "\"" + x + "\"";
    assert StartsWith(f, "\"");
    assert ([f] + rest)[1..] == rest;
    OpenRunDropped(rest, f[1..] + ",");
  }

  /** An open run fed the separator-free pieces of one quoted cell, the
      last of them carrying the closing quote, yields the quoted text
      followed by those pieces joined with commas. */
  lemma {:induction false} OpenRunCloses(ps: seq<string>, rest: seq<string>, quoted: string)
    requires |ps| >= 1
    requires forall i | 0 <= i < |ps| :: '"' !in ps[i]
    ensures StitchFrom(ps[..|ps| - 1] + [ps[|ps| - 1] + "\""] + rest, true, quoted)
         == [quoted + Join(ps, ',')] + StitchFrom(rest, false, "")
    decreases |ps|
  {
    var n := |ps| - 1;
    var fields := ps[..n] + [ps[n] + "\""] + rest;
    if n == 0 {
      var s := ps[0] + "\"";
      assert fields == [s] + rest;
      assert EndsWith(s, "\"");
      assert s[..|s| - 1] == ps[0];
      assert fields[1..] == rest;
    } else {
      assert fields[0] == ps[0];
      assert !EndsWith(ps[0], "\"") by {
        if |ps[0]| > 0 {
          assert ps[0][|ps[0]| - 1] in ps[0];
        }
      }
      var tail := ps[1..];
      assert fields[1..] == tail[..|tail| - 1] + [tail[|tail| - 1] + "\""] + rest;
      OpenRunCloses(tail, rest, quoted + ps[0] + ",");
      calc {
        StitchFrom(fields, true, quoted);
        StitchFrom(fields[1..], true, quoted + ps[0] + ",");
        [quoted + ps[0] + "," + Join(tail, ',')] + StitchFrom(rest, false, "");
        { assert Join(ps, ',') == ps[0] + [','] + Join(tail, ',');
          assert quoted + ps[0] + "," + Join(tail, ',') == quoted + Join(ps, ','); }
        [quoted + Join(ps, ',')] + StitchFrom(rest, false, "");
      }
    }
  }

  /** The pieces of one encoded plain cell stitch back into that cell. */
  lemma StitchEncodedCell(c: string, rest: seq<string>)
    requires PlainCell(c)
    ensures StitchFrom(Split(EncodeCell(c), ',') + rest, false, "")
         == [c] + StitchFrom(rest, false, "")
  {
    if ',' !in c {
      SplitNoSeparator(c, ',');
      assert !StartsWith(c, "\"");
      assert ([c] + rest)[1..] == rest;
    } else {
      var ps := Split(c, ',');
      SplitWithSeparator(c, ',');
      SplitAbsent(c, ',', '"');
      var n := |ps| - 1;
      var quotedStart := "\"" + c;
      assert quotedStart[1..] == c;
      var p := [quotedStart[..1] + ps[0]] + ps[1..];
      assert Split(quotedStart, ',') == p;
      SplitSnoc(quotedStart, '"', ',');
      assert quotedStart + ['"'] == EncodeCell(c);
      assert Split(EncodeCell(c), ',') == [quotedStart[..1] + ps[0]] + ps[1..n] + [ps[n] + "\""];
      var fields := Split(EncodeCell(c), ',') + rest;
      var first := quotedStart[..1] + ps[0];
      assert fields[0] == first;
      assert StartsWith(first, "\"");
      assert first[1..] == ps[0];
      var tail := ps[1..];
      assert fields[1..] == tail[..|tail| - 1] + [tail[|tail| - 1] + "\""] + rest;
      OpenRunCloses(tail, rest, ps[0] + ",");
      assert Join(ps, ',') == ps[0] + [','] + Join(tail, ',');
    }
  }

  /** The comma-split pieces of an encoded line of plain cells stitch back
      into exactly those cells. */
  lemma {:induction false} StitchEncodedLine(cells: seq<string>)
    requires |cells| >= 1
    requires forall i | 0 <= i < |cells| :: PlainCell(cells[i])
    ensures Stitch(Split(EncodeLine(cells), ',')) == cells
    decreases |cells|
  {
    var enc := EncodeCells(cells);
    if |cells| == 1 {
      assert EncodeLine(cells) == EncodeCell(cells[0]);
      StitchEncodedCell(cells[0], []);
      assert Split(EncodeCell(cells[0]), ',') + [] == Split(EncodeCell(cells[0]), ',');
    } else {
      assert enc[1..] == EncodeCells(cells[1..]);
      assert EncodeLine(cells) == EncodeCell(cells[0]) + [','] + EncodeLine(cells[1..]);
      SplitAppend(EncodeCell(cells[0]), EncodeLine(cells[1..]), ',');
      StitchEncodedCell(cells[0], Split(EncodeLine(cells[1..]), ','));
      StitchEncodedLine(cells[1..]);
      assert cells == [cells[0]] + cells[1..];
    }
  }

  /** An encoded line holds no carriage return, no line feed, and is
      empty only for the single empty cell. */
  lemma EncodedLineShape(cells: seq<string>)
    requires EncodableRow(cells)
    ensures '\r' !in EncodeLine(cells) && '\n' !in EncodeLine(cells)
    ensures EncodeLine(cells) != ""
  {
    var enc := EncodeCells(cells);
    JoinAbsent(enc, ',', '\r');
    JoinAbsent(enc, ',', '\n');
    if |cells| > 1 {
      assert EncodeLine(cells) == enc[0] + [','] + Join(enc[1..], ',');
    } else {
      assert cells[0] != "";
      assert EncodeLine(cells) == EncodeCell(cells[0]);
    }
  }

  /** Round trip of one line: the reader's fields for an encoded row are
      the row's cells. */
  lemma ParseEncodedLine(cells: seq<string>)
    requires EncodableRow(cells)
    ensures ParseFields(EncodeLine(cells)) == cells
  {
    EncodedLineShape(cells);
    TrimAbsent(EncodeLine(cells), '\r');
    ParseFieldsIsStitch(EncodeLine(cells));
    StitchEncodedLine(cells);
  }

  /** The lines of an encoded table: the header line, then one per row. */
  lemma EncodedTableLines(headers: seq<string>, rows: seq<seq<string>>)
    requires forall i | 0 <= i < |headers| :: PlainHeader(headers[i])
    requires forall i | 0 <= i < |rows| :: EncodableRow(rows[i])
    ensures Split(EncodeTable(headers, rows), '\n') == [Join(headers, ',')] + EncodeLines(rows)
  {
    var lines := [Join(headers, ',')] + EncodeLines(rows);
    JoinAbsent(headers, ',', '\n');
    forall i | 0 <= i < |lines|
      ensures '\n' !in lines[i]
    {
      if i > 0 {
        EncodedLineShape(rows[i - 1]);
      }
    }
    JoinSplit(lines, '\n');
  }

  /** Round trip of a whole table: loading the encoded text yields the
      headers, the header index, and row i holding the cells of row i. */
  lemma LoadEncodedTable(path: string, headers: seq<string>, rows: seq<seq<string>>)
    requires !EndsWith(path, ".csv")
    requires |headers| >= 1 && forall i | 0 <= i < |headers| :: PlainHeader(headers[i])
    requires forall i | 0 <= i < |rows| :: EncodableRow(rows[i])
    ensures var r := Load(path, Some(EncodeTable(headers, rows)));
            && r.Success?
            && r.value.headers == headers
            && r.value.headerIndexes == IndexHeaders(headers)
            && |r.value.rows| == |rows|
            && forall i | 0 <= i < |rows| :: r.value.rows[i] == Filled(i, IndexHeaders(headers), rows[i])
  {
    var text := EncodeTable(headers, rows);
    var t := Parse(path, text);
    EncodedTableLines(headers, rows);
    var lines := Split(text, '\n');
    JoinAbsent(headers, ',', '\r');
    TrimAbsent(Join(headers, ','), '\r');
    JoinSplit(headers, ',');
    forall i | 0 <= i < |rows|
      ensures t.rows[i] == Filled(i, IndexHeaders(headers), rows[i])
    {
      assert lines[i + 1] == EncodeLine(rows[i]);
      EncodedLineShape(rows[i]);
      ParseEncodedLine(rows[i]);
    }
  }

  /** `NumRows` subtracts one from a row array that already leaves the
      header line out, so a table whose text does not end with a newline
      reports one row fewer than it has. */
  lemma NumRowsWithoutTrailingNewline(path: string, headers: seq<string>, rows: seq<seq<string>>)
    requires |headers| >= 1 && forall i | 0 <= i < |headers| :: PlainHeader(headers[i])
    requires forall i | 0 <= i < |rows| :: EncodableRow(rows[i])
    ensures NumRows(Parse(path, EncodeTable(headers, rows))) == |rows| - 1
  {
    EncodedTableLines(headers, rows);
  }

  /** With a trailing newline the last slot of the row array is a default
      row, and `NumRows` equals the number of data lines. */
  lemma NumRowsWithTrailingNewline(path: string, headers: seq<string>, rows: seq<seq<string>>)
    requires |headers| >= 1 && forall i | 0 <= i < |headers| :: PlainHeader(headers[i])
    requires forall i | 0 <= i < |rows| :: EncodableRow(rows[i])
    ensures var t := Parse(path, EncodeTable(headers, rows) + "\n");
            NumRows(t) == |rows| && t.rows[|rows|] == Unset
  {
    var text := EncodeTable(headers, rows);
    EncodedTableLines(headers, rows);
    SplitAppend(text, "", '\n');
    assert text + ['\n'] + "" == text + "\n";
    assert Split(text + "\n", '\n') == Split(text, '\n') + [""];
    EmptyLastLineIsDefault(path, text + "\n");
  }

  /** A text whose last line is empty parses into a table whose last slot
      is a default row. */
  lemma EmptyLastLineIsDefault(path: string, rawText: string)
    requires |Split(rawText, '\n')| >= 2 && Split(rawText, '\n')[|Split(rawText, '\n')| - 1] == ""
    ensures var t := Parse(path, rawText);
            |t.rows| == |Split(rawText, '\n')| - 1 && t.rows[|t.rows| - 1] == Unset
  {
    var lines := Split(rawText, '\n');
    var last := |lines| - 1;
    assert lines[last] == "";
    var t := Parse(path, rawText);
    assert |t.rows| == last;
    assert t.rows[last - 1].Unset? <==> lines[last] == "";
  }
}

=== FILE: csv_table.dfy ===
/** CSVTable: a reader for simple comma-separated tables whose first line
    holds the column headers (Assets/RGCommon/CSV/CSVTable.cs).

    The text is split into lines on `\n`; the header line and every data
    line have `\r` trimmed from both ends and are split on `,`; in a data
    line a field that starts with `"` opens a run of fields that is glued
    back together with `,` until a field that ends with `"`. Row i of the
    table comes from line i + 1. The resource lookup that yields the text
    is a parameter: `None` stands for an asset that could not be loaded. */
module CsvTable {
  import opened Wrappers
  import opened Text
  import Int32

  /** The exceptions the reader throws. */
  datatype CsvError =
    | FileLoad(message: string)
    | IndexOutOfRange(message: string)
    | KeyNotFound(message: string)
    | NullReference
    | ParseFailure(text: string)

  /** A row slot. `Unset` is the C# default struct left in the row array
      for an empty line: its dictionary and column array are null. */
  datatype Row =
    | Unset
    | Filled(index: int, headerIndexes: map<string, int>, columns: seq<string>)

  datatype Table = Table(
    path: string,
    headers: seq<string>,
    headerIndexes: map<string, int>,
    rows: seq<Row>)

  /** The message .NET puts into a KeyNotFoundException thrown by a
      dictionary lookup. */
  const DictionaryKeyMissing: string := "The given key was not present in the dictionary."

  // ---------------------------------------------------------------------
  // Parsing
  // ---------------------------------------------------------------------

  /** The header-to-column dictionary, filled from left to right, so a
      header that occurs more than once maps to its last column. */
  function IndexHeaders(headers: seq<string>): (m: map<string, int>)
    ensures forall h :: h in m <==> h in headers
    ensures forall h | h in m :: 0 <= m[h] < |headers| && headers[m[h]] == h
    ensures forall j | 0 <= j < |headers| :: headers[j] in m && j <= m[headers[j]]
  {
    if |headers| == 0 then map[]
    else
      var n := |headers| - 1;
      var prev := IndexHeaders(headers[..n]);
      IndexExtends(prev, headers);
      prev[headers[n] := n]
  }

  /** The header dictionary of `headers`, as `IndexHeaders` promises it. */
  ghost predicate Indexes(m: map<string, int>, headers: seq<string>) {
    && (forall h :: h in m <==> h in headers)
    && (forall h | h in m :: 0 <= m[h] < |headers| && headers[m[h]] == h)
    && (forall j | 0 <= j < |headers| :: headers[j] in m && j <= m[headers[j]])
  }

  /** Adding the last header to the dictionary of the others. */
  lemma IndexExtends(prev: map<string, int>, headers: seq<string>)
    requires |headers| > 0 && Indexes(prev, headers[..|headers| - 1])
    ensures Indexes(prev[headers[|headers| - 1] := |headers| - 1], headers)
  {
    var n := |headers| - 1;
    assert forall h :: h in headers <==> h in headers[..n] || h == headers[n];
    assert forall j | 0 <= j < n :: headers[j] == headers[..n][j];
  }

  /** The quote-stitching loop over the comma-split fields of one line.
      `open` and `quoted` are the loop's `openQuote` and `quotedText`. A
      field starting with `"` opens a run (that field is never itself
      checked for a closing quote); inside a run, fields are appended with
      a `,` until one ends with `"`, whose quote is dropped; a run still
      open when the fields end is lost. */
  function StitchFrom(fields: seq<string>, open: bool, quoted: string): (r: seq<string>)
    ensures |r| <= |fields|
    decreases |fields|
  {
    if |fields| == 0 then []
    else
      var s := fields[0];
      if !open then
        if StartsWith(s, "\"") then StitchFrom(fields[1..], true, s[1..] + ",")
        else [s] + StitchFrom(fields[1..], false, "")
      else if EndsWith(s, "\"") then [quoted + s[..|s| - 1]] + StitchFrom(fields[1..], false, "")
      else StitchFrom(fields[1..], true, quoted + s + ",")
  }

  function Stitch(fields: seq<string>): seq<string> {
    StitchFrom(fields, false, "")
  }

  /** The fields of one data line: trim `\r`, split on `,`, and stitch
      quoted runs back together when the line holds a `"` at all. */
  function ParseFields(line: string): seq<string> {
    var fields := Split(Trim(line, '\r'), ',');
    if '"' in line then Stitch(fields) else fields
  }

  /** The row array: one slot per line after the first; an empty line
      leaves its slot at the default row. */
  function ParseRows(lines: seq<string>, headerIndexes: map<string, int>): (rows: seq<Row>)
    requires |lines| >= 1
    ensures |rows| == |lines| - 1
    ensures forall i | 0 <= i < |rows| :: rows[i].Unset? <==> lines[i + 1] == ""
    ensures forall i | 0 <= i < |rows| && rows[i].Filled? ::
              rows[i] == Filled(i, headerIndexes, ParseFields(lines[i + 1]))
  {
    var rows := seq(|lines| - 1, i requires 0 <= i < |lines| - 1 => RowOfLine(i, lines[i + 1], headerIndexes));
    assert forall i | 0 <= i < |rows| :: rows[i] == RowOfLine(i, lines[i + 1], headerIndexes);
    rows
  }

  function RowOfLine(index: int, line: string, headerIndexes: map<string, int>): (r: Row)
    ensures r.Unset? <==> line == ""
    ensures r.Filled? ==> r == Filled(index, headerIndexes, ParseFields(line))
  {
    if line == "" then Unset else Filled(index, headerIndexes, ParseFields(line))
  }

  /** The parsing body of `LoadFromResources`, given the asset's text. */
  function Parse(path: string, rawText: string): (t: Table)
    ensures var lines := Split(rawText, '\n');
            && t.headers == Split(Trim(lines[0], '\r'), ',')
            && |t.rows| == |lines| - 1
            && (forall i | 0 <= i < |t.rows| :: t.rows[i].Unset? <==> lines[i + 1] == "")
            && (forall i | 0 <= i < |t.rows| && t.rows[i].Filled? ::
                  t.rows[i] == Filled(i, t.headerIndexes, ParseFields(lines[i + 1])))
    ensures t.path == path
    ensures t.headerIndexes == IndexHeaders(t.headers)
  {
    var lines := Split(rawText, '\n');
    var headers := Split(Trim(lines[0], '\r'), ',');
    var headerIndexes := IndexHeaders(headers);
    Table(path, headers, headerIndexes, ParseRows(lines, headerIndexes))
  }

  /** `LoadFromResources(path)`: a path ending in `.csv` is rejected before
      anything is loaded, an asset that cannot be loaded is reported as a
      load failure, and any text at all parses into a table. */
  function Load(path: string, asset: Option<string>): (r: Result<Table, CsvError>)
    ensures r.Success? <==> !EndsWith(path, ".csv") && asset.Some?
    ensures r.Success? ==> r.value == Parse(path, asset.value)
    ensures r.Failure? ==> r.error.FileLoad?
  {
    if EndsWith(path, ".csv") then
      Failure(FileLoad("Error opening file " + path
        + " from CSVTable, should not end in .csv when loading from resources"))
    else if asset.None? then
      Failure(FileLoad("Could not load CSV file from " + path))
    else
      Success(Parse(path, asset.value))
  }

  // ---------------------------------------------------------------------
  // Row accessors
  // ---------------------------------------------------------------------

  /** `Row.ValidateHeader`: `None` when the header exists. */
  function ValidateHeader(row: Row, header: string): (e: Option<CsvError>)
    ensures e.None? <==> row.Filled? && header in row.headerIndexes
    ensures e.Some? && row.Filled? ==> e.value.KeyNotFound?
  {
    match row
    case Unset => Some(NullReference)
    case Filled(index, headerIndexes, _) =>
      if header !in headerIndexes then
        Some(KeyNotFound("CSVTable.GetRow(" + IntToString(index) + ").GetColumn(" + header
          + "), header name [" + header + "] invalid!"))
      else None
  }

  /** The message of the IndexOutOfRangeException `ValidateIndex` throws. */
  function OutOfRangeMessage(index: int, i: int): string {
    "CSVTable.GetRow(" + IntToString(index) + ").GetColumn(" + IntToString(i)
      + "), column index [" + IntToString(i) + "] out of range!"
  }

  /** `Row.ValidateIndex`: `None` when `0 <= i <= Length - 1`. The test
      `i < 0` comes first and short-circuits, so the default row (index 0,
      null columns) reports a negative index as out of range and fails
      with a NullReferenceException only for the others. */
  function ValidateIndex(row: Row, i: int): (e: Option<CsvError>)
    ensures e.None? <==> row.Filled? && 0 <= i < |row.columns|
    ensures e.Some? && (row.Filled? || i < 0) ==> e == Some(IndexOutOfRange(OutOfRangeMessage(Index(row), i)))
    ensures row.Unset? && i >= 0 ==> e == Some(NullReference)
  {
    match row
    case Unset => if i < 0 then Some(IndexOutOfRange(OutOfRangeMessage(0, i))) else Some(NullReference)
    case Filled(index, _, columns) =>
      if i < 0 || i > |columns| - 1 then Some(IndexOutOfRange(OutOfRangeMessage(index, i)))
      else None
  }

  /** `Row.HasValue(i)`: whether column `i` is non-empty. */
  function HasValue(row: Row, i: int): (r: Result<bool, CsvError>)
    ensures r.Success? <==> row.Filled? && 0 <= i < |row.columns|
    ensures r.Success? ==> (r.value <==> row.columns[i] != "")
    ensures r.Failure? && (row.Filled? || i < 0) ==> r.error.IndexOutOfRange?
    ensures row.Unset? && i >= 0 ==> r == Failure(NullReference)
  {
    match ValidateIndex(row, i)
    case Some(e) => Failure(e)
    case None => Success(|row.columns[i]| > 0)
  }

  /** `Row.NotEmpty(header)`: the header must exist, then its column must
      exist, and the answer is whether that column is non-empty. */
  function NotEmpty(row: Row, header: string): (r: Result<bool, CsvError>)
    ensures r.Success? <==> row.Filled? && header in row.headerIndexes
                            && 0 <= row.headerIndexes[header] < |row.columns|
    ensures r.Success? ==> (r.value <==> row.columns[row.headerIndexes[header]] != "")
  {
    match ValidateHeader(row, header)
    case Some(e) => Failure(e)
    case None => HasValue(row, row.headerIndexes[header])
  }

  /** `Row.GetColumn(i)`. */
  function GetColumn(row: Row, i: int): (r: Result<string, CsvError>)
    ensures r.Success? <==> row.Filled? && 0 <= i < |row.columns|
    ensures r.Success? ==> r.value == row.columns[i]
    ensures r.Failure? ==> r.error == ValidateIndex(row, i).value
    ensures r.Failure? && (row.Filled? || i < 0) ==> r.error == IndexOutOfRange(OutOfRangeMessage(Index(row), i))
    ensures row.Unset? && i >= 0 ==> r == Failure(NullReference)
  {
    match ValidateIndex(row, i)
    case Some(e) => Failure(e)
    case None => Success(row.columns[i])
  }

  /** `Row.GetColumn(header)`. */
  function GetColumnByHeader(row: Row, header: string): (r: Result<string, CsvError>)
    ensures r.Success? <==> row.Filled? && header in row.headerIndexes
                            && 0 <= row.headerIndexes[header] < |row.columns|
    ensures r.Success? ==> r.value == row.columns[row.headerIndexes[header]]
  {
    match ValidateHeader(row, header)
    case Some(e) => Failure(e)
    case None => GetColumn(row, row.headerIndexes[header])
  }

  /** `Row.GetColumnInt(i)`: `Int32.Parse` of the cell. */
  function GetColumnInt(row: Row, i: int): (r: Result<int, CsvError>)
    ensures r.Success? <==> GetColumn(row, i).Success? && ParseInt32(GetColumn(row, i).value).Some?
    ensures r.Success? ==> Some(r.value) == ParseInt32(GetColumn(row, i).value)
    ensures (row.Filled? || i < 0) && GetColumn(row, i).Failure? ==> r.Failure? && r.error.IndexOutOfRange?
    ensures GetColumn(row, i).Success? && r.Failure? ==> r.error == ParseFailure(GetColumn(row, i).value)
  {
    var cell :- GetColumn(row, i);
    match ParseInt32(cell)
    case None => Failure(ParseFailure(cell))
    case Some(v) => Success(v)
  }

  /** `Row.GetColumnInt(header)`. */
  function GetColumnIntByHeader(row: Row, header: string): (r: Result<int, CsvError>)
    ensures r.Success? <==> GetColumnByHeader(row, header).Success?
                            && ParseInt32(GetColumnByHeader(row, header).value).Some?
    ensures r.Success? ==> Some(r.value) == ParseInt32(GetColumnByHeader(row, header).value)
  {
    var cell :- GetColumnByHeader(row, header);
    match ParseInt32(cell)
    case None => Failure(ParseFailure(cell))
    case Some(v) => Success(v)
  }

  /** `Row.GetColumnBool(i)`: the lower-cased cell is "true" or "yes". */
  function GetColumnBool(row: Row, i: int): (r: Result<bool, CsvError>)
    ensures r.Success? <==> row.Filled? && 0 <= i < |row.columns|
    ensures r.Success? ==>
              (r.value <==> (EqualsIgnoreCase(row.columns[i], "true") || EqualsIgnoreCase(row.columns[i], "yes")))
    ensures r.Failure? ==> r.error == GetColumn(row, i).error
  {
    var cell :- GetColumn(row, i);
    var s := ToLower(cell);
    assert s == "true" <==> EqualsIgnoreCase(cell, "true");
    assert s == "yes" <==> EqualsIgnoreCase(cell, "yes");
    Success(s == "true" || s == "yes")
  }

  /** `Row.GetColumnBool(header)`: unlike the other by-header accessors it
      does not validate the header, so a missing header surfaces as the
      dictionary's own KeyNotFoundException. */
  function GetColumnBoolByHeader(row: Row, header: string): (r: Result<bool, CsvError>)
    ensures row.Filled? && header !in row.headerIndexes ==> r == Failure(KeyNotFound(DictionaryKeyMissing))
    ensures row.Filled? && header in row.headerIndexes ==> r == GetColumnBool(row, row.headerIndexes[header])
  {
    match row
    case Unset => Failure(NullReference)
    case Filled(_, headerIndexes, _) =>
      if header !in headerIndexes then Failure(KeyNotFound(DictionaryKeyMissing))
      else GetColumnBool(row, headerIndexes[header])
  }

  /** `Row.Count`: the number of columns. */
  function Count(row: Row): (r: Result<int, CsvError>)
    ensures r.Success? <==> row.Filled?
    ensures r.Success? ==> r.value == |row.columns|
  {
    match row
    case Unset => Failure(NullReference)
    case Filled(_, _, columns) => Success(|columns|)
  }

  /** `Row.Index()`: the default row reports index 0. */
  function Index(row: Row): (r: int)
    ensures row.Filled? ==> r == row.index
    ensures row.Unset? ==> r == 0
  {
    match row
    case Unset => 0
    case Filled(index, _, _) => index
  }

  // ---------------------------------------------------------------------
  // Table accessors
  // ---------------------------------------------------------------------

  /** `GetHeader(i)`. */
  function GetHeader(t: Table, i: int): (r: Result<string, CsvError>)
    ensures r.Success? <==> 0 <= i <= |t.headers| - 1
    ensures r.Success? ==> r.value == t.headers[i]
    ensures r.Failure? ==> r.error.IndexOutOfRange?
  {
    if i < 0 || i > |t.headers| - 1 then
      Failure(IndexOutOfRange("CSVTable.GetHeader index out of range: " + IntToString(i)))
    else Success(t.headers[i])
  }

  /** `GetHeaderIndex(name)`. */
  function GetHeaderIndex(t: Table, name: string): (r: Result<int, CsvError>)
    ensures r.Success? <==> name in t.headerIndexes
    ensures r.Success? ==> r.value == t.headerIndexes[name]
  {
    if name in t.headerIndexes then Success(t.headerIndexes[name])
    else Failure(KeyNotFound(DictionaryKeyMissing))
  }

  predicate HasHeader(t: Table, name: string) {
    name in t.headerIndexes
  }

  /** `NumRows`: the row array's length minus one. */
  function NumRows(t: Table): int {
    |t.rows| - 1
  }

  /** The row array already leaves the header line out, so `NumRows` is
      the last index `GetRow` accepts rather than the number of rows. */
  lemma NumRowsIsLastIndex(t: Table, i: int)
    ensures GetRow(t, i).Success? <==> 0 <= i <= NumRows(t)
  {
  }

  function NumColumns(t: Table): int {
    |t.headers|
  }

  /** `GetRow(i)`: any slot of the row array, default rows included. */
  function GetRow(t: Table, i: int): (r: Result<Row, CsvError>)
    ensures r.Success? <==> 0 <= i <= |t.rows| - 1
    ensures r.Success? ==> r.value == t.rows[i]
    ensures r.Failure? ==> r.error.IndexOutOfRange?
  {
    if i < 0 || i > |t.rows| - 1 then
      Failure(IndexOutOfRange("CSVTable.GeRow index out of range: " + IntToString(i)))
    else Success(t.rows[i])
  }

  /** A parsed row reports the position it sits at, or 0 for the default
      row of an empty line. */
  lemma ParsedRowIndex(path: string, rawText: string, i: int)
    requires 0 <= i <= NumRows(Parse(path, rawText))
    ensures var t := Parse(path, rawText);
            && GetRow(t, i).Success?
            && Index(GetRow(t, i).value) == (if Split(rawText, '\n')[i + 1] == "" then 0 else i)
  {
    var t := Parse(path, rawText);
    assert GetRow(t, i).value == t.rows[i];
  }
}

=== FILE: find.dfy ===
/** Find: child and component lookups that throw a descriptive error when
    the lookup fails (Assets/RGCommon/Find.cs).

    The engine queries (`Transform.Find`, `GetComponent`,
    `GetComponentsInChildren`) are parameters: their answers are passed in
    as `Option` values or as a sequence of matches. The error text is built
    by substituting placeholders in a template; whether the `UNITY_ASSERTIONS`
    compilation symbol is defined is the parameter `assertions`. */
module Find {
  import opened Wrappers
  import opened Text

  /** A .NET type as far as the error text needs it. */
  datatype TypeName = TypeName(name: string, fullName: string)

  /** The run-time kind of the `tag` object used to describe the caller. */
  datatype Tag =
    | GameObjectTag(objectName: string)
    | MonoBehaviourTag(behaviourType: TypeName)
    | OtherTag(otherType: TypeName)

  const ErrorPrefix: string := "FIND ERROR! "
  const ReasonSeparator: string := " -->\n    BUT: "

  /** `FormatTag`: how the caller is named in an error. */
  function FormatTag(tag: Tag): (r: string)
    ensures tag.GameObjectTag? ==>
              (|r| == |"GameObject: '"| + |tag.objectName| + 1 && StartsWith(r, "GameObject: '")
               && EndsWith(r, "'") && r[|"GameObject: '"|..|r| - 1] == tag.objectName)
    ensures tag.MonoBehaviourTag? ==>
              (|r| == |"MonoBehaviour: '"| + |tag.behaviourType.fullName| + 1 && StartsWith(r, "MonoBehaviour: '")
               && EndsWith(r, "'") && r[|"MonoBehaviour: '"|..|r| - 1] == tag.behaviourType.fullName)
    ensures tag.OtherTag? ==> r == tag.otherType.name
  {
    match tag
    case GameObjectTag(name) => "GameObject: '" + name + "'"
    case MonoBehaviourTag(t) => "MonoBehaviour: '" + t.fullName + "'"
    case OtherTag(t) => t.name
  }

  /** Game-object and behaviour tags are never described alike, and the
      description determines the object's name or the behaviour's full
      type name. */
  lemma FormatTagDistinguishes(a: Tag, b: Tag)
    requires !a.OtherTag? && !b.OtherTag?
    requires FormatTag(a) == FormatTag(b)
    ensures a.GameObjectTag? <==> b.GameObjectTag?
    ensures a.GameObjectTag? ==> a.objectName == b.objectName
    ensures a.MonoBehaviourTag? ==> a.behaviourType.fullName == b.behaviourType.fullName
  {
    assert FormatTag(a)[0] == FormatTag(b)[0];
  }

  /** The placeholder substitution of `FormatError`: each placeholder is
      replaced only when its argument is non-null, `[fullpath]` only when
      both the game object and the path are. */
  function Substitute(e: string, tag: Option<Tag>, go: Option<string>, path: Option<string>,
                      t: Option<TypeName>): string
  {
    var e1 := if tag.Some? then ReplaceAll(e, "[tag]", FormatTag(tag.value)) else e;
    var e2 := if go.Some? then ReplaceAll(e1, "[gameobject]", go.value) else e1;
    var e3 := if path.Some? then ReplaceAll(e2, "[path]", "\"" + path.value + "\"") else e2;
    var e4 := if go.Some? && path.Some? then ReplaceAll(e3, "[fullpath]", go.value + "/" + path.value) else e3;
    if t.Some? then ReplaceAll(e4, "[component]", t.value.name) else e4
  }

  /** Text without a `[` in front passes through the substitution
      untouched. */
  lemma SubstituteSkipsPrefix(a: string, s: string, tag: Option<Tag>, go: Option<string>,
                              path: Option<string>, t: Option<TypeName>)
    requires '[' !in a
    ensures Substitute(a + s, tag, go, path, t) == a + Substitute(s, tag, go, path, t)
  {
    var e1 := if tag.Some? then ReplaceAll(s, "[tag]", FormatTag(tag.value)) else s;
    if tag.Some? { ReplaceAllSkipPrefix(a, s, "[tag]", FormatTag(tag.value)); }
    var e2 := if go.Some? then ReplaceAll(e1, "[gameobject]", go.value) else e1;
    if go.Some? { ReplaceAllSkipPrefix(a, e1, "[gameobject]", go.value); }
    var e3 := if path.Some? then ReplaceAll(e2, "[path]", "\"" + path.value + "\"") else e2;
    if path.Some? { ReplaceAllSkipPrefix(a, e2, "[path]", "\"" + path.value + "\""); }
    var e4 := if go.Some? && path.Some? then ReplaceAll(e3, "[fullpath]", go.value + "/" + path.value) else e3;
    if go.Some? && path.Some? { ReplaceAllSkipPrefix(a, e3, "[fullpath]", go.value + "/" + path.value); }
    if t.Some? { ReplaceAllSkipPrefix(a, e4, "[component]", t.value.name); }
  }

  // ---------------------------------------------------------------------
  // What the substitution produces
  // ---------------------------------------------------------------------

  /** The five placeholders, in the order `FormatError` substitutes them. */
  datatype Hole = TagHole | GameObjectHole | PathHole | FullPathHole | ComponentHole

  function Order(h: Hole): nat {
    match h
    case TagHole => 0
    case GameObjectHole => 1
    case PathHole => 2
    case FullPathHole => 3
    case ComponentHole => 4
  }

  function HoleAt(k: nat): (h: Hole)
    requires k < 5
    ensures Order(h) == k
  {
    if k == 0 then TagHole
    else if k == 1 then GameObjectHole
    else if k == 2 then PathHole
    else if k == 3 then FullPathHole
    else ComponentHole
  }

  /** One text per placeholder. */
  datatype Contents = Contents(tag: string, gameObject: string, path: string, fullPath: string, component: string)

  function Get(c: Contents, h: Hole): string {
    match h
    case TagHole => c.tag
    case GameObjectHole => c.gameObject
    case PathHole => c.path
    case FullPathHole => c.fullPath
    case ComponentHole => c.component
  }

  /** The placeholders as written in templates and reasons. */
  const Keys: Contents := Contents("[tag]", "[gameobject]", "[path]", "[fullpath]", "[component]")

  function Key(h: Hole): (k: string)
    ensures IsPlaceholder(k)
  {
    match h
    case TagHole => assert IsPlaceholder(Keys.tag); Keys.tag
    case GameObjectHole => assert IsPlaceholder(Keys.gameObject); Keys.gameObject
    case PathHole => assert IsPlaceholder(Keys.path); Keys.path
    case FullPathHole => assert IsPlaceholder(Keys.fullPath); Keys.fullPath
    case ComponentHole => assert IsPlaceholder(Keys.component); Keys.component
  }

  /** A placeholder's outer pair of brackets around the text in its slot. */
  function Bracket(v: string): string {
    "[" + v + "]"
  }

  /** Different placeholders are spelled differently. */
  lemma KeysDiffer(h: Hole, h': Hole)
    requires h != h'
    ensures Key(h) != Key(h')
  {
  }

  /** The null-or-not arguments of `FormatError`. */
  datatype Arguments = Arguments(tag: Option<Tag>, go: Option<string>, path: Option<string>, t: Option<TypeName>)

  /** The text that replaces a placeholder, or `None` when its argument is
      null; `[fullpath]` needs both the game object and the path. */
  function Value(h: Hole, a: Arguments): Option<string> {
    match h
    case TagHole => if a.tag.Some? then Some(FormatTag(a.tag.value)) else None
    case GameObjectHole => a.go
    case PathHole => if a.path.Some? then Some("\"" + a.path.value + "\"") else None
    case FullPathHole => if a.go.Some? && a.path.Some? then Some(a.go.value + "/" + a.path.value) else None
    case ComponentHole => if a.t.Some? then Some(a.t.value.name) else None
  }

  /** A placeholder's text once substitution is over. */
  function Filled(h: Hole, a: Arguments): string {
    if Value(h, a).Some? then Value(h, a).value else Key(h)
  }

  function Fills(a: Arguments): Contents {
    Contents(Filled(TagHole, a), Filled(GameObjectHole, a), Filled(PathHole, a),
             Filled(FullPathHole, a), Filled(ComponentHole, a))
  }

  /** A piece of a template or reason: literal text, or a placeholder in
      doubled brackets such as `[[tag]]`. */
  datatype Segment = Lit(text: string) | Slot(hole: Hole)

  function Piece(seg: Segment, c: Contents): string {
    match seg
    case Lit(text) => text
    case Slot(h) => "[" + Get(c, h) + "]"
  }

  /** The segments written out, each slot holding its text from `c`. */
  function RenderWith(segs: seq<Segment>, c: Contents): string
    decreases |segs|
  {
    if |segs| == 0 then "" else Piece(segs[0], c) + RenderWith(segs[1..], c)
  }

  /** The text as written in the source, placeholders included. */
  function Render(segs: seq<Segment>): string {
    RenderWith(segs, Keys)
  }

  lemma {:induction false} RenderAppend(x: seq<Segment>, y: seq<Segment>, c: Contents)
    ensures RenderWith(x + y, c) == RenderWith(x, c) + RenderWith(y, c)
    decreases |x|
  {
    if |x| == 0 {
      assert x + y == y;
    } else {
      assert (x + y)[1..] == x[1..] + y;
      RenderAppend(x[1..], y, c);
    }
  }

  predicate LiteralsPlain(segs: seq<Segment>) {
    forall seg | seg in segs && seg.Lit? :: '[' !in seg.text
  }

  /** Text that, once put in a slot, no later substitution can touch. */
  predicate Inert(v: string) {
    '[' !in v && ']' !in v && forall h :: "[" + v + "]" != Key(h)
  }

  /** Some placeholder after `h` is substituted at all. */
  predicate LaterActive(h: Hole, a: Arguments) {
    || (Order(h) < 1 && Value(GameObjectHole, a).Some?)
    || (Order(h) < 2 && Value(PathHole, a).Some?)
    || (Order(h) < 3 && Value(FullPathHole, a).Some?)
    || (Order(h) < 4 && Value(ComponentHole, a).Some?)
  }

  /** Every value that a later substitution could rewrite is inert. */
  predicate Substitutable(segs: seq<Segment>, a: Arguments) {
    forall seg | seg in segs && seg.Slot? && Value(seg.hole, a).Some? && LaterActive(seg.hole, a) ::
      Inert(Value(seg.hole, a).value)
  }

  /** One of the five `Replace` steps of `FormatError`. */
  function Pass(e: string, h: Hole, a: Arguments): string {
    if Value(h, a).Some? then ReplaceAll(e, Key(h), Value(h, a).value) else e
  }

  lemma SubstituteIsPasses(e: string, a: Arguments)
    ensures Substitute(e, a.tag, a.go, a.path, a.t)
         == Pass(Pass(Pass(Pass(Pass(e, TagHole, a), GameObjectHole, a), PathHole, a), FullPathHole, a), ComponentHole, a)
  {
  }

  /** The slot texts after the first `k` steps. */
  function Stage(k: nat, a: Arguments): Contents {
    Contents(StageOf(TagHole, k, a), StageOf(GameObjectHole, k, a), StageOf(PathHole, k, a),
             StageOf(FullPathHole, k, a), StageOf(ComponentHole, k, a))
  }

  function StageOf(h: Hole, k: nat, a: Arguments): string {
    if Order(h) < k then Filled(h, a) else Key(h)
  }

  lemma GetStage(h: Hole, k: nat, a: Arguments)
    ensures Get(Stage(k, a), h) == StageOf(h, k, a)
  {
    match h
    case TagHole =>
    case GameObjectHole =>
    case PathHole =>
    case FullPathHole =>
    case ComponentHole =>
  }

  /** One step on one segment. */
  lemma PassPiece(seg: Segment, k: nat, a: Arguments)
    requires k < 5
    requires seg.Lit? ==> '[' !in seg.text
    requires seg.Slot? && Value(seg.hole, a).Some? && LaterActive(seg.hole, a) ==> Inert(Value(seg.hole, a).value)
    ensures Pass(Piece(seg, Stage(k, a)), HoleAt(k), a) == Piece(seg, Stage(k + 1, a))
  {
    match seg
    case Lit(text) =>
      if Value(HoleAt(k), a).Some? { ReplaceAllFree(text, Key(HoleAt(k)), Value(HoleAt(k), a).value); }
    case Slot(h) =>
      GetStage(h, k, a);
      GetStage(h, k + 1, a);
      PassSlot(h, k, a);
  }

  /** One step on one slot: the step's own placeholder is filled, any
      other placeholder and any inert value stay. */
  lemma PassSlot(h: Hole, k: nat, a: Arguments)
    requires k < 5
    requires Value(h, a).Some? && LaterActive(h, a) ==> Inert(Value(h, a).value)
    ensures Pass("[" + StageOf(h, k, a) + "]", HoleAt(k), a) == "[" + StageOf(h, k + 1, a) + "]"
  {
    var p := HoleAt(k);
    if Value(p, a).Some? {
      var pat, rep := Key(p), Value(p, a).value;
      if Order(h) == k {
        assert h == p;
        PlaceholderGroupFilled(pat, rep);
      } else if Order(h) < k && Value(h, a).Some? {
        assert LaterActive(h, a);
        PlainGroupKept(Value(h, a).value, pat, rep);
      } else {
        KeysDiffer(h, p);
        PlaceholderGroupKept(Key(h), pat, rep);
      }
    } else if Order(h) == k {
      assert h == p;
    }
  }

  /** One step on a whole text: each segment changes on its own. */
  lemma {:induction false} PassStage(segs: seq<Segment>, k: nat, a: Arguments)
    requires k < 5
    requires LiteralsPlain(segs) && Substitutable(segs, a)
    ensures Pass(RenderWith(segs, Stage(k, a)), HoleAt(k), a) == RenderWith(segs, Stage(k + 1, a))
    decreases |segs|
  {
    if |segs| > 0 {
      var c := Stage(k, a);
      assert segs[0] in segs;
      PassPiece(segs[0], k, a);
      assert forall seg | seg in segs[1..] :: seg in segs;
      PassStage(segs[1..], k, a);
      var p := HoleAt(k);
      if Value(p, a).Some? {
        ReplaceAllConcat(Piece(segs[0], c), RenderWith(segs[1..], c), Key(p), Value(p, a).value);
      }
    }
  }

  /** The substitution as a whole: every placeholder becomes its filled
      text, one slot at a time, provided no value that a later step could
      rewrite holds brackets or spells a placeholder. */
  lemma SubstituteFills(segs: seq<Segment>, a: Arguments)
    requires LiteralsPlain(segs) && Substitutable(segs, a)
    ensures Substitute(Render(segs), a.tag, a.go, a.path, a.t) == RenderWith(segs, Fills(a))
  {
    assert Stage(0, a) == Keys;
    PassStage(segs, 0, a);
    PassStage(segs, 1, a);
    PassStage(segs, 2, a);
    PassStage(segs, 3, a);
    PassStage(segs, 4, a);
    assert Stage(5, a) == Fills(a);
    SubstituteIsPasses(Render(segs), a);
  }

  /** `FormatError`: the prefix alone when assertions are compiled out;
      otherwise prefix, template, separator and reason, with placeholders
      substituted, and a final `\n`. */
  function FormatError(assertions: bool, template: string, tag: Option<Tag>, go: Option<string>,
                       path: Option<string>, t: Option<TypeName>, reason: string): (r: string)
    ensures StartsWith(r, ErrorPrefix)
    ensures !assertions ==> r == ErrorPrefix
    ensures assertions ==> EndsWith(r, "\n")
  {
    if !assertions then ErrorPrefix
    else
      var body := template + ReasonSeparator + reason;
      SubstituteSkipsPrefix(ErrorPrefix, body, tag, go, path, t);
      Substitute(ErrorPrefix + body, tag, go, path, t) + "\n"
  }

  /** A template and reason without any `[` come out verbatim, whatever
      arguments are given. */
  lemma FormatErrorVerbatim(template: string, tag: Option<Tag>, go: Option<string>,
                            path: Option<string>, t: Option<TypeName>, reason: string)
    requires '[' !in template && '[' !in reason
    ensures FormatError(true, template, tag, go, path, t, reason)
         == ErrorPrefix + template + ReasonSeparator + reason + "\n"
  {
    var e := ErrorPrefix + template + ReasonSeparator + reason;
    assert e == ErrorPrefix + (template + ReasonSeparator + reason);
    assert '[' !in e;
    SubstituteSkipsPrefix(e, "", tag, go, path, t);
    assert e + "" == e;
  }

  /** With every argument null nothing is substituted: the placeholders
      stay in the text as written. */
  lemma FormatErrorNullArguments(template: string, reason: string)
    ensures FormatError(true, template, None, None, None, None, reason)
         == ErrorPrefix + template + ReasonSeparator + reason + "\n"
  {
  }

  lemma FramePlain()
    ensures '[' !in ErrorPrefix && '[' !in ReasonSeparator
  {
    assert forall i | 0 <= i < |ErrorPrefix| :: ErrorPrefix[i] != '[';
    assert forall i | 0 <= i < |ReasonSeparator| :: ReasonSeparator[i] != '[';
  }

  lemma RenderLit(text: string, c: Contents)
    ensures RenderWith([Lit(text)], c) == text
  {
    assert [Lit(text)][1..] == [];
    assert text + "" == text;
  }

  /** The prefix, a template, a separator and a reason, written out from
      one segment list. */
  lemma RenderMessage(prefix: string, sep: string, template: seq<Segment>, reason: seq<Segment>, c: Contents)
    ensures RenderWith([Lit(prefix)] + template + [Lit(sep)] + reason, c)
         == prefix + (RenderWith(template, c) + sep + RenderWith(reason, c))
  {
    var x, y := [Lit(prefix)] + template, [Lit(sep)];
    RenderAppend(x + y, reason, c);
    RenderAppend(x, y, c);
    RenderAppend([Lit(prefix)], template, c);
    RenderLit(prefix, c);
    RenderLit(sep, c);
    Regroup(prefix, RenderWith(template, c), sep, RenderWith(reason, c));
  }

  /** The framed segment list keeps the template's and the reason's
      properties when prefix and separator hold no `[`. */
  lemma FramedSubstitutable(prefix: string, sep: string, template: seq<Segment>, reason: seq<Segment>, a: Arguments)
    requires '[' !in prefix && '[' !in sep
    requires LiteralsPlain(template) && LiteralsPlain(reason)
    requires Substitutable(template + reason, a)
    ensures var all := [Lit(prefix)] + template + [Lit(sep)] + reason;
            LiteralsPlain(all) && Substitutable(all, a)
  {
    var all := [Lit(prefix)] + template + [Lit(sep)] + reason;
    forall seg | seg in all
      ensures seg == Lit(prefix) || seg == Lit(sep) || seg in template || seg in reason
    {
    }
  }

  /** With assertions compiled in, the message is the prefix, the template,
      the separator and the reason with every placeholder that has a
      non-null argument replaced by that argument's text (the outer pair
      of brackets stays), and a final newline. It holds whenever no value
      that a later step could rewrite holds brackets or spells a
      placeholder. */
  lemma FormatErrorFills(template: seq<Segment>, reason: seq<Segment>, a: Arguments)
    requires LiteralsPlain(template) && LiteralsPlain(reason)
    requires Substitutable(template + reason, a)
    ensures FormatError(true, Render(template), a.tag, a.go, a.path, a.t, Render(reason))
         == ErrorPrefix + RenderWith(template, Fills(a)) + ReasonSeparator + RenderWith(reason, Fills(a)) + "\n"
  {
    var all := [Lit(ErrorPrefix)] + template + [Lit(ReasonSeparator)] + reason;
    FramePlain();
    FramedSubstitutable(ErrorPrefix, ReasonSeparator, template, reason, a);
    SubstituteFills(all, a);
    RenderMessage(ErrorPrefix, ReasonSeparator, template, reason, Keys);
    RenderMessage(ErrorPrefix, ReasonSeparator, template, reason, Fills(a));
    Regroup(ErrorPrefix, RenderWith(template, Fills(a)), ReasonSeparator, RenderWith(reason, Fills(a)));
  }

  lemma Inside(p: string, b: string, c: string, d: string)
    ensures p + (b + c + d) == p + b + c + d
  {
  }

  lemma GetKeysFills(h: Hole, a: Arguments)
    ensures Get(Keys, h) == Key(h) && Get(Fills(a), h) == Filled(h, a)
  {
    match h
    case TagHole =>
    case GameObjectHole =>
    case PathHole =>
    case FullPathHole =>
    case ComponentHole =>
  }

  lemma RenderOne(before: string, h: Hole, after: string, c: Contents)
    ensures RenderWith([Lit(before), Slot(h), Lit(after)], c) == before + Bracket(Get(c, h)) + after
  {
    var segs := [Lit(before), Slot(h), Lit(after)];
    assert segs[1..] == [Slot(h), Lit(after)] && segs[1..][1..] == [Lit(after)];
    assert RenderWith([Lit(after)], c) == after + "";
  }

  /** A template with one doubled-bracket placeholder: the placeholder's
      slot holds its argument's text when that argument is non-null and
      the placeholder itself otherwise. */
  lemma FormatErrorOnePlaceholder(h: Hole, before: string, after: string, reason: string, a: Arguments)
    requires '[' !in before && '[' !in after && '[' !in reason
    requires Value(h, a).Some? && LaterActive(h, a) ==> Inert(Value(h, a).value)
    ensures FormatError(true, before + Bracket(Key(h)) + after, a.tag, a.go, a.path, a.t, reason)
         == ErrorPrefix + before + Bracket(Filled(h, a)) + after + ReasonSeparator + reason + "\n"
  {
    var template := [Lit(before), Slot(h), Lit(after)];
    GetKeysFills(h, a);
    RenderOne(before, h, after, Keys);
    RenderOne(before, h, after, Fills(a));
    RenderLit(reason, Keys);
    RenderLit(reason, Fills(a));
    assert forall seg | seg in template + [Lit(reason)] :: seg == Lit(before) || seg == Slot(h) || seg == Lit(after) || seg == Lit(reason);
    FormatErrorFills(template, [Lit(reason)], a);
    assert Render(template) == before + Bracket(Key(h)) + after;
    assert Render([Lit(reason)]) == reason;
    Inside(ErrorPrefix, before, Bracket(Filled(h, a)), after);
  }

  /** `[[fullpath]]` becomes the game object's name, a slash and the path,
      inside one pair of brackets, when both are non-null. */
  lemma FormatErrorFullPath(before: string, after: string, reason: string, go: string, path: string)
    requires '[' !in before && '[' !in after && '[' !in reason
    ensures FormatError(true, before + "[[fullpath]]" + after, None, Some(go), Some(path), None, reason)
         == ErrorPrefix + before + Bracket(go + "/" + path) + after + ReasonSeparator + reason + "\n"
  {
    var a := Arguments(None, Some(go), Some(path), None);
    assert "[[fullpath]]" == Bracket(Key(FullPathHole));
    assert !LaterActive(FullPathHole, a) && Filled(FullPathHole, a) == go + "/" + path;
    FormatErrorOnePlaceholder(FullPathHole, before, after, reason, a);
  }

  /** With a null game object `[[fullpath]]` stays as written, even though
      the path is given. */
  lemma FormatErrorFullPathNeedsGameObject(before: string, after: string, reason: string, path: string)
    requires '[' !in before && '[' !in after && '[' !in reason
    ensures FormatError(true, before + "[[fullpath]]" + after, None, None, Some(path), None, reason)
         == ErrorPrefix + before + "[[fullpath]]" + after + ReasonSeparator + reason + "\n"
  {
    var a := Arguments(None, None, Some(path), None);
    assert "[[fullpath]]" == Bracket(Key(FullPathHole));
    assert Filled(FullPathHole, a) == Key(FullPathHole);
    FormatErrorOnePlaceholder(FullPathHole, before, after, reason, a);
  }

  /** `[[tag]]` becomes the caller's description. */
  lemma FormatErrorTag(before: string, after: string, reason: string, tag: Tag)
    requires '[' !in before && '[' !in after && '[' !in reason
    ensures FormatError(true, before + "[[tag]]" + after, Some(tag), None, None, None, reason)
         == ErrorPrefix + before + Bracket(FormatTag(tag)) + after + ReasonSeparator + reason + "\n"
  {
    var a := Arguments(Some(tag), None, None, None);
    assert "[[tag]]" == Bracket(Key(TagHole));
    assert !LaterActive(TagHole, a) && Filled(TagHole, a) == FormatTag(tag);
    FormatErrorOnePlaceholder(TagHole, before, after, reason, a);
  }

  /** `[[gameobject]]` becomes the game object's name. */
  lemma FormatErrorGameObject(before: string, after: string, reason: string, go: string)
    requires '[' !in before && '[' !in after && '[' !in reason
    ensures FormatError(true, before + "[[gameobject]]" + after, None, Some(go), None, None, reason)
         == ErrorPrefix + before + Bracket(go) + after + ReasonSeparator + reason + "\n"
  {
    var a := Arguments(None, Some(go), None, None);
    assert "[[gameobject]]" == Bracket(Key(GameObjectHole));
    assert !LaterActive(GameObjectHole, a) && Filled(GameObjectHole, a) == go;
    FormatErrorOnePlaceholder(GameObjectHole, before, after, reason, a);
  }

  /** `[[component]]` becomes the component type's short name. */
  lemma FormatErrorComponent(before: string, after: string, reason: string, t: TypeName)
    requires '[' !in before && '[' !in after && '[' !in reason
    ensures FormatError(true, before + "[[component]]" + after, None, None, None, Some(t), reason)
         == ErrorPrefix + before + Bracket(t.name) + after + ReasonSeparator + reason + "\n"
  {
    var a := Arguments(None, None, None, Some(t));
    assert "[[component]]" == Bracket(Key(ComponentHole));
    assert !LaterActive(ComponentHole, a) && Filled(ComponentHole, a) == t.name;
    FormatErrorOnePlaceholder(ComponentHole, before, after, reason, a);
  }

  /** `[[path]]` becomes the path in double quotes inside one pair of
      brackets. */
  lemma FormatErrorQuotesPath(before: string, after: string, reason: string, path: string)
    requires '[' !in before && '[' !in after && '[' !in reason
    ensures FormatError(true, before + "[[path]]" + after, None, None, Some(path), None, reason)
         == ErrorPrefix + before + Bracket("\"" + path + "\"") + after + ReasonSeparator + reason + "\n"
  {
    var a := Arguments(None, None, Some(path), None);
    assert "[[path]]" == Bracket(Key(PathHole));
    assert !LaterActive(PathHole, a) && Filled(PathHole, a) == "\"" + path + "\"";
    FormatErrorOnePlaceholder(PathHole, before, after, reason, a);
  }

  // ---------------------------------------------------------------------
  // Messages of three placeholders and a reason of one
  // ---------------------------------------------------------------------

  lemma RenderLitSlot(l: string, h: Hole, rest: seq<Segment>, c: Contents)
    ensures RenderWith([Lit(l), Slot(h)] + rest, c) == l + Bracket(Get(c, h)) + RenderWith(rest, c)
  {
    var s := [Lit(l), Slot(h)] + rest;
    assert s[1..][1..] == rest;
  }

  lemma Chain(a: string, b: string, c: string, d: string, e: string, f: string)
    ensures a + b + (c + d + (e + f + "")) == a + b + c + d + e + f
  {
  }

  /** Three literal pieces, each followed by a placeholder. */
  lemma RenderThree(l1: string, h1: Hole, l2: string, h2: Hole, l3: string, h3: Hole, c: Contents,
                    v1: string, v2: string, v3: string)
    requires Get(c, h1) == v1 && Get(c, h2) == v2 && Get(c, h3) == v3
    ensures RenderWith([Lit(l1), Slot(h1), Lit(l2), Slot(h2), Lit(l3), Slot(h3)], c)
         == l1 + Bracket(v1) + l2 + Bracket(v2) + l3 + Bracket(v3)
  {
    var p3 := [Lit(l3), Slot(h3)];
    var p2 := [Lit(l2), Slot(h2)];
    assert [Lit(l1), Slot(h1), Lit(l2), Slot(h2), Lit(l3), Slot(h3)] == [Lit(l1), Slot(h1)] + (p2 + (p3 + []));
    RenderLitSlot(l3, h3, [], c);
    RenderLitSlot(l2, h2, p3 + [], c);
    RenderLitSlot(l1, h1, p2 + (p3 + []), c);
    Chain(l1, Bracket(v1), l2, Bracket(v2), l3, Bracket(v3));
  }

  /** A literal piece, a placeholder and a literal piece. */
  lemma RenderReason(r1: string, g: Hole, r2: string, c: Contents, v: string)
    requires Get(c, g) == v
    ensures RenderWith([Lit(r1), Slot(g), Lit(r2)], c) == r1 + Bracket(v) + r2
  {
    assert [Lit(r1), Slot(g), Lit(r2)] == [Lit(r1), Slot(g)] + [Lit(r2)];
    RenderLitSlot(r1, g, [Lit(r2)], c);
    RenderLit(r2, c);
  }

  lemma Flat(p: string, a1: string, a2: string, a3: string, a4: string, a5: string, a6: string,
             s: string, r1: string, r2: string, r3: string, n: string)
    ensures p + (a1 + a2 + a3 + a4 + a5 + a6) + s + (r1 + r2 + r3) + n
         == p + a1 + a2 + a3 + a4 + a5 + a6 + s + r1 + r2 + r3 + n
  {
  }

  /** A template of three literal pieces each followed by a placeholder,
      and a reason of one placeholder between two literal pieces, come out
      with every placeholder filled. */
  lemma FormatErrorThreeOne(l1: string, h1: Hole, l2: string, h2: Hole, l3: string, h3: Hole,
                            r1: string, g: Hole, r2: string, a: Arguments)
    requires '[' !in l1 && '[' !in l2 && '[' !in l3 && '[' !in r1 && '[' !in r2
    requires Substitutable([Slot(h1), Slot(h2), Slot(h3), Slot(g)], a)
    ensures FormatError(true, Render([Lit(l1), Slot(h1), Lit(l2), Slot(h2), Lit(l3), Slot(h3)]),
                        a.tag, a.go, a.path, a.t, Render([Lit(r1), Slot(g), Lit(r2)]))
         == ErrorPrefix + l1 + Bracket(Filled(h1, a)) + l2 + Bracket(Filled(h2, a)) + l3 + Bracket(Filled(h3, a))
            + ReasonSeparator + r1 + Bracket(Filled(g, a)) + r2 + "\n"
  {
    var template: seq<Segment> := [Lit(l1), Slot(h1), Lit(l2), Slot(h2), Lit(l3), Slot(h3)];
    var reason: seq<Segment> := [Lit(r1), Slot(g), Lit(r2)];
    assert forall seg: Segment | seg in template + reason :: seg.Lit? ==> seg in [Lit(l1), Lit(l2), Lit(l3), Lit(r1), Lit(r2)];
    assert forall seg: Segment | seg in template + reason :: seg.Slot? ==> seg in [Slot(h1), Slot(h2), Slot(h3), Slot(g)];
    FormatErrorFills(template, reason, a);
    GetKeysFills(h1, a);
    GetKeysFills(h2, a);
    GetKeysFills(h3, a);
    GetKeysFills(g, a);
    var f1, f2, f3, f4 := Bracket(Filled(h1, a)), Bracket(Filled(h2, a)), Bracket(Filled(h3, a)), Bracket(Filled(g, a));
    RenderThree(l1, h1, l2, h2, l3, h3, Fills(a), Filled(h1, a), Filled(h2, a), Filled(h3, a));
    RenderReason(r1, g, r2, Fills(a), Filled(g, a));
    Flat(ErrorPrefix, l1, f1, l2, f2, l3, f3, ReasonSeparator, r1, f4, r2, "\n");
  }

  /** The same with a reason that ends with its placeholder. */
  lemma FormatErrorThreeOneEnd(l1: string, h1: Hole, l2: string, h2: Hole, l3: string, h3: Hole,
                               r1: string, g: Hole, a: Arguments)
    requires '[' !in l1 && '[' !in l2 && '[' !in l3 && '[' !in r1
    requires Substitutable([Slot(h1), Slot(h2), Slot(h3), Slot(g)], a)
    ensures FormatError(true, Render([Lit(l1), Slot(h1), Lit(l2), Slot(h2), Lit(l3), Slot(h3)]),
                        a.tag, a.go, a.path, a.t, Render([Lit(r1), Slot(g)]))
         == ErrorPrefix + l1 + Bracket(Filled(h1, a)) + l2 + Bracket(Filled(h2, a)) + l3 + Bracket(Filled(h3, a))
            + ReasonSeparator + r1 + Bracket(Filled(g, a)) + "\n"
  {
    FormatErrorThreeOne(l1, h1, l2, h2, l3, h3, r1, g, "", a);
    RenderReason(r1, g, "", Keys, Key(g));
    assert [Lit(r1), Slot(g)] == [Lit(r1), Slot(g)] + [];
    RenderLitSlot(r1, g, [], Keys);
    GetKeysFills(g, a);
  }

  /** A quoted path with no brackets in it cannot be mistaken for a
      placeholder. */
  lemma QuotedInert(path: string)
    requires '[' !in path && ']' !in path
    ensures Inert("\"" + path + "\"")
  {
    var q := "\"" + path + "\"";
    forall h
      ensures "[" + q + "]" != Key(h)
    {
      assert ("[" + q + "]")[1] == '"';
      assert Key(h)[1] != '"';
    }
  }

  // ---------------------------------------------------------------------
  // The lookups
  // ---------------------------------------------------------------------

  /** The templates and reasons of the lookups, split at their
      placeholders. A reason that ends with a placeholder has an empty
      last piece. */
  const ChildSegments: seq<Segment> :=
    [Lit("The tag "), Slot(TagHole), Lit(" is expecting GameObject "), Slot(GameObjectHole),
     Lit(" to have a child named "), Slot(PathHole)]
  const ChildMissingSegments: seq<Segment> := [Lit("GameObject does not exist: "), Slot(FullPathHole)]
  const ComponentSegments: seq<Segment> :=
    [Lit("The tag "), Slot(TagHole), Lit(" is expecting GameObject "), Slot(GameObjectHole),
     Lit(" to have component "), Slot(ComponentHole)]
  const ComponentMissingSegments: seq<Segment> := [Lit("component does not exist on "), Slot(GameObjectHole)]
  const ChildrenSegments: seq<Segment> :=
    [Lit("The tag "), Slot(TagHole), Lit(" is expecting GameObject "), Slot(GameObjectHole),
     Lit(" to have any child with script "), Slot(ComponentHole)]
  const NoMatchSegments: seq<Segment> := [Lit("component "), Slot(ComponentHole), Lit(" does not exist on any children")]
  const ManyMatchesSegments: seq<Segment> :=
    [Lit("more than one component of type "), Slot(ComponentHole), Lit(" exists in children")]

  const ChildTemplate: string := Render(ChildSegments)
  const ChildMissingReason: string := Render(ChildMissingSegments)
  const ComponentTemplate: string := Render(ComponentSegments)
  const ComponentMissingReason: string := Render(ComponentMissingSegments)
  const ChildComponentTemplate: string :=
    "The tag [[tag]] is expecting GameObject [[gameobject]] with child [[path]] to have component [[component]]"
  const ChildrenTemplate: string := Render(ChildrenSegments)
  const NoMatchReason: string := Render(NoMatchSegments)
  const ManyMatchesReason: string := Render(ManyMatchesSegments)

  lemma ChildLiteralsPlain()
    ensures '[' !in "The tag " && '[' !in " is expecting GameObject "
    ensures '[' !in " to have a child named " && '[' !in "GameObject does not exist: "
  {
    assert '[' !in "The tag ";
    assert '[' !in " is expecting GameObject ";
    assert '[' !in " to have a child named ";
    assert '[' !in "GameObject does not exist: ";
  }

  lemma ComponentLiteralsPlain()
    ensures '[' !in "The tag " && '[' !in " is expecting GameObject "
    ensures '[' !in " to have component " && '[' !in "component does not exist on "
  {
    assert '[' !in "The tag ";
    assert '[' !in " is expecting GameObject ";
    assert '[' !in " to have component ";
    assert '[' !in "component does not exist on ";
  }

  lemma ChildrenLiteralsPlain()
    ensures '[' !in "The tag " && '[' !in " is expecting GameObject " && '[' !in " to have any child with script "
  {
    assert '[' !in "The tag ";
    assert '[' !in " is expecting GameObject ";
    assert '[' !in " to have any child with script ";
  }

  lemma ReasonLiteralsPlain()
    ensures '[' !in "component " && '[' !in " does not exist on any children"
    ensures '[' !in "more than one component of type " && '[' !in " exists in children"
  {
    assert '[' !in "component ";
    assert '[' !in " does not exist on any children";
    assert '[' !in "more than one component of type ";
    assert '[' !in " exists in children";
  }

  /** `InternalFindChildByName`: `found` is the answer of `Transform.Find`. */
  function ChildByName<Child>(assertions: bool, tag: Option<Tag>, go: string, path: string,
                              found: Option<Child>): (r: Result<Child, string>)
    ensures r.Success? <==> found.Some?
    ensures r.Success? ==> r.value == found.value
    ensures r.Failure? ==> StartsWith(r.error, ErrorPrefix)
  {
    match found
    case Some(child) => Success(child)
    case None => Failure(FormatError(assertions, ChildTemplate, tag, Some(go), Some(path), None,
                                     ChildMissingReason))
  }

  lemma ChildMissingFills(tag: Tag, go: string, path: string)
    requires Inert(FormatTag(tag)) && Inert(go) && '[' !in path && ']' !in path
    ensures FormatError(true, ChildTemplate, Some(tag), Some(go), Some(path), None, ChildMissingReason)
         == ErrorPrefix
            + "The tag " + Bracket(FormatTag(tag)) + " is expecting GameObject " + Bracket(go)
            + " to have a child named " + Bracket("\"" + path + "\"")
            + ReasonSeparator + "GameObject does not exist: " + Bracket(go + "/" + path) + "\n"
  {
    var a := Arguments(Some(tag), Some(go), Some(path), None);
    QuotedInert(path);
    ChildLiteralsPlain();
    assert Substitutable([Slot(TagHole), Slot(GameObjectHole), Slot(PathHole), Slot(FullPathHole)], a);
    assert Filled(TagHole, a) == FormatTag(tag) && Filled(GameObjectHole, a) == go;
    assert Filled(PathHole, a) == "\"" + path + "\"" && Filled(FullPathHole, a) == go + "/" + path;
    FormatErrorThreeOneEnd("The tag ", TagHole, " is expecting GameObject ", GameObjectHole,
                           " to have a child named ", PathHole, "GameObject does not exist: ", FullPathHole, a);
  }

  /** With assertions compiled in, a missing child is reported with the
      caller's description, the game object's name, the quoted path and
      the full path each in place of its placeholder, provided none of
      these texts holds brackets or spells a placeholder. */
  lemma ChildByNameMessage<Child>(tag: Tag, go: string, path: string)
    requires Inert(FormatTag(tag)) && Inert(go) && '[' !in path && ']' !in path
    ensures ChildByName<Child>(true, Some(tag), go, path, None)
         == Failure(ErrorPrefix
                    + "The tag " + Bracket(FormatTag(tag)) + " is expecting GameObject " + Bracket(go)
                    + " to have a child named " + Bracket("\"" + path + "\"")
                    + ReasonSeparator + "GameObject does not exist: " + Bracket(go + "/" + path) + "\n")
  {
    ChildMissingFills(tag, go, path);
  }

  /** `InternalFindComponentOnGameObject`: `found` is `GetComponent<T>()`. */
  function ComponentOnGameObject<C>(assertions: bool, tag: Option<Tag>, go: string, t: TypeName,
                                    found: Option<C>): (r: Result<C, string>)
    ensures r.Success? <==> found.Some?
    ensures r.Success? ==> r.value == found.value
    ensures r.Failure? ==> StartsWith(r.error, ErrorPrefix)
  {
    match found
    case Some(c) => Success(c)
    case None => Failure(FormatError(assertions, ComponentTemplate, tag, Some(go), None, Some(t),
                                     ComponentMissingReason))
  }

  lemma ComponentMissingFills(tag: Tag, go: string, t: TypeName)
    requires Inert(FormatTag(tag)) && Inert(go)
    ensures FormatError(true, ComponentTemplate, Some(tag), Some(go), None, Some(t), ComponentMissingReason)
         == ErrorPrefix
            + "The tag " + Bracket(FormatTag(tag)) + " is expecting GameObject " + Bracket(go)
            + " to have component " + Bracket(t.name)
            + ReasonSeparator + "component does not exist on " + Bracket(go) + "\n"
  {
    var a := Arguments(Some(tag), Some(go), None, Some(t));
    ComponentLiteralsPlain();
    assert Substitutable([Slot(TagHole), Slot(GameObjectHole), Slot(ComponentHole), Slot(GameObjectHole)], a);
    assert Filled(TagHole, a) == FormatTag(tag) && Filled(GameObjectHole, a) == go && Filled(ComponentHole, a) == t.name;
    FormatErrorThreeOneEnd("The tag ", TagHole, " is expecting GameObject ", GameObjectHole,
                           " to have component ", ComponentHole, "component does not exist on ", GameObjectHole, a);
  }

  /** With assertions compiled in, a missing component is reported with
      the caller's description, the game object's name (twice) and the
      component type's short name in place of their placeholders. */
  lemma ComponentOnGameObjectMessage<C>(tag: Tag, go: string, t: TypeName)
    requires Inert(FormatTag(tag)) && Inert(go)
    ensures ComponentOnGameObject<C>(true, Some(tag), go, t, None)
         == Failure(ErrorPrefix
                    + "The tag " + Bracket(FormatTag(tag)) + " is expecting GameObject " + Bracket(go)
                    + " to have component " + Bracket(t.name)
                    + ReasonSeparator + "component does not exist on " + Bracket(go) + "\n")
  {
    ComponentMissingFills(tag, go, t);
  }

  /** `InternalFindComponentOnChild`: the child must exist, then carry the
      component; the two failures have different reasons. */
  function ComponentOnChild<C>(assertions: bool, tag: Option<Tag>, go: string, path: string,
                               t: TypeName, child: Option<Option<C>>): (r: Result<C, string>)
    ensures r.Success? <==> child.Some? && child.value.Some?
    ensures r.Success? ==> r.value == child.value.value
    ensures r.Failure? ==> StartsWith(r.error, ErrorPrefix)
  {
    match child
    case None => Failure(FormatError(assertions, ChildComponentTemplate, tag, Some(go), Some(path), Some(t),
                                     "gameObject [[fullpath]] does not exist"))
    case Some(None) => Failure(FormatError(assertions, ChildComponentTemplate, tag, Some(go), Some(path), Some(t),
                                           "no component [[component]] exists on [[fullpath]]"))
    case Some(Some(c)) => Success(c)
  }

  /** `ComponentOrCreate`: the existing component, or a newly added one.
      The boolean tells whether a component was added. */
  function ComponentOrCreate<C>(existing: Option<C>, created: C): (r: (C, bool))
    ensures r.1 <==> existing.None?
    ensures existing.Some? ==> r.0 == existing.value
    ensures existing.None? ==> r.0 == created
  {
    match existing
    case Some(c) => (c, false)
    case None => (created, true)
  }

  /** `InternalFindComponentInChildren`: `matches` is what
      `GetComponentsInChildren<T>()` returns. Exactly one match succeeds;
      none and more than one fail with different reasons. */
  function ComponentInChildren<C>(assertions: bool, tag: Option<Tag>, go: string, t: TypeName,
                                  matches: seq<C>): (r: Result<C, string>)
    ensures r.Success? <==> |matches| == 1
    ensures r.Success? ==> r.value == matches[0] && r.value in matches
    ensures r.Failure? ==> StartsWith(r.error, ErrorPrefix)
  {
    if |matches| == 0 then Failure(ChildrenError(assertions, tag, go, t, NoMatchReason))
    else if |matches| > 1 then Failure(ChildrenError(assertions, tag, go, t, ManyMatchesReason))
    else Success(matches[0])
  }

  function ChildrenError(assertions: bool, tag: Option<Tag>, go: string, t: TypeName, reason: string): (e: string)
    ensures StartsWith(e, ErrorPrefix)
  {
    FormatError(assertions, ChildrenTemplate, tag, Some(go), None, Some(t), reason)
  }

  /** The error of a search through the children, its reason's one
      `[[component]]` filled like the template's. */
  lemma ChildrenErrorFills(tag: Tag, go: string, t: TypeName, r1: string, r2: string)
    requires Inert(FormatTag(tag)) && Inert(go)
    requires '[' !in r1 && '[' !in r2
    ensures ChildrenError(true, Some(tag), go, t, Render([Lit(r1), Slot(ComponentHole), Lit(r2)]))
         == ErrorPrefix
            + "The tag " + Bracket(FormatTag(tag)) + " is expecting GameObject " + Bracket(go)
            + " to have any child with script " + Bracket(t.name)
            + ReasonSeparator + r1 + Bracket(t.name) + r2 + "\n"
  {
    var a := Arguments(Some(tag), Some(go), None, Some(t));
    ChildrenLiteralsPlain();
    assert Substitutable([Slot(TagHole), Slot(GameObjectHole), Slot(ComponentHole), Slot(ComponentHole)], a);
    assert Filled(TagHole, a) == FormatTag(tag) && Filled(GameObjectHole, a) == go && Filled(ComponentHole, a) == t.name;
    FormatErrorThreeOne("The tag ", TagHole, " is expecting GameObject ", GameObjectHole,
                        " to have any child with script ", ComponentHole, r1, ComponentHole, r2, a);
  }

  /** With assertions compiled in, no match and several matches are
      reported with their own reasons, each naming the component type. */
  lemma ComponentInChildrenMessage<C>(tag: Tag, go: string, t: TypeName, matches: seq<C>)
    requires Inert(FormatTag(tag)) && Inert(go)
    ensures |matches| == 0 ==>
              ComponentInChildren(true, Some(tag), go, t, matches)
              == Failure(ErrorPrefix
                         + "The tag " + Bracket(FormatTag(tag)) + " is expecting GameObject " + Bracket(go)
                         + " to have any child with script " + Bracket(t.name)
                         + ReasonSeparator + "component " + Bracket(t.name) + " does not exist on any children" + "\n")
    ensures |matches| > 1 ==>
              ComponentInChildren(true, Some(tag), go, t, matches)
              == Failure(ErrorPrefix
                         + "The tag " + Bracket(FormatTag(tag)) + " is expecting GameObject " + Bracket(go)
                         + " to have any child with script " + Bracket(t.name)
                         + ReasonSeparator + "more than one component of type " + Bracket(t.name) + " exists in children"
                         + "\n")
  {
    ReasonLiteralsPlain();
    if |matches| == 0 {
      ChildrenErrorFills(tag, go, t, "component ", " does not exist on any children");
    } else if |matches| > 1 {
      ChildrenErrorFills(tag, go, t, "more than one component of type ", " exists in children");
    }
  }
}

=== FILE: gvr_pointer_manager.dfy ===
/** GvrPointerManager: which gaze pointer and which event camera the
    scene's input uses, with a scene-wide single instance
    (Assets/GoogleVR/Scripts/Controller/GvrPointerManager.cs).

    Unity objects are identified by number; `None` is `null`. The static
    `instance` field and `GazeInputModule.gazePointer` are the `Globals`.
    Raising the change event is a list of deliveries, one per subscribed
    handler in subscription order, as a C# multicast delegate does. */
module GvrPointerManager {
  import opened Wrappers

  type ObjectId = nat

  /** One manager component. */
  datatype Manager = Manager(
    self: ObjectId,
    pointer: Option<ObjectId>,
    camera: Option<ObjectId>,
    listeners: seq<ObjectId>,
    enabled: bool)

  /** The static state shared by every manager. */
  datatype Globals = Globals(instance: Option<ObjectId>, gazePointer: Option<ObjectId>)

  /** A handler of `OnPointerEventCameraChanged` called with a camera. */
  datatype Delivery = Delivery(listener: ObjectId, camera: Option<ObjectId>)

  /** A new component as Unity creates it. */
  function Create(self: ObjectId): (m: Manager)
    ensures m.self == self && m.pointer.None? && m.camera.None? && m.listeners == [] && m.enabled
  {
    Manager(self, None, None, [], true)
  }

  /** The `Pointer` setter: a change of pointer is mirrored into the gaze
      input module; assigning the current pointer does nothing at all. */
  function SetPointer(m: Manager, g: Globals, value: Option<ObjectId>): (r: (Manager, Globals))
    ensures r.0.pointer == value
    ensures r.0.(pointer := m.pointer) == m
    ensures m.pointer == value ==> r.1 == g
    ensures m.pointer != value ==> r.1 == g.(gazePointer := value)
  {
    if m.pointer == value then (m, g)
    else (m.(pointer := value), g.(gazePointer := value))
  }

  /** Assigning the same pointer twice is the same as assigning it once. */
  lemma SetPointerIdempotent(m: Manager, g: Globals, value: Option<ObjectId>)
    ensures var (m1, g1) := SetPointer(m, g, value);
            SetPointer(m1, g1, value) == (m1, g1)
  {
  }

  /** Every handler currently subscribed, called in order with `camera`. */
  function Raise(listeners: seq<ObjectId>, camera: Option<ObjectId>): (events: seq<Delivery>)
    ensures |events| == |listeners|
    ensures forall i | 0 <= i < |events| :: events[i] == Delivery(listeners[i], camera)
  {
    seq(|listeners|, i requires 0 <= i < |listeners| => Delivery(listeners[i], camera))
  }

  /** The `PointerEventCamera` setter: a change is stored and announced
      once to every handler; assigning the current camera is silent. */
  function SetPointerEventCamera(m: Manager, value: Option<ObjectId>): (r: (Manager, seq<Delivery>))
    ensures r.0.camera == value
    ensures r.0.(camera := m.camera) == m
    ensures m.camera == value ==> r.1 == []
    ensures m.camera != value ==> r.1 == Raise(m.listeners, value)
  {
    if m.camera == value then (m, [])
    else (m.(camera := value), Raise(m.listeners, value))
  }

  /** A second assignment of the same camera announces nothing, and each
      subscribed handler hears about a change exactly once. */
  lemma CameraChangeAnnouncedOnce(m: Manager, value: Option<ObjectId>, listener: ObjectId)
    requires m.camera != value
    ensures var (m1, events) := SetPointerEventCamera(m, value);
            && SetPointerEventCamera(m1, value) == (m1, [])
            && multiset(events)[Delivery(listener, value)] == multiset(m.listeners)[listener]
  {
    var events := Raise(m.listeners, value);
    RaiseCounts(m.listeners, value, listener);
  }

  lemma {:induction false} RaiseCounts(listeners: seq<ObjectId>, camera: Option<ObjectId>, listener: ObjectId)
    ensures multiset(Raise(listeners, camera))[Delivery(listener, camera)] == multiset(listeners)[listener]
  {
    if |listeners| > 0 {
      var n := |listeners| - 1;
      RaiseCounts(listeners[..n], camera, listener);
      assert Raise(listeners, camera) == Raise(listeners[..n], camera) + [Delivery(listeners[n], camera)];
      assert listeners == listeners[..n] + [listeners[n]];
    }
  }

  /** `OnPointerEventCameraChanged += handler`: appended to the end. */
  function Subscribe(m: Manager, handler: ObjectId): (r: Manager)
    ensures r.listeners == m.listeners + [handler]
    ensures r.(listeners := m.listeners) == m
  {
    m.(listeners := m.listeners + [handler])
  }

  /** `OnPointerEventCameraChanged -= handler`: the last subscription of
      the handler is removed; removing one never subscribed does nothing. */
  function Unsubscribe(m: Manager, handler: ObjectId): (r: Manager)
    ensures r.(listeners := m.listeners) == m
    ensures handler !in m.listeners ==> r == m
    ensures handler in m.listeners ==> DropsLastCopy(m.listeners, handler, r.listeners)
    ensures multiset(r.listeners) == multiset(m.listeners) - multiset{handler}
  {
    m.(listeners := RemoveLast(m.listeners, handler))
  }

  /** The position of the last subscription of `x`. */
  function LastIndexOf(s: seq<ObjectId>, x: ObjectId): (k: nat)
    requires x in s
    ensures k < |s| && s[k] == x && x !in s[k + 1..]
  {
    if s[|s| - 1] == x then |s| - 1
    else
      assert s == s[..|s| - 1] + [s[|s| - 1]];
      LastIndexOf(s[..|s| - 1], x)
  }

  /** `r` is `s` without its last copy of `x`, the order of the rest
      kept. */
  predicate DropsLastCopy(s: seq<ObjectId>, x: ObjectId, r: seq<ObjectId>) {
    exists k | 0 <= k < |s| :: s[k] == x && x !in s[k + 1..] && r == s[..k] + s[k + 1..]
  }

  /** Delegate removal: the last occurrence of `x` goes, everything else
      keeps its order, so the remaining deliveries happen as before. */
  function RemoveLast(s: seq<ObjectId>, x: ObjectId): (r: seq<ObjectId>)
    ensures x !in s ==> r == s
    ensures x in s ==> DropsLastCopy(s, x, r)
    ensures x in s ==> |r| == |s| - 1
    ensures multiset(r) == multiset(s) - multiset{x}
  {
    if x in s then
      var k := LastIndexOf(s, x);
      RemovedAt(s, k, s[..k] + s[k + 1..]);
      s[..k] + s[k + 1..]
    else
      NothingRemoved(s, x);
      s
  }

  /** Dropping the element at `k` loses exactly one copy of it. */
  lemma RemovedAt(s: seq<ObjectId>, k: nat, r: seq<ObjectId>)
    requires k < |s| && r == s[..k] + s[k + 1..]
    ensures multiset(r) == multiset(s) - multiset{s[k]}
  {
    assert s == s[..k] + [s[k]] + s[k + 1..];
  }

  /** Without a copy of `x` there is nothing to lose. */
  lemma NothingRemoved(s: seq<ObjectId>, x: ObjectId)
    requires x !in s
    ensures multiset(s) - multiset{x} == multiset(s)
  {
    assert multiset(s)[x] == 0;
  }

  /** Subscribing and then unsubscribing a handler restores the list. */
  lemma {:induction false} SubscribeUnsubscribe(m: Manager, handler: ObjectId)
    ensures Unsubscribe(Subscribe(m, handler), handler) == m
  {
    var s := m.listeners + [handler];
    assert s[..|s| - 1] == m.listeners;
  }

  /** `OnPointerCreated`: a newly created pointer and its camera are
      adopted only while no pointer is assigned. */
  function OnPointerCreated(m: Manager, g: Globals, created: Option<ObjectId>, camera: Option<ObjectId>)
    : (r: (Manager, Globals, seq<Delivery>))
    ensures m.pointer.Some? ==> r == (m, g, [])
    ensures m.pointer.None? ==> r.0.pointer == created && r.0.camera == camera
    ensures r.0.listeners == m.listeners && r.0.self == m.self && r.0.enabled == m.enabled
  {
    if m.pointer.None? then
      var (m1, g1) := SetPointer(m, g, created);
      var (m2, events) := SetPointerEventCamera(m1, camera);
      (m2, g1, events)
    else (m, g, [])
  }

  /** The first pointer created wins: a later creation changes neither
      the pointer, the camera, the gaze module nor any listener. */
  lemma FirstPointerWins(m: Manager, g: Globals, p1: ObjectId, c1: Option<ObjectId>, p2: Option<ObjectId>, c2: Option<ObjectId>)
    requires m.pointer.None?
    ensures var (m1, g1, _) := OnPointerCreated(m, g, Some(p1), c1);
            && m1.pointer == Some(p1) && m1.camera == c1 && g1.gazePointer == Some(p1)
            && OnPointerCreated(m1, g1, p2, c2) == (m1, g1, [])
  {
  }

  /** The error logged when a second manager wakes up. */
  const DuplicateMessage: string :=
    "More than one GvrPointerManager instance was found in your scene. Ensure that there is only one GvrPointerManager."

  /** `Awake`: the first manager registers itself; a later one is
      disabled, logs an error and leaves the registration alone. */
  function Awake(m: Manager, g: Globals): (r: (Manager, Globals, Option<string>))
    ensures g.instance.None? ==> r == (m, g.(instance := Some(m.self)), None)
    ensures g.instance.Some? ==> r == (m.(enabled := false), g, Some(DuplicateMessage))
  {
    if g.instance.Some? then (m.(enabled := false), g, Some(DuplicateMessage))
    else (m, g.(instance := Some(m.self)), None)
  }

  /** `OnDestroy`: the registration is cleared only by its owner. */
  function OnDestroy(m: Manager, g: Globals): (r: Globals)
    ensures g.instance == Some(m.self) ==> r.instance.None?
    ensures g.instance != Some(m.self) ==> r == g
    ensures r.gazePointer == g.gazePointer
  {
    if g.instance == Some(m.self) then g.(instance := None) else g
  }

  /** Two managers in a scene: the first one stays registered, the second
      is disabled, and destroying the second does not unregister the
      first. Destroying the first leaves the scene without an instance. */
  lemma DuplicateManagerScenario(a: Manager, b: Manager, g: Globals)
    requires g.instance.None? && a.self != b.self
    ensures var (_, g1, _) := Awake(a, g);
            var (b2, g2, log) := Awake(b, g1);
            && g2.instance == Some(a.self) && !b2.enabled && log.Some?
            && OnDestroy(b2, g2).instance == Some(a.self)
            && OnDestroy(a, OnDestroy(b2, g2)).instance.None?
  {
  }
}

=== FILE: int32.dfy ===
/** The 32-bit signed `int` of C#: its range and the wrap-around of unchecked
    arithmetic, which is what C# does by default on overflow. */
module Int32 {

  const Min: int := -0x8000_0000
  const Max: int := 0x7fff_ffff
  const Modulus: int := 0x1_0000_0000

  predicate InRange(x: int) {
    Min <= x <= Max
  }

  /** The value an unchecked C# `int` expression yields when the exact
      result is `x`: the unique int32 congruent to `x` modulo 2^32. */
  function Wrap(x: int): (r: int)
    ensures InRange(r)
    ensures (r - x) % Modulus == 0
    ensures InRange(x) ==> r == x
  {
    (x - Min) % Modulus + Min
  }
}

=== FILE: per_frame_counter.dfy ===
/** PerFrameCounter: named counters accumulated during a frame, logged in
    key order at the frame's end and then cleared
    (Assets/RGCommon/Debug/PerFrameCounter.cs).

    The `SortedDictionary<string, int>` is an association list kept
    strictly sorted by key under ordinal string order. The counters exist
    only in editor builds; elsewhere `Add` compiles to nothing, which is the
    `editor` flag here. */
module PerFrameCounter {
  import opened Wrappers
  import opened Text
  import Int32

  // ---------------------------------------------------------------------
  // Ordinal string order
  // ---------------------------------------------------------------------

  /** `a` sorts strictly before `b`: the first differing character is
      smaller, or `a` is a proper prefix of `b`. */
  predicate Less(a: string, b: string)
  {
    if |a| == 0 then |b| > 0
    else if |b| == 0 then false
    else if a[0] != b[0] then a[0] < b[0]
    else Less(a[1..], b[1..])
  }

  lemma {:induction false} LessIrreflexive(a: string)
    ensures !Less(a, a)
  {
    if |a| > 0 {
      LessIrreflexive(a[1..]);
    }
  }

  lemma {:induction false} LessAsymmetric(a: string, b: string)
    ensures !(Less(a, b) && Less(b, a))
  {
    if |a| > 0 && |b| > 0 && a[0] == b[0] {
      LessAsymmetric(a[1..], b[1..]);
    }
  }

  /** Any two different strings are ordered one way or the other. */
  lemma {:induction false} LessTotal(a: string, b: string)
    requires a != b
    ensures Less(a, b) || Less(b, a)
  {
    if |a| > 0 && |b| > 0 && a[0] == b[0] {
      assert a == [a[0]] + a[1..] && b == [b[0]] + b[1..];
      LessTotal(a[1..], b[1..]);
    }
  }

  lemma {:induction false} LessTransitive(a: string, b: string, c: string)
    requires Less(a, b) && Less(b, c)
    ensures Less(a, c)
  {
    if |a| > 0 && a[0] == b[0] && b[0] == c[0] {
      LessTransitive(a[1..], b[1..], c[1..]);
    }
  }

  /** `a` and `b` agree before position `k` and first differ there, with
      the smaller character in `a`. */
  predicate SmallerAt(a: string, b: string, k: int) {
    0 <= k < |a| && k < |b| && a[..k] == b[..k] && a[k] < b[k]
  }

  /** The key order is the ordinal comparison: `a` is a proper prefix of
      `b`, or at the first position where they differ `a` holds the
      smaller character. */
  lemma {:induction false} LessFirstDifference(a: string, b: string)
    ensures Less(a, b) <==> (|a| < |b| && a == b[..|a|]) || (exists k :: SmallerAt(a, b, k))
    decreases |a|
  {
    if |a| == 0 {
      assert forall k :: !SmallerAt(a, b, k);
    } else if |b| == 0 {
      assert forall k :: !SmallerAt(a, b, k);
    } else if a[0] != b[0] {
      if a[0] < b[0] {
        assert SmallerAt(a, b, 0);
      }
    } else {
      LessFirstDifference(a[1..], b[1..]);
      assert a == [a[0]] + a[1..] && b == [b[0]] + b[1..];
      PrefixAfterHead(a, b);
      forall k | SmallerAt(a[1..], b[1..], k) ensures SmallerAt(a, b, k + 1) {
        assert a[..k + 1] == [a[0]] + a[1..][..k];
        assert b[..k + 1] == [b[0]] + b[1..][..k];
      }
      forall k | SmallerAt(a, b, k) ensures k > 0 && SmallerAt(a[1..], b[1..], k - 1) {
        assert a[1..][..k - 1] == a[..k][1..];
        assert b[1..][..k - 1] == b[..k][1..];
      }
    }
  }

  /** With equal first characters, being a proper prefix is decided by the
      tails. */
  lemma PrefixAfterHead(a: string, b: string)
    requires |a| > 0 && |b| > 0 && a[0] == b[0]
    ensures (|a| < |b| && a == b[..|a|]) <==> (|a[1..]| < |b[1..]| && a[1..] == b[1..][..|a[1..]|])
  {
    if |a| < |b| && a[1..] == b[1..][..|a| - 1] {
      assert a == [a[0]] + a[1..];
      assert b[..|a|] == [b[0]] + b[1..][..|a| - 1];
    }
  }

  // ---------------------------------------------------------------------
  // The sorted dictionary
  // ---------------------------------------------------------------------

  datatype Entry = Entry(key: string, value: int)

  type Counters = seq<Entry>

  /** Keys strictly ascending, hence also unique. */
  predicate Sorted(c: Counters) {
    forall i, j | 0 <= i < j < |c| :: Less(c[i].key, c[j].key)
  }

  function Keys(c: Counters): set<string> {
    if |c| == 0 then {} else {c[0].key} + Keys(c[1..])
  }

  lemma {:induction false} KeysIndex(c: Counters, k: string)
    requires k in Keys(c)
    ensures exists i | 0 <= i < |c| :: c[i].key == k
  {
    if c[0].key != k {
      KeysIndex(c[1..], k);
      var i :| 0 <= i < |c[1..]| && c[1..][i].key == k;
      assert c[i + 1].key == k;
    }
  }

  lemma {:induction false} KeysHas(c: Counters, i: nat)
    requires i < |c|
    ensures c[i].key in Keys(c)
  {
    if i > 0 {
      KeysHas(c[1..], i - 1);
    }
  }

  /** The dictionary the list stands for. */
  function ToMap(c: Counters): (m: map<string, int>)
    ensures m.Keys == Keys(c)
  {
    if |c| == 0 then map[] else ToMap(c[1..])[c[0].key := c[0].value]
  }

  /** In a sorted list, entry `i` is what the dictionary holds for its key. */
  lemma {:induction false} ToMapAt(c: Counters, i: nat)
    requires Sorted(c) && i < |c|
    ensures c[i].key in ToMap(c) && ToMap(c)[c[i].key] == c[i].value
  {
    if i > 0 {
      ToMapAt(c[1..], i - 1);
      LessIrreflexive(c[0].key);
    }
  }

  /** The value added to a counter that already exists: `+=` on an `int`,
      wrapping like unchecked C# arithmetic. */
  function Accumulate(current: int, amount: int): int {
    Int32.Wrap(current + amount)
  }

  /** Every key of `c` sorts after `low`. */
  predicate Above(c: Counters, low: string) {
    forall i | 0 <= i < |c| :: Less(low, c[i].key)
  }

  /** Inserting `name` with `amount`, or adding `amount` to it. */
  function Insert(c: Counters, name: string, amount: int): (r: Counters)
    requires Sorted(c)
    ensures Sorted(r)
    ensures Keys(r) == Keys(c) + {name}
    ensures |r| > 0
    decreases |c|, 1
  {
    if |c| == 0 then [Entry(name, amount)]
    else if c[0].key == name then
      var r := [Entry(name, Accumulate(c[0].value, amount))] + c[1..];
      assert r[1..] == c[1..];
      r
    else if Less(name, c[0].key) then
      var r := [Entry(name, amount)] + c;
      assert r[1..] == c;
      forall j | 0 < j < |r| ensures Less(name, r[j].key) {
        if j > 1 {
          LessTransitive(name, c[0].key, c[j - 1].key);
        }
      }
      r
    else
      LessTotal(name, c[0].key);
      var tail := Insert(c[1..], name, amount);
      var r := [c[0]] + tail;
      assert r[1..] == tail;
      InsertAbove(c[1..], name, amount, c[0].key);
      r
  }

  /** Inserting a key above `low` into keys above `low` keeps them all
      above `low`. */
  lemma {:induction false} InsertAbove(c: Counters, name: string, amount: int, low: string)
    requires Sorted(c) && Above(c, low) && Less(low, name)
    ensures Above(Insert(c, name, amount), low)
    decreases |c|, 2
  {
    var r := Insert(c, name, amount);
    forall i | 0 <= i < |r| ensures Less(low, r[i].key) {
      KeysHas(r, i);
      if r[i].key != name {
        KeysIndex(c, r[i].key);
      }
    }
  }

  /** As a dictionary, `Insert` sets the key to the amount if it was
      absent and adds the amount (wrapping) if it was present; every other
      key keeps its value. */
  lemma {:induction false} InsertToMap(c: Counters, name: string, amount: int)
    requires Sorted(c)
    ensures ToMap(Insert(c, name, amount)) == ToMap(c)[name := Added(ToMap(c), name, amount)]
  {
    var r := Insert(c, name, amount);
    if |c| == 0 {
    } else if c[0].key == name {
      var rest := ToMap(c[1..]);
      assert r[1..] == c[1..];
      calc {
        ToMap(r);
        rest[name := Accumulate(c[0].value, amount)];
        { OverwriteTwice(rest, name, c[0].value, Accumulate(c[0].value, amount)); }
        rest[name := c[0].value][name := Accumulate(c[0].value, amount)];
        ToMap(c)[name := Added(ToMap(c), name, amount)];
      }
    } else if Less(name, c[0].key) {
      assert r[1..] == c;
      LessAbsent(c, name);
    } else {
      var tail := Insert(c[1..], name, amount);
      assert r[1..] == tail;
      InsertToMap(c[1..], name, amount);
      var rest := ToMap(c[1..]);
      var x := Added(rest, name, amount);
      calc {
        ToMap(r);
        ToMap(tail)[c[0].key := c[0].value];
        rest[name := x][c[0].key := c[0].value];
        { UpdatesCommute(rest, name, x, c[0].key, c[0].value); }
        rest[c[0].key := c[0].value][name := x];
        ToMap(c)[name := Added(ToMap(c), name, amount)];
      }
    }
  }

  lemma OverwriteTwice(m: map<string, int>, k: string, v: int, w: int)
    ensures m[k := v][k := w] == m[k := w]
  {
  }

  lemma UpdatesCommute(m: map<string, int>, k1: string, v1: int, k2: string, v2: int)
    requires k1 != k2
    ensures m[k1 := v1][k2 := v2] == m[k2 := v2][k1 := v1]
  {
  }

  /** The value `name` holds after adding `amount` to the dictionary `m`. */
  function Added(m: map<string, int>, name: string, amount: int): int {
    if name in m then Accumulate(m[name], amount) else amount
  }

  /** A key sorting before the first key is not in the list. */
  lemma LessAbsent(c: Counters, name: string)
    requires Sorted(c) && |c| > 0 && Less(name, c[0].key)
    ensures name !in Keys(c)
  {
    if name in Keys(c) {
      KeysIndex(c, name);
      var i :| 0 <= i < |c| && c[i].key == name;
      if i == 0 {
        LessIrreflexive(name);
      } else {
        LessAsymmetric(name, c[0].key);
      }
    }
  }

  // ---------------------------------------------------------------------
  // Add and Update
  // ---------------------------------------------------------------------

  /** The default amount of `Add`. */
  const DefaultAmount: int := 1

  /** `Add(name, amount)`: a no-op outside the editor. */
  function Add(editor: bool, c: Counters, name: string, amount: int := DefaultAmount): (r: Counters)
    requires Sorted(c)
    ensures Sorted(r)
    ensures !editor ==> r == c
    ensures editor ==> Keys(r) == Keys(c) + {name}
  {
    if editor then Insert(c, name, amount) else c
  }

  /** In the editor, `Add` sets an absent counter to the amount, adds the
      amount to a present one, and leaves every other counter alone. */
  lemma AddSemantics(c: Counters, name: string, amount: int)
    requires Sorted(c)
    ensures var m := ToMap(Add(true, c, name, amount));
            && name in m
            && (name !in ToMap(c) ==> m[name] == amount)
            && (name in ToMap(c) ==> m[name] == Accumulate(ToMap(c)[name], amount))
            && (forall k | k in ToMap(c) && k != name :: k in m && m[k] == ToMap(c)[k])
  {
    InsertToMap(c, name, amount);
  }

  /** Counting one name n times in a frame yields n. */
  lemma {:induction false} AddRepeatedly(name: string, n: nat)
    requires 1 <= n <= Int32.Max
    ensures var c := AddTimes(name, n); ToMap(c) == map[name := n]
  {
    if n > 1 {
      AddRepeatedly(name, n - 1);
      InsertToMap(AddTimes(name, n - 1), name, DefaultAmount);
    }
  }

  function AddTimes(name: string, n: nat): (c: Counters)
    ensures Sorted(c)
  {
    if n == 0 then [] else Add(true, AddTimes(name, n - 1), name)
  }

  /** The `key:value` text of one counter. */
  function ItemText(e: Entry): string {
    e.key + ":" + IntToString(e.value)
  }

  /** One `" key:value"` item of the report. */
  function Item(e: Entry): string {
    [' '] + ItemText(e)
  }

  function Items(c: Counters): string {
    if |c| == 0 then "" else Item(c[0]) + Items(c[1..])
  }

  const Heading: string := "Counters:"

  lemma HeadingPlain()
    ensures ' ' !in Heading
  {
    assert forall i | 0 <= i < |Heading| :: Heading[i] != ' ';
  }

  /** `Update`: nothing to report leaves everything as it is; otherwise
      the report lists every counter in key order, and the counters are
      cleared for the next frame. */
  function Update(c: Counters): (r: (Counters, Option<string>))
    ensures |c| == 0 ==> r == (c, None)
    ensures |c| > 0 ==> r.0 == [] && r.1.Some? && StartsWith(r.1.value, Heading)
  {
    if |c| == 0 then (c, None) else ([], Some(Heading + Items(c)))
  }

  // ---------------------------------------------------------------------
  // Reading a report back
  // ---------------------------------------------------------------------

  /** Keys the report can carry unambiguously. */
  predicate PlainKey(k: string) {
    ' ' !in k && ':' !in k
  }

  /** Every counter has a plain key and an int32 value. */
  predicate Reportable(c: Counters) {
    |c| == 0 || (PlainKey(c[0].key) && Int32.InRange(c[0].value) && Reportable(c[1..]))
  }

  function ParseItem(item: string): Option<Entry> {
    var parts := Split(item, ':');
    if |parts| != 2 then None
    else
      var v :- ParseInt32(parts[1]);
      Some(Entry(parts[0], v))
  }

  function ParseItems(items: seq<string>): Option<Counters> {
    if |items| == 0 then Some([])
    else
      var e :- ParseItem(items[0]);
      var rest :- ParseItems(items[1..]);
      Some([e] + rest)
  }

  /** Reads the counters back from a report line. */
  function ParseReport(log: string): Option<Counters> {
    var parts := Split(log, ' ');
    if parts[0] != Heading then None else ParseItems(parts[1..])
  }

  function ItemTexts(c: Counters): seq<string> {
    if |c| == 0 then [] else [ItemText(c[0])] + ItemTexts(c[1..])
  }

  /** The report splits into the heading and one `key:value` per counter. */
  lemma {:induction false} SplitItems(prefix: string, c: Counters)
    requires ' ' !in prefix && Reportable(c)
    ensures Split(prefix + Items(c), ' ') == [prefix] + ItemTexts(c)
    decreases |c|
  {
    SplitNoSeparator(prefix, ' ');
    if |c| > 0 {
      var t := ItemText(c[0]);
      IntToStringAvoids(c[0].value, ' ');
      assert ' ' !in t;
      SplitItems(t, c[1..]);
      Regroup(prefix, [' '], t, Items(c[1..]));
      SplitAppend(prefix, t + Items(c[1..]), ' ');
    } else {
      assert prefix + Items(c) == prefix;
    }
  }

  lemma ParseItemText(e: Entry)
    requires PlainKey(e.key) && Int32.InRange(e.value)
    ensures ParseItem(ItemText(e)) == Some(e)
  {
    var v := IntToString(e.value);
    IntToStringAvoids(e.value, ':');
    SplitNoSeparator(e.key, ':');
    SplitNoSeparator(v, ':');
    SplitAppend(e.key, v, ':');
    assert ItemText(e) == e.key + [':'] + v;
    ParseFormattedInt(e.value);
  }

  lemma {:induction false} ParseItemTexts(c: Counters)
    requires Reportable(c)
    ensures ParseItems(ItemTexts(c)) == Some(c)
  {
    if |c| > 0 {
      var items := ItemTexts(c);
      ParseItemText(c[0]);
      ParseItemTexts(c[1..]);
      assert items[1..] == ItemTexts(c[1..]);
      ParseItemsCons(items, c[0], c[1..]);
      assert c == [c[0]] + c[1..];
    }
  }

  lemma ParseItemsCons(items: seq<string>, e: Entry, rest: Counters)
    requires |items| > 0 && ParseItem(items[0]) == Some(e) && ParseItems(items[1..]) == Some(rest)
    ensures ParseItems(items) == Some([e] + rest)
  {
  }

  /** A line that splits into the heading and some items reads as those
      items. */
  lemma ParseReportOf(log: string, items: seq<string>)
    ensures Split(log, ' ') == [Heading] + items ==> ParseReport(log) == ParseItems(items)
  {
    if Split(log, ' ') == [Heading] + items {
      assert Split(log, ' ')[1..] == items;
    }
  }

  /** The report line carries every counter, key and value, in key order:
      reading it back gives the counters that were logged. */
  lemma ReportRoundTrip(c: Counters)
    requires |c| > 0 && Reportable(c)
    ensures Update(c).1 == Some(Heading + Items(c))
    ensures ParseReport(Update(c).1.value) == Some(c)
  {
    HeadingPlain();
    SplitItems(Heading, c);
    ParseItemTexts(c);
    ParseReportOf(Heading + Items(c), ItemTexts(c));
  }

  /** A key holding a space makes the report ambiguous: the words before
      the space read as an item of their own, which has no value. */
  lemma SpacedKeyNotReadable(a: string, b: string, v: int)
    requires ' ' !in a && ':' !in a
    ensures ParseReport(Update([Entry(a + " " + b, v)]).1.value).None?
  {
    var e := Entry(a + " " + b, v);
    var rest := b + ":" + IntToString(v);
    var log := Heading + Items([e]);
    assert [e][1..] == [];
    assert Items([e]) == [' '] + ItemText(e);
    Regroup5(a, " ", b, ":", IntToString(v));
    assert log == Heading + [' '] + (a + [' '] + rest);
    SplitAppend(Heading, a + [' '] + rest, ' ');
    SplitAppend(a, rest, ' ');
    HeadingPlain();
    SplitNoSeparator(Heading, ' ');
    SplitNoSeparator(a, ' ');
    SplitNoSeparator(a, ':');
    assert Split(log, ' ')[1..] == [a] + Split(rest, ' ');
  }
}

=== FILE: rg_input.dfy ===
/** RGInput: the per-frame controller input layer (Assets/Script/RGInput.cs).

    Each frame the Daydream controller's buttons are sampled, gated by
    "interaction enabled, controller connected and not recentering", and fed
    to one edge detector per logical button, which derives `wasPressed` and
    `wasReleased` from the previous and the current `isDown`.

    The controller SDK and the keyboard are inputs: a `Frame` holds what
    `GvrController` and `Input` report for one frame. The compilation symbols
    `RELEASE_BUILD` and `UNITY_EDITOR` are the two fields of `Build`. The
    keyboard-driven orientation of development builds integrates floats over
    time; its result is an input too (`keyboardOrientation`). */
module RGInput {
  import opened Wrappers

  datatype Button = Click | Touch | App

  /** The enum's `Count` member: the number of logical buttons. */
  const ButtonCount: nat := 3

  /** `(int)b`: the buttons number 0, 1 and 2 in declaration order, so
      each has its own slot below `Count`. */
  function Ordinal(b: Button): (i: nat)
    ensures i < ButtonCount
    ensures i == 0 <==> b == Click
    ensures i == 1 <==> b == Touch
    ensures i == 2 <==> b == App
  {
    match b
    case Click => 0
    case Touch => 1
    case App => 2
  }

  /** `GvrConnectionState`. */
  datatype ConnectionState = Error | Disconnected | Scanning | Connecting | Connected

  datatype Quaternion = Quaternion(x: real, y: real, z: real, w: real)
  datatype Vector2 = Vector2(x: real, y: real)

  const Identity: Quaternion := Quaternion(0.0, 0.0, 0.0, 1.0)
  const Zero2: Vector2 := Vector2(0.0, 0.0)

  // ---------------------------------------------------------------------
  // ButtonState
  // ---------------------------------------------------------------------

  datatype ButtonState = ButtonState(isDown: bool, wasPressed: bool, wasReleased: bool)

  const Cleared: ButtonState := ButtonState(false, false, false)

  /** `ButtonState.Clear()`. */
  function Clear(s: ButtonState): (r: ButtonState)
    ensures !r.isDown && !r.wasPressed && !r.wasReleased
  {
    Cleared
  }

  /** `ButtonState.UpdateState(isDown)`: a press is a rising edge, a release
      a falling edge; at most one of them happens in a frame. */
  function UpdateState(s: ButtonState, down: bool): (r: ButtonState)
    ensures r.isDown == down
    ensures r.wasPressed <==> !s.isDown && down
    ensures r.wasReleased <==> s.isDown && !down
    ensures !(r.wasPressed && r.wasReleased)
  {
    var wasDown := s.isDown;
    ButtonState(down, !wasDown && down, wasDown && !down)
  }

  /** The state after feeding a sequence of samples, one per frame, to a
      freshly created (all false) button. */
  function Run(samples: seq<bool>): ButtonState
  {
    if |samples| == 0 then Cleared else UpdateState(Run(samples[..|samples| - 1]), samples[|samples| - 1])
  }

  /** Edge detection over a whole history: after frame t (t >= 1) the
      button is down iff sample t is, it was pressed iff sample t is true
      and the previous sample (or the initial state, before the first
      frame) is false, and released iff the reverse. The two flags only
      ever describe the last frame: they are recomputed, not latched. */
  lemma {:induction false} RunEdges(samples: seq<bool>)
    requires |samples| >= 1
    ensures var n := |samples|;
            var prev := if n == 1 then false else samples[n - 2];
            && Run(samples).isDown == samples[n - 1]
            && (Run(samples).wasPressed <==> !prev && samples[n - 1])
            && (Run(samples).wasReleased <==> prev && !samples[n - 1])
  {
    var n := |samples|;
    if n > 1 {
      var earlier := samples[..n - 1];
      assert earlier[..|earlier| - 1] == samples[..n - 2];
      assert Run(earlier) == UpdateState(Run(samples[..n - 2]), samples[n - 2]);
    } else {
      assert samples[..0] == [];
    }
  }

  /** The click scenario false, true, true, false: pressed only in frame 2,
      released only in frame 4. */
  lemma ClickScenario()
    ensures var s := [false, true, true, false];
            && !Run(s[..1]).wasPressed && Run(s[..2]).wasPressed
            && !Run(s[..3]).wasPressed && !Run(s[..4]).wasPressed
            && !Run(s[..1]).wasReleased && !Run(s[..2]).wasReleased
            && !Run(s[..3]).wasReleased && Run(s[..4]).wasReleased
  {
    var s := [false, true, true, false];
    RunEdges(s[..1]);
    RunEdges(s[..2]);
    RunEdges(s[..3]);
    RunEdges(s[..4]);
  }

  // ---------------------------------------------------------------------
  // The input component
  // ---------------------------------------------------------------------

  /** Which compilation symbols are defined. */
  datatype Build = Build(release: bool, editor: bool)

  /** What the controller SDK and the keyboard report in one frame. */
  datatype Frame = Frame(
    controllerState: ConnectionState,
    recentering: bool,
    clickButton: bool,
    isTouching: bool,
    appButton: bool,
    touchPos: Vector2,
    orientation: Quaternion,
    keyboardOrientation: Quaternion,
    f11Down: bool,
    f9Down: bool,
    escapeUp: bool,
    space: bool,
    rightControl: bool,
    leftControl: bool,
    backspace: bool)

  datatype Input = Input(
    buttonsEnabled: bool,
    buttons: seq<ButtonState>,
    orientation: Quaternion,
    touchPos: Vector2,
    touchAsClick: bool,
    forcedStatus: Option<ConnectionState>)

  /** The state array always has one entry per logical button. */
  predicate Valid(s: Input) {
    |s.buttons| == ButtonCount
  }

  /** The component as the engine creates it. */
  function Initial(): (s: Input)
    ensures Valid(s) && s.buttonsEnabled && s.forcedStatus.None? && !s.touchAsClick
    ensures forall i | 0 <= i < |s.buttons| :: s.buttons[i] == Cleared
  {
    Input(true, [Cleared, Cleared, Cleared], Identity, Zero2, false, None)
  }

  /** `GetStatus()`: the forced status of a development build wins over
      the controller's own state. */
  function GetStatus(build: Build, s: Input, controllerState: ConnectionState): (r: ConnectionState)
    ensures !build.release && s.forcedStatus.Some? ==> r == s.forcedStatus.value
    ensures build.release || s.forcedStatus.None? ==> r == controllerState
  {
    if !build.release && s.forcedStatus.Some? then s.forcedStatus.value else controllerState
  }

  /** The F11 toggle: off when it forced "connected", "connected" otherwise. */
  function ToggleForcedStatus(forced: Option<ConnectionState>): (r: Option<ConnectionState>)
    ensures forced == Some(Connected) ==> r.None?
    ensures forced != Some(Connected) ==> r == Some(Connected)
  {
    if forced == Some(Connected) then None else Some(Connected)
  }

  /** Toggling twice from "not forced" or "forced connected" comes back. */
  lemma ToggleForcedStatusTwice(forced: Option<ConnectionState>)
    requires forced.None? || forced == Some(Connected)
    ensures ToggleForcedStatus(ToggleForcedStatus(forced)) == forced
  {
  }

  /** The raw per-button samples of one frame, before gating. */
  function RawClick(build: Build, touchAsClick: bool, f: Frame): bool {
    (!build.release && touchAsClick && f.isTouching) || f.clickButton || f.space
  }

  function RawTouch(build: Build, f: Frame): bool {
    (!build.release && (f.rightControl || f.leftControl)) || (build.editor && f.space) || f.isTouching
  }

  function RawApp(f: Frame): bool {
    f.backspace || f.appButton
  }

  /** The outcome of one `Update`: the new state, whether the application
      was asked to quit, and the debug line logged, if any. */
  datatype Step = Step(state: Input, quit: bool, log: Option<string>)

  /** The debug keys of a development build, handled first in a frame:
      F11 toggles the forced status, F9 toggles touch-as-click and logs
      the new setting. */
  function DebugKeys(build: Build, s: Input, f: Frame): (r: (Input, Option<string>))
    ensures r.0.buttons == s.buttons && r.0.buttonsEnabled == s.buttonsEnabled
    ensures r.0.orientation == s.orientation && r.0.touchPos == s.touchPos
    ensures r.0.forcedStatus == (if !build.release && f.f11Down then ToggleForcedStatus(s.forcedStatus) else s.forcedStatus)
    ensures r.0.touchAsClick == (if !build.release && f.f9Down then !s.touchAsClick else s.touchAsClick)
    ensures r.1.Some? <==> !build.release && f.f9Down
    ensures r.1.Some? ==> r.1.value == "Simulating touch with click " + (if r.0.touchAsClick then "on" else "off")
  {
    var forced := if !build.release && f.f11Down then ToggleForcedStatus(s.forcedStatus) else s.forcedStatus;
    var touchAsClick := if !build.release && f.f9Down then !s.touchAsClick else s.touchAsClick;
    var log := if !build.release && f.f9Down then
                 Some("Simulating touch with click " + (if touchAsClick then "on" else "off"))
               else None;
    (s.(forcedStatus := forced, touchAsClick := touchAsClick), log)
  }

  /** One `UpdateState` per logical button, in enum order. */
  function UpdateButtons(buttons: seq<ButtonState>, click: bool, touch: bool, app: bool): (r: seq<ButtonState>)
    requires |buttons| == ButtonCount
    ensures |r| == ButtonCount
    ensures forall i | 0 <= i < ButtonCount :: r[i] == UpdateState(buttons[i], r[i].isDown)
    ensures r[Ordinal(Click)].isDown == click && r[Ordinal(Touch)].isDown == touch && r[Ordinal(App)].isDown == app
  {
    [UpdateState(buttons[0], click), UpdateState(buttons[1], touch), UpdateState(buttons[2], app)]
  }

  /** `Update()`, one frame. */
  function Update(build: Build, s: Input, f: Frame): (r: Step)
    requires Valid(s)
    ensures Valid(r.state)
    ensures r.state.buttonsEnabled == s.buttonsEnabled
    ensures r.quit == f.escapeUp
    ensures r.state.forcedStatus == DebugKeys(build, s, f).0.forcedStatus
    ensures r.state.touchAsClick == DebugKeys(build, s, f).0.touchAsClick
    ensures forall i | 0 <= i < ButtonCount :: r.state.buttons[i] == UpdateState(s.buttons[i], r.state.buttons[i].isDown)
    ensures r.log == DebugKeys(build, s, f).1
    ensures InputAvailable(build, s, f) ==>
              var u := UpdateControllerStates(build, DebugKeys(build, s, f).0, f);
              r.state.orientation == u.orientation && r.state.touchPos == u.touchPos
  {
    var (s1, log) := DebugKeys(build, s, f);
    var inputAvailable := GetStatus(build, s1, f.controllerState) == Connected && !f.recentering;
    var s2 := if inputAvailable then UpdateControllerStates(build, s1, f) else s1;
    var buttonsAvailable := s.buttonsEnabled && inputAvailable;
    var click := buttonsAvailable && RawClick(build, s1.touchAsClick, f);
    var touch := buttonsAvailable && RawTouch(build, f);
    var app := buttonsAvailable && RawApp(f);
    Step(s2.(buttons := UpdateButtons(s.buttons, click, touch, app)), f.escapeUp, log)
  }

  /** The debug toggles of a frame: F11 flips the forced status and F9
      flips touch-as-click, in development builds only; a release build
      never changes either. */
  lemma UpdateTogglesDebugState(build: Build, s: Input, f: Frame)
    requires Valid(s)
    ensures var r := Update(build, s, f).state;
            && (build.release ==> r.forcedStatus == s.forcedStatus && r.touchAsClick == s.touchAsClick)
            && (!build.release && f.f11Down ==> r.forcedStatus == ToggleForcedStatus(s.forcedStatus))
            && (!f.f11Down ==> r.forcedStatus == s.forcedStatus)
            && (!build.release && f.f9Down ==> r.touchAsClick == !s.touchAsClick)
            && (!f.f9Down ==> r.touchAsClick == s.touchAsClick)
  {
  }

  /** `UpdateControllerStates()`: the controller's own touch position and
      orientation when it is really connected; otherwise, in development
      builds, the keyboard-driven orientation. */
  function UpdateControllerStates(build: Build, s: Input, f: Frame): (r: Input)
    ensures r.buttons == s.buttons && r.buttonsEnabled == s.buttonsEnabled
    ensures r.forcedStatus == s.forcedStatus && r.touchAsClick == s.touchAsClick
    ensures f.controllerState == Connected ==> r.orientation == f.orientation && r.touchPos == f.touchPos
    ensures f.controllerState != Connected ==> r.touchPos == s.touchPos
    ensures f.controllerState != Connected ==>
              r.orientation == (if build.release then s.orientation else f.keyboardOrientation)
  {
    if f.controllerState == Connected then s.(touchPos := f.touchPos, orientation := f.orientation)
    else if !build.release then s.(orientation := f.keyboardOrientation)
    else s
  }

  /** Whether input is available in the frame, after the F11 toggle. */
  predicate InputAvailable(build: Build, s: Input, f: Frame) {
    GetStatus(build, DebugKeys(build, s, f).0, f.controllerState) == Connected && !f.recentering
  }

  /** Gating: when interaction is disabled, the (possibly forced) status is
      not Connected, or the controller is recentering, every button is fed
      `false`: nothing is down or pressed, and a button that was held
      reports a release in that very frame. */
  lemma GatedFrameReleases(build: Build, s: Input, f: Frame)
    requires Valid(s)
    requires !s.buttonsEnabled || !InputAvailable(build, s, f)
    ensures var r := Update(build, s, f).state;
            forall i | 0 <= i < ButtonCount ::
              && !r.buttons[i].isDown && !r.buttons[i].wasPressed
              && (r.buttons[i].wasReleased <==> s.buttons[i].isDown)
  {
  }

  /** With input available and interaction enabled, each button follows
      its raw sample. */
  lemma OpenFrameFollowsSamples(build: Build, s: Input, f: Frame)
    requires Valid(s) && s.buttonsEnabled && InputAvailable(build, s, f)
    ensures var r := Update(build, s, f).state;
            && r.buttons[Ordinal(Click)].isDown == RawClick(build, r.touchAsClick, f)
            && r.buttons[Ordinal(Touch)].isDown == RawTouch(build, f)
            && r.buttons[Ordinal(App)].isDown == RawApp(f)
  {
  }

  /** Orientation and touch position change only when input is available. */
  lemma PoseFrozenWithoutInput(build: Build, s: Input, f: Frame)
    requires Valid(s)
    requires !InputAvailable(build, s, f)
    ensures Update(build, s, f).state.orientation == s.orientation
    ensures Update(build, s, f).state.touchPos == s.touchPos
  {
  }

  /** A development build whose status is forced to Connected while the
      controller is disconnected takes input: the keyboard drives the
      orientation, the touch position stays, and the buttons are sampled. */
  lemma ForcedStatusUsesKeyboard(build: Build, s: Input, f: Frame)
    requires Valid(s) && !build.release
    requires s.forcedStatus == Some(Connected) && !f.f11Down
    requires f.controllerState != Connected && !f.recentering
    ensures var r := Update(build, s, f).state;
            && r.orientation == f.keyboardOrientation && r.touchPos == s.touchPos
            && r.buttons[Ordinal(App)].isDown == (s.buttonsEnabled && RawApp(f))
  {
  }

  /** `ButtonIsDown`, `ButtonWasPressed`, `ButtonWasReleased`: reads of the
      button's slot. */
  function GetButtonState(s: Input, b: Button): (r: ButtonState)
    requires Valid(s)
    ensures r == s.buttons[Ordinal(b)]
  {
    s.buttons[Ordinal(b)]
  }

  /** `DisableInteraction()`: only `buttonsEnabled` changes. */
  function DisableInteraction(s: Input): (r: Input)
    ensures !r.buttonsEnabled
    ensures r.(buttonsEnabled := s.buttonsEnabled) == s
  {
    s.(buttonsEnabled := false)
  }

  /** `EnableInteraction()`: only `buttonsEnabled` changes. */
  function EnableInteraction(s: Input): (r: Input)
    ensures r.buttonsEnabled
    ensures r.(buttonsEnabled := s.buttonsEnabled) == s
  {
    s.(buttonsEnabled := true)
  }

  /** A disabled component reports a release for every held button in the
      next frame, and no button as down while it stays disabled. */
  lemma DisableReleasesHeldButtons(build: Build, s: Input, f: Frame)
    requires Valid(s)
    ensures var r := Update(build, DisableInteraction(s), f).state;
            forall i | 0 <= i < ButtonCount ::
              !r.buttons[i].isDown && (r.buttons[i].wasReleased <==> s.buttons[i].isDown)
  {
    GatedFrameReleases(build, DisableInteraction(s), f);
  }
}

=== FILE: single_instance.dfy ===
/** SingleInstanceBehavior: a base class that publishes the one component
    of a type as `Instance` between its `Awake` and `OnDestroy`
    (Assets/RGCommon/Infrastructure/SingleInstanceBehavior.cs).

    Unity's `Assert` only reports a failure and carries on (its default),
    so a failed assertion is an output of the operation, not a stop. The
    assertions are compiled only when `UNITY_ASSERTIONS` is defined; that
    is the parameter `assertions`. */
module SingleInstance {
  import opened Wrappers

  type ObjectId = nat

  /** The static `instance` field of one `SingleInstanceBehavior<T>`. */
  datatype Registry = Registry(instance: Option<ObjectId>)

  /** The assertion failures the class reports. */
  datatype AssertionFailure =
    | DuplicateInstance(registered: ObjectId, newcomer: ObjectId)
    | NoInstance

  /** `Awake`: the component registers itself; if another one was
      registered already, that is reported (when assertions are compiled
      in) and the newcomer still replaces it. */
  function Awake(assertions: bool, reg: Registry, self: ObjectId): (r: (Registry, Option<AssertionFailure>))
    ensures r.0.instance == Some(self)
    ensures r.1.Some? <==> assertions && reg.instance.Some?
    ensures r.1.Some? ==> r.1 == Some(DuplicateInstance(reg.instance.value, self))
  {
    var failure := if assertions && reg.instance.Some? then Some(DuplicateInstance(reg.instance.value, self)) else None;
    (Registry(Some(self)), failure)
  }

  /** `OnDestroy`: clears the registration, whoever is destroyed. */
  function OnDestroy(reg: Registry, self: ObjectId): (r: Registry)
    ensures r.instance.None?
  {
    Registry(None)
  }

  /** Reading `Instance`: the registered component, or null, reported as
      an assertion failure when assertions are compiled in. Reading never
      changes the registration, so it is not a step of the life cycle. */
  function Instance(assertions: bool, reg: Registry): (r: (Option<ObjectId>, Option<AssertionFailure>))
    ensures r.0 == reg.instance
    ensures r.1.Some? <==> assertions && reg.instance.None?
    ensures r.1.Some? ==> r.1.value == NoInstance
  {
    if reg.instance.None? && assertions then (None, Some(NoInstance)) else (reg.instance, None)
  }

  /** The events of components' lives that write the registry. */
  datatype Event = AwakeOf(who: ObjectId) | DestroyOf(who: ObjectId)

  function Step(assertions: bool, reg: Registry, e: Event): Registry {
    match e
    case AwakeOf(who) => Awake(assertions, reg, who).0
    case DestroyOf(who) => OnDestroy(reg, who)
  }

  function Run(assertions: bool, reg: Registry, events: seq<Event>): Registry
    decreases |events|
  {
    if |events| == 0 then reg else Run(assertions, Step(assertions, reg, events[0]), events[1..])
  }

  /** Neither method looks at who is registered before writing: after any
      non-empty history the registration is decided by the last event
      alone. */
  lemma {:induction false} LastEventDecides(assertions: bool, reg: Registry, events: seq<Event>)
    requires |events| > 0
    ensures Run(assertions, reg, events).instance
         == (match events[|events| - 1]
             case AwakeOf(who) => Some(who)
             case DestroyOf(_) => None)
    decreases |events|
  {
    if |events| > 1 {
      LastEventDecides(assertions, Step(assertions, reg, events[0]), events[1..]);
      assert events[1..][|events| - 2] == events[|events| - 1];
    }
  }

  /** Whatever happened before, a component whose `Awake` came last is the
      `Instance`, and reading it reports nothing. */
  lemma InstanceAfterAwake(assertions: bool, reg: Registry, events: seq<Event>, self: ObjectId)
    requires |events| > 0 && events[|events| - 1] == AwakeOf(self)
    ensures Instance(assertions, Run(assertions, reg, events)) == (Some(self), None)
  {
    LastEventDecides(assertions, reg, events);
  }

  /** The destroy is not guarded: with two components awake, destroying
      the older one leaves the type without an instance although the
      newer one is still alive. */
  lemma UnguardedDestroy(a: ObjectId, b: ObjectId)
    requires a != b
    ensures var reg := Run(true, Registry(None), [AwakeOf(a), AwakeOf(b), DestroyOf(a)]);
            Instance(true, reg) == (None, Some(NoInstance))
  {
    LastEventDecides(true, Registry(None), [AwakeOf(a), AwakeOf(b), DestroyOf(a)]);
  }
}

=== FILE: text.dfy ===
/** The handful of .NET string operations the modelled code relies on, over
    `string` = `seq<char>` with ordinal (code-unit) comparison:
    `String.Split(char)`, `String.Join`, `String.Trim(char)`,
    `String.Replace(string, string)`, `Int32.ToString()` and
    `Int32.TryParse` with the default integer number style. */
module Text {
  import opened Wrappers
  import Int32

  // ---------------------------------------------------------------------
  // Prefixes and suffixes (ordinal)
  // ---------------------------------------------------------------------

  predicate StartsWith(s: string, prefix: string) {
    |prefix| <= |s| && s[..|prefix|] == prefix
  }

  predicate EndsWith(s: string, suffix: string) {
    |suffix| <= |s| && s[|s| - |suffix|..] == suffix
  }

  // ---------------------------------------------------------------------
  // Split and Join on one separator character
  // ---------------------------------------------------------------------

  /** `String.Join(sep, parts)`: the parts with one separator between each
      neighbouring pair; the empty array joins to "". */
  function Join(parts: seq<string>, sep: char): string
  {
    if |parts| == 0 then ""
    else if |parts| == 1 then parts[0]
    else parts[0] + [sep] + Join(parts[1..], sep)
  }

  /** Regrouping a concatenation, stated over variables so that callers
      need not unfold the strings involved. */
  lemma Regroup(a: string, b: string, c: string, d: string)
    ensures a + (b + c + d) == a + b + (c + d)
  {
  }

  lemma Regroup5(a: string, b: string, c: string, d: string, e: string)
    ensures a + b + c + d + e == a + b + (c + d + e)
  {
  }

  /** `s.Split(sep)`: the maximal separator-free pieces of `s`, in order,
      empty pieces included, so a string holding k separators gives k + 1
      pieces and "" gives [""]. Joining the pieces back gives `s`. */
  function Split(s: string, sep: char): (parts: seq<string>)
    ensures |parts| >= 1
    ensures forall i | 0 <= i < |parts| :: sep !in parts[i]
    ensures Join(parts, sep) == s
  {
    if |s| == 0 then [""]
    else
      var rest := Split(s[1..], sep);
      if s[0] == sep then
        assert Join([""] + rest, sep) == [sep] + Join(rest, sep) by {
          assert ([""] + rest)[1..] == rest;
        }
        assert s == [s[0]] + s[1..];
        [""] + rest
      else
        var parts := [[s[0]] + rest[0]] + rest[1..];
        assert Join(parts, sep) == s by {
          if |rest| > 1 {
            assert parts[1..] == rest[1..];
            assert Join(rest, sep) == rest[0] + [sep] + Join(rest[1..], sep);
          }
          assert s == [s[0]] + s[1..];
        }
        parts
  }

  /** A string without the separator splits into itself alone. */
  lemma SplitNoSeparator(s: string, sep: char)
    requires sep !in s
    ensures Split(s, sep) == [s]
  {
  }

  /** A string holding the separator splits into at least two pieces. */
  lemma SplitWithSeparator(s: string, sep: char)
    requires sep in s
    ensures |Split(s, sep)| >= 2
  {
  }

  /** Splitting distributes over a separator: the pieces of `a + sep + b`
      are the pieces of `a` followed by the pieces of `b`. */
  lemma {:induction false} SplitAppend(a: string, b: string, sep: char)
    ensures Split(a + [sep] + b, sep) == Split(a, sep) + Split(b, sep)
    decreases |a|
  {
    var s := a + [sep] + b;
    if |a| == 0 {
      assert s == [sep] + b;
      assert s[1..] == b;
    } else {
      assert s[1..] == a[1..] + [sep] + b;
      SplitAppend(a[1..], b, sep);
    }
  }

  /** Appending a non-separator character extends the last piece. */
  lemma {:induction false} SplitSnoc(s: string, ch: char, sep: char)
    requires ch != sep
    ensures var p := Split(s, sep);
            Split(s + [ch], sep) == p[..|p| - 1] + [p[|p| - 1] + [ch]]
    decreases |s|
  {
    if |s| == 0 {
      assert s + [ch] == [ch];
      assert ([ch])[1..] == [];
    } else {
      var t := s + [ch];
      assert t[0] == s[0] && t[1..] == s[1..] + [ch];
      SplitSnoc(s[1..], ch, sep);
      var q := Split(s[1..], sep);
      if s[0] == sep {
        ExtendLastPrepended(q, ch);
      } else {
        ExtendLastMerged([s[0]], q, ch);
      }
    }
  }

  /** The last piece of `q`, extended by `ch`. */
  function ExtendLast(q: seq<string>, ch: char): (r: seq<string>)
    requires |q| >= 1
    ensures |r| == |q| && r[..|q| - 1] == q[..|q| - 1] && r[|q| - 1] == q[|q| - 1] + [ch]
  {
    q[..|q| - 1] + [q[|q| - 1] + [ch]]
  }

  /** Extending the last piece commutes with putting an empty piece in front. */
  lemma ExtendLastPrepended(q: seq<string>, ch: char)
    requires |q| >= 1
    ensures [""] + ExtendLast(q, ch) == ExtendLast([""] + q, ch)
  {
    assert ([""] + q)[..|q|] == [""] + q[..|q| - 1];
  }

  /** Extending the last piece commutes with merging `x` into the first one. */
  lemma ExtendLastMerged(x: string, q: seq<string>, ch: char)
    requires |q| >= 1
    ensures var e := ExtendLast(q, ch);
            [x + e[0]] + e[1..] == ExtendLast([x + q[0]] + q[1..], ch)
  {
    var n := |q| - 1;
    var p := [x + q[0]] + q[1..];
    var e := ExtendLast(q, ch);
    if n > 0 {
      assert p[..n] == [x + q[0]] + q[1..n];
      assert e[1..] == q[1..n] + [q[n] + [ch]];
    } else {
      assert x + (q[0] + [ch]) == x + q[0] + [ch];
      assert e[0] == q[0] + [ch] && e[1..] == [];
      assert p == [x + q[0]];
    }
  }

  /** The inverse direction of Split's own round trip: separator-free parts
      joined by the separator split back into exactly those parts. */
  lemma {:induction false} JoinSplit(parts: seq<string>, sep: char)
    requires |parts| >= 1
    requires forall i | 0 <= i < |parts| :: sep !in parts[i]
    ensures Split(Join(parts, sep), sep) == parts
    decreases |parts|
  {
    if |parts| == 1 {
      SplitNoSeparator(parts[0], sep);
    } else {
      JoinSplit(parts[1..], sep);
      SplitAppend(parts[0], Join(parts[1..], sep), sep);
      SplitNoSeparator(parts[0], sep);
      assert parts == [parts[0]] + parts[1..];
    }
  }

  /** A character absent from every part and different from the separator
      is absent from the joined string. */
  lemma {:induction false} JoinAbsent(parts: seq<string>, sep: char, ch: char)
    requires ch != sep
    requires forall i | 0 <= i < |parts| :: ch !in parts[i]
    ensures ch !in Join(parts, sep)
    decreases |parts|
  {
    if |parts| > 1 {
      JoinAbsent(parts[1..], sep, ch);
    }
  }

  /** A character absent from a string is absent from all of its pieces. */
  lemma SplitAbsent(s: string, sep: char, ch: char)
    requires ch !in s
    ensures forall i | 0 <= i < |Split(s, sep)| :: ch !in Split(s, sep)[i]
  {
    var parts := Split(s, sep);
    forall i | 0 <= i < |parts|
      ensures ch !in parts[i]
    {
      JoinContains(parts, sep, i);
    }
  }

  /** Every part occurs, as a contiguous slice, in the joined string. */
  lemma {:induction false} JoinContains(parts: seq<string>, sep: char, i: nat)
    requires i < |parts|
    ensures forall c | c in parts[i] :: c in Join(parts, sep)
    decreases |parts|
  {
    if i > 0 {
      JoinContains(parts[1..], sep, i - 1);
    }
  }

  // ---------------------------------------------------------------------
  // Trim(char)
  // ---------------------------------------------------------------------

  /** Removes every leading `c`. */
  function TrimStart(s: string, c: char): (r: string)
    ensures |r| <= |s| && r == s[|s| - |r|..]
    ensures forall k | 0 <= k < |s| - |r| :: s[k] == c
    ensures |r| > 0 ==> r[0] != c
  {
    if |s| > 0 && s[0] == c then TrimStart(s[1..], c) else s
  }

  /** Removes every trailing `c`. */
  function TrimEnd(s: string, c: char): (r: string)
    ensures |r| <= |s| && r == s[..|r|]
    ensures forall k | |r| <= k < |s| :: s[k] == c
    ensures |r| > 0 ==> r[|r| - 1] != c
  {
    if |s| > 0 && s[|s| - 1] == c then TrimEnd(s[..|s| - 1], c) else s
  }

  /** `s.Trim(c)`: removes `c` from both ends. What is removed, in front
      and behind, is copies of `c` only. */
  function Trim(s: string, c: char): (r: string)
    ensures |r| > 0 ==> r[0] != c && r[|r| - 1] != c
    ensures var i := |s| - |TrimStart(s, c)|;
            && i + |r| <= |s| && r == s[i..i + |r|]
            && (forall k | 0 <= k < i :: s[k] == c)
            && (forall k | i + |r| <= k < |s| :: s[k] == c)
  {
    TrimEnd(TrimStart(s, c), c)
  }

  /** Trimming a character the string does not hold changes nothing. */
  lemma TrimAbsent(s: string, c: char)
    requires c !in s
    ensures Trim(s, c) == s
  {
  }

  // ---------------------------------------------------------------------
  // Replace(string, string)
  // ---------------------------------------------------------------------

  /** `pat` occurs in `s` starting at index `i`. */
  predicate OccursAt(s: string, pat: string, i: int) {
    0 <= i && i + |pat| <= |s| && s[i..i + |pat|] == pat
  }

  /** `s.Replace(pat, rep)`: scanning left to right, every non-overlapping
      occurrence of `pat` is replaced by `rep`; text produced by a
      replacement is not scanned again. `pat` is never empty (.NET throws
      on an empty pattern; every call in the model passes a literal). */
  function ReplaceAll(s: string, pat: string, rep: string): string
    requires |pat| > 0
    decreases |s|
  {
    if |s| < |pat| then s
    else if s[..|pat|] == pat then rep + ReplaceAll(s[|pat|..], pat, rep)
    else [s[0]] + ReplaceAll(s[1..], pat, rep)
  }

  /** Without an occurrence of the pattern the text is returned unchanged. */
  lemma {:induction false} ReplaceAllNoOccurrence(s: string, pat: string, rep: string)
    requires |pat| > 0
    requires forall i :: !OccursAt(s, pat, i)
    ensures ReplaceAll(s, pat, rep) == s
    decreases |s|
  {
    if |s| >= |pat| {
      assert !OccursAt(s, pat, 0);
      forall i
        ensures !OccursAt(s[1..], pat, i)
      {
        if OccursAt(s[1..], pat, i) {
          assert s[1..][i..i + |pat|] == s[i + 1..i + 1 + |pat|];
          assert OccursAt(s, pat, i + 1);
        }
      }
      ReplaceAllNoOccurrence(s[1..], pat, rep);
      assert s == [s[0]] + s[1..];
    }
  }

  /** Replacing a pattern by itself is the identity. */
  lemma {:induction false} ReplaceAllSelf(s: string, pat: string)
    requires |pat| > 0
    ensures ReplaceAll(s, pat, pat) == s
    decreases |s|
  {
    if |s| >= |pat| {
      if s[..|pat|] == pat {
        ReplaceAllSelf(s[|pat|..], pat);
        assert s == s[..|pat|] + s[|pat|..];
      } else {
        ReplaceAllSelf(s[1..], pat);
        assert s == [s[0]] + s[1..];
      }
    }
  }

  /** A prefix free of the pattern's first character passes through
      untouched and does not influence the rest. */
  lemma {:induction false} ReplaceAllSkipPrefix(a: string, b: string, pat: string, rep: string)
    requires |pat| > 0 && pat[0] !in a
    ensures ReplaceAll(a + b, pat, rep) == a + ReplaceAll(b, pat, rep)
    decreases |a|
  {
    if |a| > 0 {
      var s := a + b;
      assert s[0] == a[0];
      assert s[1..] == a[1..] + b;
      ReplaceAllSkipPrefix(a[1..], b, pat, rep);
      if |s| < |pat| {
        assert ReplaceAll(s, pat, rep) == s;
        assert ReplaceAll(b, pat, rep) == b;
      } else {
        assert s[..|pat|] != pat by {
          assert s[..|pat|][0] == a[0];
        }
        calc {
          ReplaceAll(s, pat, rep);
          [s[0]] + ReplaceAll(s[1..], pat, rep);
          [a[0]] + (a[1..] + ReplaceAll(b, pat, rep));
          { assert a == [a[0]] + a[1..]; }
          a + ReplaceAll(b, pat, rep);
        }
      }
      assert ReplaceAll(a + b, pat, rep) == ReplaceAll(s, pat, rep);
    } else {
      assert a + b == b;
    }
  }

  /** A placeholder written with doubled brackets, `[` + pat + `]`, keeps
      one pair of brackets around the substituted value, provided the
      placeholder `pat` itself starts with `[` and its second character is
      not `[`. */
  lemma BracketedPlaceholder(a: string, b: string, pat: string, rep: string)
    requires |pat| >= 2 && pat[0] == '[' && pat[1] != '['
    requires '[' !in a
    ensures ReplaceAll(a + "[" + pat + "]" + b, pat, rep)
         == a + "[" + rep + "]" + ReplaceAll(b, pat, rep)
  {
    var rest := "]" + b;
    var tail := "[" + (pat + rest);
    Regroup(a, "[", pat, "]" + b);
    assert a + "[" + pat + "]" + b == a + tail;
    ReplaceAllSkipPrefix(a, tail, pat, rep);
    assert tail[..|pat|][1] == pat[0] != pat[1];
    assert tail[1..] == pat + rest;
    assert (pat + rest)[..|pat|] == pat;
    assert (pat + rest)[|pat|..] == rest;
    ReplaceAllSkipPrefix("]", b, pat, rep);
    Regroup(a, "[", rep, "]" + ReplaceAll(b, pat, rep));
  }

  /** A placeholder such as `[tag]`: a bracket, a word holding neither
      bracket, and a closing bracket. */
  predicate IsPlaceholder(pat: string) {
    && |pat| >= 3 && pat[0] == '[' && pat[|pat| - 1] == ']'
    && forall k | 1 <= k < |pat| - 1 :: pat[k] != '[' && pat[k] != ']'
  }

  /** Text without the pattern's first character is left alone. */
  lemma ReplaceAllFree(s: string, pat: string, rep: string)
    requires |pat| > 0 && pat[0] !in s
    ensures ReplaceAll(s, pat, rep) == s
  {
    ReplaceAllSkipPrefix(s, "", pat, rep);
    assert s + "" == s;
  }

  /** The step of `ReplaceAllConcat` at an occurrence at the front. */
  lemma ConcatAfterMatch(x: string, y: string, pat: string, rep: string)
    requires 0 < |pat| <= |x| && x[..|pat|] == pat
    requires ReplaceAll(x[|pat|..] + y, pat, rep) == ReplaceAll(x[|pat|..], pat, rep) + ReplaceAll(y, pat, rep)
    ensures ReplaceAll(x + y, pat, rep) == ReplaceAll(x, pat, rep) + ReplaceAll(y, pat, rep)
  {
    var s := x + y;
    assert s[..|pat|] == pat;
    assert s[|pat|..] == x[|pat|..] + y;
    ReplaceAllMatch(s, pat, rep);
    ReplaceAllMatch(x, pat, rep);
    var rx, ry := ReplaceAll(x[|pat|..], pat, rep), ReplaceAll(y, pat, rep);
    assert rep + (rx + ry) == rep + rx + ry;
  }

  /** The step of `ReplaceAllConcat` past a first character that starts no
      occurrence. */
  lemma ConcatAfterMiss(x: string, y: string, pat: string, rep: string)
    requires 0 < |pat| <= |x + y| && 0 < |x| && (x + y)[..|pat|] != pat
    requires |x| >= |pat| ==> x[..|pat|] != pat
    requires ReplaceAll(x[1..] + y, pat, rep) == ReplaceAll(x[1..], pat, rep) + ReplaceAll(y, pat, rep)
    ensures ReplaceAll(x + y, pat, rep) == ReplaceAll(x, pat, rep) + ReplaceAll(y, pat, rep)
  {
    var s := x + y;
    assert s[1..] == x[1..] + y;
    ReplaceAllMiss(s, pat, rep);
    var rx, ry := ReplaceAll(x[1..], pat, rep), ReplaceAll(y, pat, rep);
    assert [x[0]] + (rx + ry) == [x[0]] + rx + ry;
    if |x| >= |pat| {
      ReplaceAllMiss(x, pat, rep);
    } else {
      assert rx == x[1..];
      assert x == [x[0]] + x[1..];
    }
  }

  lemma ReplaceAllMatch(s: string, pat: string, rep: string)
    requires 0 < |pat| <= |s| && s[..|pat|] == pat
    ensures ReplaceAll(s, pat, rep) == rep + ReplaceAll(s[|pat|..], pat, rep)
  {
  }

  lemma ReplaceAllMiss(s: string, pat: string, rep: string)
    requires 0 < |pat| <= |s| && s[..|pat|] != pat
    ensures ReplaceAll(s, pat, rep) == [s[0]] + ReplaceAll(s[1..], pat, rep)
  {
  }

  /** Replacing a placeholder distributes over a concatenation whose first
      part either holds no `[` or ends in `]`: no occurrence can straddle
      the seam. */
  lemma {:induction false} ReplaceAllConcat(x: string, y: string, pat: string, rep: string)
    requires IsPlaceholder(pat)
    requires '[' !in x || (|x| > 0 && x[|x| - 1] == ']')
    ensures ReplaceAll(x + y, pat, rep) == ReplaceAll(x, pat, rep) + ReplaceAll(y, pat, rep)
    decreases |x|
  {
    var s := x + y;
    if |x| == 0 {
      assert s == y;
    } else if '[' !in x {
      ReplaceAllSkipPrefix(x, y, pat, rep);
      ReplaceAllFree(x, pat, rep);
    } else if |s| < |pat| {
      assert ReplaceAll(x, pat, rep) == x;
    } else {
      if |x| < |pat| {
        // the `]` ending `x` would sit inside an occurrence
        assert s[..|pat|][|x| - 1] == x[|x| - 1];
      }
      if s[..|pat|] == pat {
        assert x[..|pat|] == pat;
        ReplaceAllConcat(x[|pat|..], y, pat, rep);
        ConcatAfterMatch(x, y, pat, rep);
      } else {
        if |x| >= |pat| {
          assert x[..|pat|] == s[..|pat|];
        }
        ReplaceAllConcat(x[1..], y, pat, rep);
        ConcatAfterMiss(x, y, pat, rep);
      }
    }
  }

  /** A bracket group whose content holds no bracket and does not spell
      the placeholder is left alone. */
  lemma PlainGroupKept(x: string, pat: string, rep: string)
    requires IsPlaceholder(pat)
    requires '[' !in x && ']' !in x && "[" + x + "]" != pat
    ensures ReplaceAll("[" + x + "]", pat, rep) == "[" + x + "]"
  {
    var g := "[" + x + "]";
    if |g| >= |pat| {
      if |g| > |pat| {
        assert g[..|pat|][|pat| - 1] == x[|pat| - 2];
      }
      assert g[1..] == x + "]";
      ReplaceAllFree(x + "]", pat, rep);
      assert g == [g[0]] + g[1..];
    }
  }

  /** Another placeholder inside an extra pair of brackets is left alone. */
  lemma PlaceholderGroupKept(q: string, pat: string, rep: string)
    requires IsPlaceholder(pat) && IsPlaceholder(q) && q != pat
    ensures ReplaceAll("[" + q + "]", pat, rep) == "[" + q + "]"
  {
    var g := "[" + q + "]";
    if |g| >= |pat| {
      assert g[..|pat|][1] == q[0] == '[' != pat[1];
      assert g[1..] == q + "]";
      var w := q[1..|q| - 1];
      assert q == "[" + w + "]";
      PlainGroupKept(w, pat, rep);
      ReplaceAllConcat(q, "]", pat, rep);
      ReplaceAllFree("]", pat, rep);
      assert g == [g[0]] + g[1..];
    }
  }

  /** The placeholder itself inside an extra pair of brackets becomes the
      replacement inside one pair. */
  lemma PlaceholderGroupFilled(pat: string, rep: string)
    requires IsPlaceholder(pat)
    ensures ReplaceAll("[" + pat + "]", pat, rep) == "[" + rep + "]"
  {
    BracketedPlaceholder("", "", pat, rep);
    assert "" + "[" + pat + "]" + "" == "[" + pat + "]";
    assert ReplaceAll("", pat, rep) == "";
    assert "" + "[" + rep + "]" + "" == "[" + rep + "]";
  }

  // ---------------------------------------------------------------------
  // Decimal formatting and parsing of integers
  // ---------------------------------------------------------------------

  predicate IsDigit(c: char) {
    '0' <= c <= '9'
  }

  function DigitChar(d: nat): (c: char)
    requires d < 10
    ensures IsDigit(c)
  {
    (d + '0' as int) as char
  }

  function DigitValue(c: char): (d: nat)
    requires IsDigit(c)
    ensures d < 10
  {
    (c as int - '0' as int)
  }

  predicate AllDigits(s: string) {
    forall k | 0 <= k < |s| :: IsDigit(s[k])
  }

  /** The value of a run of decimal digits, most significant first. */
  function DigitsValue(s: string): nat
    requires AllDigits(s)
  {
    if |s| == 0 then 0
    else DigitsValue(s[..|s| - 1]) * 10 + DigitValue(s[|s| - 1])
  }

  /** The shortest decimal numeral of `n`. */
  function NatToString(n: nat): (s: string)
    ensures |s| >= 1 && AllDigits(s)
    ensures DigitsValue(s) == n
  {
    if n < 10 then [DigitChar(n)]
    else
      var s := NatToString(n / 10) + [DigitChar(n % 10)];
      assert s[..|s| - 1] == NatToString(n / 10);
      s
  }

  /** `Int32.ToString()` (and string concatenation with an int): an optional
      `-` followed by the shortest decimal numeral of the magnitude. */
  function IntToString(n: int): (s: string)
    ensures |s| >= 1
    ensures s[0] == '-' <==> n < 0
    ensures n < 0 ==> AllDigits(s[1..]) && DigitsValue(s[1..]) == -n
    ensures n >= 0 ==> AllDigits(s) && DigitsValue(s) == n
  {
    if n < 0 then "-" + NatToString(-n) else NatToString(n)
  }

  /** The white space the .NET number parser skips around a number. */
  predicate IsNumberWhite(c: char) {
    c == ' ' || '\t' <= c <= '\r'
  }

  function TrimNumberWhite(s: string): (r: string)
    ensures |r| <= |s|
    decreases |s|
  {
    if |s| > 0 && IsNumberWhite(s[0]) then TrimNumberWhite(s[1..])
    else if |s| > 0 && IsNumberWhite(s[|s| - 1]) then TrimNumberWhite(s[..|s| - 1])
    else s
  }

  /** `int.TryParse(s, out v)` with the default integer style: optional
      white space, an optional `+` or `-`, at least one ASCII digit,
      optional white space, and a value inside the 32-bit range. */
  function ParseInt32(s: string): (r: Option<int>)
    ensures r.Some? ==> Int32.InRange(r.value)
  {
    var t := TrimNumberWhite(s);
    if |t| == 0 then None
    else
      var negative := t[0] == '-';
      var digits := if t[0] == '-' || t[0] == '+' then t[1..] else t;
      if |digits| == 0 || !AllDigits(digits) then None
      else
        var v: int := if negative then 0 - DigitsValue(digits) else DigitsValue(digits);
        if Int32.InRange(v) then Some(v) else None
  }

  /** Formatting an int32 and parsing it back gives the same number. */
  lemma ParseFormattedInt(n: int)
    requires Int32.InRange(n)
    ensures ParseInt32(IntToString(n)) == Some(n)
  {
    var s := IntToString(n);
    assert !IsNumberWhite(s[0]);
    assert !IsNumberWhite(s[|s| - 1]) by {
      if n < 0 {
        assert s[|s| - 1] == s[1..][|s| - 2];
      }
    }
    assert TrimNumberWhite(s) == s;
    if n < 0 {
      assert s[1..] == NatToString(-n);
    }
  }

  /** The digits of a numeral: what follows an optional leading sign. */
  function Unsigned(t: string): (d: string)
    ensures |d| <= |t|
  {
    if |t| > 0 && (t[0] == '-' || t[0] == '+') then t[1..] else t
  }

  /** An optional `+` or `-` followed by at least one ASCII digit. */
  predicate IsNumeral(t: string) {
    |Unsigned(t)| > 0 && AllDigits(Unsigned(t))
  }

  /** Soundness of `ParseInt32`: a parsed value comes from a numeral left
      after the white space is trimmed, whose digits spell its magnitude
      and whose sign is `-` for a negative value and not `-` for a
      positive one (so `-0` reads as 0). */
  lemma ParseInt32Sound(s: string)
    requires ParseInt32(s).Some?
    ensures var t, v := TrimNumberWhite(s), ParseInt32(s).value;
            && IsNumeral(t)
            && DigitsValue(Unsigned(t)) == (if v < 0 then -v else v)
            && (v < 0 ==> t[0] == '-')
            && (v > 0 ==> t[0] != '-')
  {
  }

  /** The value a numeral spells: its digits, negated after a `-`. */
  function NumeralValue(t: string): int
    requires IsNumeral(t)
  {
    var n: int := DigitsValue(Unsigned(t));
    if t[0] == '-' then -n else n
  }

  /** Completeness of `ParseInt32`: every numeral surrounded by white space
      whose value is an int32 is read, whatever its leading zeros and
      whether or not it carries a `+`. */
  lemma ParseInt32Complete(s: string)
    requires IsNumeral(TrimNumberWhite(s)) && Int32.InRange(NumeralValue(TrimNumberWhite(s)))
    ensures ParseInt32(s) == Some(NumeralValue(TrimNumberWhite(s)))
  {
  }

  /** A character the number grammar has no place for (not a digit, not a
      sign, not white space) anywhere in the string makes it unreadable. */
  lemma ParseInt32Rejects(s: string, k: int)
    requires 0 <= k < |s|
    requires !IsDigit(s[k]) && s[k] != '+' && s[k] != '-' && !IsNumberWhite(s[k])
    ensures ParseInt32(s) == None
  {
    var t := TrimNumberWhite(s);
    var j := TrimNumberWhiteKeeps(s, k);
    if ParseInt32(s).Some? {
      var d := Unsigned(t);
      if j == 0 {
        assert t[0] == '-' || t[0] == '+' || t[0] == d[0];
      } else if t[0] == '-' || t[0] == '+' {
        assert t[j] == d[j - 1];
      } else {
        assert t[j] == d[j];
      }
    }
  }

  /** Trimming white space keeps every other character, at some position
      of the result. */
  lemma {:induction false} TrimNumberWhiteKeeps(s: string, k: int) returns (j: int)
    requires 0 <= k < |s| && !IsNumberWhite(s[k])
    ensures 0 <= j < |TrimNumberWhite(s)| && TrimNumberWhite(s)[j] == s[k]
    decreases |s|
  {
    if IsNumberWhite(s[0]) {
      j := TrimNumberWhiteKeeps(s[1..], k - 1);
    } else if IsNumberWhite(s[|s| - 1]) {
      j := TrimNumberWhiteKeeps(s[..|s| - 1], k);
    } else {
      j := k;
    }
  }

  /** Numerals that `IntToString` never writes still read as their value. */
  lemma NonCanonicalNumerals()
    ensures ParseInt32("+7") == Some(7)
    ensures ParseInt32(" 007 ") == Some(7)
    ensures ParseInt32("-0") == Some(0)
    ensures ParseInt32("- 7") == None
    ensures ParseInt32("+") == None
  {
    assert TrimNumberWhite("+7") == "+7";
    assert TrimNumberWhite(" 007 ") == "007" by {
      assert " 007 "[1..] == "007 ";
      assert "007 "[..3] == "007";
    }
    assert DigitsValue("007") == 7 by {
      assert "007"[..2] == "00";
      assert "00"[..1] == "0";
      assert "0"[..0] == "";
    }
    assert "+7"[1..] == "7";
    assert DigitsValue("7") == 7 by {
      assert "7"[..0] == "";
    }
    assert TrimNumberWhite("-0") == "-0";
    assert "-0"[1..] == "0";
    assert DigitsValue("0") == 0 by {
      assert "0"[..0] == "";
    }
    assert TrimNumberWhite("- 7") == "- 7";
    assert "- 7"[1..] == " 7";
    assert !IsDigit(" 7"[0]);
    assert TrimNumberWhite("+") == "+";
    assert "+"[1..] == "";
  }

  /** A formatted int holds neither the given separator nor white space,
      provided the separator is neither a digit nor `-`. */
  lemma IntToStringAvoids(n: int, c: char)
    requires !IsDigit(c) && c != '-'
    ensures c !in IntToString(n)
  {
    var s := IntToString(n);
    if n < 0 {
      assert forall k | 1 <= k < |s| :: s[k] == s[1..][k - 1];
    }
  }

  // ---------------------------------------------------------------------
  // Case mapping
  // ---------------------------------------------------------------------

  function ToLowerChar(c: char): char {
    if 'A' <= c <= 'Z' then (c as int - 'A' as int + 'a' as int) as char else c
  }

  /** `ToLower()` restricted to the ASCII letters. */
  function ToLower(s: string): (r: string)
    ensures |r| == |s|
    ensures forall k | 0 <= k < |s| :: r[k] == ToLowerChar(s[k])
  {
    seq(|s|, k requires 0 <= k < |s| => ToLowerChar(s[k]))
  }

  /** Two strings are equal when upper- and lower-case ASCII letters are
      not told apart. */
  predicate EqualsIgnoreCase(a: string, b: string) {
    |a| == |b| && forall k | 0 <= k < |a| :: ToLowerChar(a[k]) == ToLowerChar(b[k])
  }
}

=== FILE: wrappers.dfy ===
/** Failure-compatible wrappers shared by every module of the model: `Option`
    stands for a C# reference that may be null, `Result` for a call that either
    returns a value or throws. */
module Wrappers {

  datatype Option<+T> = None | Some(value: T) {

    predicate IsFailure() {
      None?
    }

    function PropagateFailure<U>(): Option<U>
      requires None?
    {
      None
    }

    function Extract(): T
      requires Some?
    {
      value
    }

    function GetOr(default: T): T {
      match this
      case Some(v) => v
      case None => default
    }
  }

  datatype Result<+R, +E> = Success(value: R) | Failure(error: E) {

    predicate IsFailure() {
      Failure?
    }

    function PropagateFailure<U>(): Result<U, E>
      requires Failure?
    {
      Failure(error)
    }

    function Extract(): R
      requires Success?
    {
      value
    }
  }
}
